=== FILE: README.md ===
# coldmail core, modelled in Dafny

coldmail is a cold-email outreach tool. It collects companies from a CSV upload, a hand-filled
form or a job-site crawler, writes AI drafts from mail templates, and queues the mails. It then
sends them, one per scheduled tick under a daily limit or as a manual batch, and rolls each send
up into the company's send status.

This project models that core on an in-memory database:

- **Tables.** `Records.Db` holds every table (queue, mail logs, companies, drafts, templates,
  signatures, settings, collection logs, activity logs). It also holds a `journal` listing each
  write statement in the order it was issued.
- **Writes.** Every write statement is a function on `Db`. The class `Store.Store` holds the same
  tables as fields, and its methods perform those writes in place.
- **Handlers.** Each HTTP handler has two forms. One is a function from the old database and the
  request to the new database and the response. The other is an imperative method on a `Store`
  that issues the same writes in the same order, and is proved equal to the function.
- **Outside services are parameters.** The mail provider's answer to the i-th target, the AI
  reply, the error of the i-th insert, the clock and the sender environment are all inputs.

Modules, in dependency order:

- `Wrappers`: `Option` and `Result`.
- `Strings`: JS `trim`, literal global and first-match `replace`, `split`/`join`, decimal
  digits, ASCII lower-casing.
- `Records`: the rows, the statuses, the database and its writes, and the `.single()` readings.
- `Store`: the mutable store.
- `Query`: ordering and windows of listed rows.
- `Utils`: `src/lib/utils.js`.
- `Templating`: the enqueue-time and preview `replaceVariables`.
- `ProcessQueue`: the cron tick.
- `ManualSend`: `send.js`.
- `SendQueue`: `queue.js`.
- `DirectQueue`: `queue-direct.js`.
- `GenerateDrafts`: `generate.js`.
- `CsvUpload`: `csv-upload.js`.
- `Companies`: `companies/index.js`.
- `Templates`: `templates/index.js`.
- `Settings`: `settings/index.js`.
- `Crawler`: `scripts/crawler/main.py`.

## Model

| member | source | states |
|---|---|---|
| Records.SendStatusFor | src/pages/api/cron/process-queue.js:101-106 | send order 1 gives 1차완료, 2 gives 2차완료, anything else gives 3차완료; never 미발송 |
| Records.QueuePatch.Apply | src/pages/api/send/queue.js:138-144 | a patch sets each of the eight patchable columns it names (status, subject, body, error message, retry count, provider id, attempt and send times) and keeps the rest; company, draft, address, order and creation time are kept |
| Records.Db.PatchQueue | src/pages/api/cron/process-queue.js:61-64 | `update ... eq('id')`: the row with that id is patched (none if absent), every other row is kept, one queue write is journalled |
| Records.Db.InsertQueue | src/pages/api/send/queue.js:87-99 | the row is added under a fresh id, nothing else changes |
| Records.Db.DeleteQueue | src/pages/api/send/queue.js:182-185 | exactly that id leaves the queue, the other rows are kept |
| Records.Db.AppendMailLog | src/pages/api/cron/process-queue.js:86-98 | one mail log is appended |
| Records.Db.RollupCompany | src/pages/api/cron/process-queue.js:100-109 | the company (if present) gets the status for the send order, `send_count` = send order and `last_send_date` = now; other companies are kept |
| Records.Db.InsertCompany | src/pages/api/companies/index.js:114-128 | the company is added under a fresh id |
| Records.Db.DeleteCompanies | src/pages/api/companies/index.js:162-165 | `delete().in('id', ids)`: exactly the listed ids leave, the rest are kept |
| Records.Db.SetDraftStatus | src/pages/api/cron/process-queue.js:111-115 | the draft with that id (none for a null id) gets the status, other drafts are kept |
| Records.Db.InsertDraft | src/pages/api/drafts/generate.js:96-108 | the draft is added under a fresh id |
| Records.Db.ClearDefaultTemplates | src/pages/api/templates/index.js:42-47 | every template keeps its key and loses its default flag |
| Records.Db.InsertTemplate | src/pages/api/templates/index.js:49-60 | the template is added under a fresh id |
| Records.Db.UpsertSetting | src/pages/api/settings/index.js:39-45 | upsert on conflict by key; only the settings change |
| Records.Db.InsertCollectionLog | src/pages/api/companies/csv-upload.js:35-44 | the collection log is added under a fresh id |
| Records.Db.FinishCollectionLog | src/pages/api/companies/csv-upload.js:102-109 | that log gets the counts and `completed`; other logs are kept |
| Records.Db.AppendActivity | src/pages/api/send/send.js:150-157 | one activity row is appended |
| Records.Matching | src/pages/api/send/queue.js:30-44 | a filter keeps exactly the rows that pass it, and as many of them as pass it |
| Records.MatchingMultiset | src/pages/api/send/queue.js:30-44 | each passing row is kept as often as the table holds it, and no other row |
| Records.MatchingSnoc | src/pages/api/send/queue.js:30-44 | filtering keeps table order: a row added at the end comes last among the matches, if it passes |
| Records.Single | src/pages/api/cron/process-queue.js:15-19 | `.single()`: a row is returned exactly when one row matches, and then it is the only match |
| Records.DefaultSignature | src/pages/api/drafts/generate.js:45-50 | a content is returned exactly when one signature is the default, and it is that signature's content |
| Records.SettingValue | src/pages/api/cron/process-queue.js:15-19 | a value is returned exactly when one row has the key, and it is that row's value |
| Records.IdsWhere | src/pages/api/templates/index.js:46 | exactly the ids whose row passes the test |
| Records.TheOne | src/pages/api/drafts/generate.js:30-34 | an id exactly when the set has one element |
| Records.DefaultTemplate | src/pages/api/drafts/generate.js:30-35 | the template is found exactly when one template is the default, and it is that template |
| Records.CountAppend | src/pages/api/send/send.js:159-164 | a count over two result lists is the sum of the counts |
| Records.CountComplement | src/pages/api/send/send.js:159-164 | the rows passing a test and those failing it add up to all rows |
| Records.ResultCounts | src/pages/api/send/send.js:159-164 | `successCount + failCount` is the number of results |
| Records.EmailHolders | src/pages/api/companies/index.js:100-105 | exactly the companies with that contact email |
| Records.UniqueHolders | src/pages/api/companies/index.js:100-112 | with unique emails at most one company holds an email, and `.maybeSingle()` finds it exactly when one does |
| Records.InsertKeepsEmailsUnique | src/pages/api/companies/index.js:100-128 | adding a company whose email nobody holds keeps contact emails unique |
| Store.Store.constructor | src/lib/supabase.js:7-9 | a store holding the given tables |
| Store.Store.PatchQueue | src/pages/api/cron/process-queue.js:61-64 | the stored tables become `Db.PatchQueue` of the old ones |
| Store.Store.UnmatchedQueueUpdate | src/pages/api/send/queue.js:138-144 | the stored tables become `Db.UnmatchedQueueUpdate` of the old ones: the update is journalled and no row changes |
| Store.Store.InsertQueue | src/pages/api/send/queue.js:87-99 | returns the fresh id; the tables become `Db.InsertQueue` of the old ones |
| Store.Store.DeleteQueue | src/pages/api/send/queue.js:182-185 | the tables become `Db.DeleteQueue` of the old ones |
| Store.Store.AppendMailLog | src/pages/api/send/send.js:82-94 | the tables become `Db.AppendMailLog` of the old ones |
| Store.Store.RollupCompany | src/pages/api/send/send.js:104-111 | the tables become `Db.RollupCompany` of the old ones |
| Store.Store.InsertCompany | src/pages/api/companies/csv-upload.js:86 | returns the fresh id; the tables become `Db.InsertCompany` of the old ones |
| Store.Store.DeleteCompanies | src/pages/api/companies/index.js:162-165 | the tables become `Db.DeleteCompanies` of the old ones |
| Store.Store.SetDraftStatus | src/pages/api/send/send.js:114-117 | the tables become `Db.SetDraftStatus` of the old ones |
| Store.Store.InsertDraft | src/pages/api/drafts/generate.js:96-108 | returns the fresh id; the tables become `Db.InsertDraft` of the old ones |
| Store.Store.ClearDefaultTemplates | src/pages/api/templates/index.js:42-47 | the tables become `Db.ClearDefaultTemplates` of the old ones |
| Store.Store.InsertTemplate | src/pages/api/templates/index.js:49-60 | returns the fresh id; the tables become `Db.InsertTemplate` of the old ones |
| Store.Store.UpsertSetting | src/pages/api/settings/index.js:39-45 | the tables become `Db.UpsertSetting` of the old ones |
| Store.Store.InsertCollectionLog | src/pages/api/companies/csv-upload.js:35-44 | returns the fresh id; the tables become `Db.InsertCollectionLog` of the old ones |
| Store.Store.FinishCollectionLog | src/pages/api/companies/csv-upload.js:102-109 | the tables become `Db.FinishCollectionLog` of the old ones |
| Store.Store.AppendActivity | src/pages/api/drafts/generate.js:124-130 | the tables become `Db.AppendActivity` of the old ones |
| Query.InsertBy | src/pages/api/send/queue.js:28 | inserting a row adds exactly that row to the multiset |
| Query.SortBy | src/pages/api/send/queue.js:28 | ordering keeps the multiset of rows |
| Query.InsertBySorted | src/pages/api/send/queue.js:28 | inserting into an ordered list under a total preorder keeps it ordered |
| Query.SortBySorted | src/pages/api/send/queue.js:28 | the ordered list is ordered and a permutation of the rows |
| Query.Window | src/pages/api/companies/index.js:58-61 | `range(offset, offset + limit - 1)`: each row is the one at `offset + i`; none past the end, `limit` when enough follow, the rest otherwise |
| Query.WindowsAdjoin | src/pages/api/companies/index.js:58-61 | two consecutive windows make up the window of twice the size |
| Strings.TrimStart | src/lib/utils.js:64 | a suffix of the input, starting at a non-space, with only spaces before it |
| Strings.TrimEnd | src/lib/utils.js:64 | a prefix of the input, ending at a non-space, with only spaces after it |
| Strings.Trim | src/lib/utils.js:64 | the result is no longer than the input and neither starts nor ends with a space |
| Strings.TrimIsSlice | src/lib/utils.js:64 | the trimmed text is the slice of the input that only white space surrounds and that has none at its ends |
| Strings.TrimKeeps | src/lib/utils.js:64 | trimming a string without outer spaces changes nothing |
| Strings.StripQuotes | src/lib/utils.js:64 | the input is the result with a `"` in front exactly when the input starts with one, and a `"` behind exactly when it ends with another |
| Strings.ReplaceAllNoMatch | src/pages/api/send/queue-direct.js:121-132 | a global replace of a pattern that does not occur changes nothing |
| Strings.ReplaceAllSkip | src/pages/api/send/queue-direct.js:121-132 | a prefix in which no match starts passes through the replace unchanged |
| Strings.ReplaceAllAtFront | src/pages/api/send/queue-direct.js:121-132 | a match at the front is replaced and the scan goes on after it |
| Strings.ReplaceFirstLeftmost | src/pages/api/drafts/generate.js:92 | `replace` with a string pattern replaces the leftmost occurrence and keeps everything around it |
| Strings.ReplaceFirstNoMatch | src/pages/api/drafts/generate.js:92 | without an occurrence the text is kept |
| Strings.Split | src/lib/utils.js:63-68 | at least one part, and no part holds the separator |
| Strings.JoinSplit | src/lib/utils.js:63-68 | joining the parts of a split gives back the text |
| Strings.SplitJoin | src/lib/utils.js:45-47 | splitting a join of separator-free parts gives back the parts |
| Strings.SplitPrefix | src/lib/utils.js:63-68 | a separator-free prefix joins the first part |
| Strings.ParseNatToString | src/pages/api/send/send.js:155 | the decimal rendering of a count is digits that read back as the count |
| Strings.Lower | src/pages/api/companies/index.js:43 | `ilike` case folding: same length, each character lower-cased |
| Utils.Cell | src/lib/utils.js:64-68 | a cell is never longer than its raw text |
| Utils.CellSlice | src/lib/utils.js:64-68 | the raw text is white space, then a run that starts and ends with a non-space, then white space; the run is the cell with a `"` in front exactly when the run starts with one and a `"` behind exactly when it ends with another |
| Utils.Cells | src/lib/utils.js:68 | one cell per comma-separated piece |
| Utils.Lines | src/lib/utils.js:63 | the trimmed text split on newlines; at least one line |
| Utils.BuildRow | src/lib/utils.js:69-72 | the `forEach` loop builds `Row(headers, values)` |
| Utils.ParseCsv | src/lib/utils.js:62-77 | headers from the first line; one row per further line, built from that line's cells |
| Utils.RowKeys | src/lib/utils.js:69-72 | a row's keys are exactly the headers |
| Utils.RowValue | src/lib/utils.js:69-72 | a header's value is the cell at its last position, or `''` when the line is short |
| Utils.ParsedRow | src/lib/utils.js:69-72 | the keys are exactly the headers and each value is its cell or `''`; extra cells are dropped |
| Utils.QuotedCommaSplits | src/lib/utils.js:68 | a quoted cell holding a comma is split in two: `"x,y"` gives `x` and `y` |
| Utils.QuotedLineSplits | src/lib/utils.js:68 | the split itself ignores quotes |
| Utils.CellDropsQuote | src/lib/utils.js:68 | each half loses its one quote |
| Utils.IndexOf | src/lib/utils.js:80-81 | the first position of a character, or none exactly when it is absent |
| Utils.ValidateEmail | src/lib/utils.js:79-82 | an accepted address has at least five characters, holds an `@` and does not start with one; accepted exactly for the regular expression's shape is Utils.ValidateEmailIffShape |
| Utils.ValidateEmailIffShape | src/lib/utils.js:79-82 | `validateEmail` holds exactly for `local@left.right` with three non-empty parts free of white space and `@` |
| Utils.ValidateEmailSound | src/lib/utils.js:79-82 | an accepted string has that shape |
| Utils.ValidateEmailComplete | src/lib/utils.js:79-82 | a string of that shape is accepted |
| Utils.AtomSlice | src/lib/utils.js:80-81 | a non-empty space-free slice without `@` is a part |
| Utils.ValidateCompanyData | src/lib/utils.js:84-99 | one error for a missing name plus one for a missing or malformed email, and no more; none exactly when the name and a well-formed email are present; `회사명 누락` exactly when both name columns are empty, and then first; `이메일 누락` and `이메일 형식 오류` as the email demands |
| Utils.Truthy | src/lib/utils.js:45-47 | `filter(Boolean)`: the truthy arguments in order, each non-empty |
| Utils.Cn | src/lib/utils.js:45-47 | the class string is empty exactly when no argument is truthy; that it splits back into the truthy classes is Utils.CnSplits |
| Utils.CnSplits | src/lib/utils.js:45-47 | splitting `cn(...)` on spaces gives back exactly the truthy classes in order |
| Utils.TruthyFrom | src/lib/utils.js:45-47 | every kept class was an argument |
| Utils.CnNone | src/lib/utils.js:45-47 | with no truthy argument `cn` is `''` |
| Utils.TruthyNone | src/lib/utils.js:45-47 | with no truthy argument nothing is kept |
| Utils.FormatRelativeTime | src/lib/utils.js:26-43 | `-` exactly for a null date; otherwise each bucket exactly on its range of elapsed time, with the shown number floored |
| Utils.SendStatusConfigKeys | src/lib/utils.js:55-60 | the badge table has exactly the four send-status labels as keys |
| Templating.Or | src/pages/api/send/queue-direct.js:122-123 | `a \|\| d` is `a` or `d`, and empty only when both are |
| Templating.RenderTwo | src/pages/api/send/queue-direct.js:115-133 | a template's text is the text of its pieces in order |
| Templating.Lookup | src/pages/api/send/queue-direct.js:121-132 | the value of the first binding of a name, none exactly when the name is unbound |
| Templating.Resolve | src/pages/api/send/queue-direct.js:121-132 | every piece resolved by itself: bound slots become text, other pieces are kept |
| Templating.ResolveLeavesUnbound | src/pages/api/send/queue-direct.js:121-132 | a slot survives exactly when its name is unbound, and then unchanged |
| Templating.SlotSkip | src/pages/api/send/queue-direct.js:121-132 | no placeholder of one name starts inside a placeholder of another |
| Templating.Subst | src/pages/api/send/queue-direct.js:121-132 | one binding applied piece by piece |
| Templating.TextSkip | src/pages/api/send/queue-direct.js:121-132 | literal text without `{` passes through a replace |
| Templating.FrontPiece | src/pages/api/send/queue-direct.js:121-132 | a replace handles the first piece on its own |
| Templating.ReplaceOne | src/pages/api/send/queue-direct.js:121-132 | one global replace on a structured template is the substitution of that slot |
| Templating.SubstStructured | src/pages/api/send/queue-direct.js:121-132 | substituting a brace-free value keeps the template structured |
| Templating.SubstThenResolve | src/pages/api/send/queue-direct.js:121-132 | substituting the first binding and resolving the rest is resolving all of them |
| Templating.ChainResolves | src/pages/api/send/queue-direct.js:121-132 | the chain of global replaces on a structured template is the template with every bound slot filled, the first binding of a name winning |
| Templating.ResolveIdempotent | src/pages/api/send/queue-direct.js:121-132 | resolving twice is resolving once |
| Templating.ResolveStructured | src/pages/api/send/queue-direct.js:121-132 | resolving keeps a template structured |
| Templating.ChainIdempotent | src/pages/api/send/queue-direct.js:121-132 | running the replace chain again on its own output changes nothing |
| Templating.Names | src/pages/api/send/queue-direct.js:121-132 | exactly the bound names |
| Templating.NoBoundSlotLeft | src/pages/api/send/queue-direct.js:121-132 | no slot whose name is bound is left after resolving |
| Templating.ChainOfEmpty | src/pages/api/send/queue-direct.js:116 | the chain turns empty text into empty text |
| Templating.EnqueueBindings | src/pages/api/send/queue-direct.js:121-132 | the eleven enqueue-time placeholders |
| Templating.KnownNames | src/pages/api/send/queue-direct.js:121-132 | the recognised names hold no brace |
| Templating.EnqueueBindingsTame | src/pages/api/send/queue-direct.js:121-132 | with company, sender and signature free of `{`, every substituted value is free of `{` |
| Templating.ReplaceVariables | src/pages/api/send/queue-direct.js:115-133 | a text without `{` (the empty text included) comes back as it is; what it does to placeholders is Templating.ReplaceVariablesStructured |
| Templating.ChainKeepsPlain | src/pages/api/send/queue-direct.js:121-132 | the chain of replaces leaves a text without `{` as it is |
| Templating.ReplaceVariablesStructured | src/pages/api/send/queue-direct.js:115-133 | on a structured template with tame values, `replaceVariables` fills every one of the eleven placeholders (defaults included) and leaves every other placeholder in place |
| Templating.BracesBeforeSlot | src/pages/api/send/queue-direct.js:121-132 | a replace inside `{{` + placeholder works on the placeholder |
| Templating.PrefixedSlotUntouched | src/pages/api/send/queue-direct.js:121-132 | another name's replace leaves `{{{{m}}...` alone |
| Templating.PrefixedSlotEmptied | src/pages/api/send/queue-direct.js:130 | emptying `{{m}}` turns `{{{{m}}r` into `{{r` |
| Templating.ChainKeepsPrefixedSlot | src/pages/api/send/queue-direct.js:121-129 | the replaces before `demo_link` leave `{{{{demo_link}}...` alone |
| Templating.ChainSplitAt | src/pages/api/send/queue-direct.js:121-132 | a chain is its first `k` replaces followed by the rest |
| Templating.ChainAssembles | src/pages/api/send/queue-direct.js:121-132 | emptying one placeholder can assemble a new placeholder from the text around it |
| Templating.ChainAssemblesPlaceholder | src/pages/api/send/queue-direct.js:115-133 | `replaceVariables` turns `{{{{demo_link}}company_name}}` into `{{company_name}}`: output can hold a recognised placeholder even when no value does |
| Templating.EnqueueBeforeDemoLink | src/pages/api/send/queue-direct.js:121-132 | the nine bindings before `demo_link` differ from it, and the tenth empties it |
| Templating.PreviewBindings | src/components/templates/TemplatePreview.jsx:32-43 | the nine preview placeholders |
| Templating.FindCompany | src/components/templates/TemplatePreview.jsx:17 | `companies.find`: the first company with the id, none exactly when no company has it |
| Templating.Preview | src/components/templates/TemplatePreview.jsx:15-30 | no template: the preview is unchanged; no company selected: the raw subject and body; a found company: both passed through the preview replace |
| Templating.PreviewBindingsTame | src/components/templates/TemplatePreview.jsx:32-43 | with company and sender free of `{`, every preview value is free of `{` |
| Templating.PreviewUnbound | src/components/templates/TemplatePreview.jsx:32-43 | `contact_title` and `sender_email` are not preview placeholders |
| Templating.PreviewLeavesUnfilled | src/components/templates/TemplatePreview.jsx:32-43 | on a structured template the preview fills its nine placeholders and keeps `{{contact_title}}` and `{{sender_email}}` as written |
| ProcessQueue.LimitOf | src/pages/api/cron/process-queue.js:21 | a falsy `daily_limit` (absent, null, false, 0, `''`) gives 100, a non-zero number gives itself, `true` compares as 1, a digit string (`"0"` included) as its value, any other string and an object as a limit never reached |
| ProcessQueue.DailyLimit | src/pages/api/cron/process-queue.js:15-21 | a `send_settings` object holding `daily_limit` gives `LimitOf` of that value; 100 when the row is missing, is not an object or has no `daily_limit` |
| ProcessQueue.OldestWaiting | src/pages/api/cron/process-queue.js:44-50 | picks a waiting item no waiting item predates, or none exactly when none is waiting |
| ProcessQueue.Tick | src/pages/api/cron/process-queue.js:13-140 | limit reached: skipped and nothing changes; nothing waiting: processed 0 and nothing changes; otherwise the oldest waiting item is sent, and the new state is its delivery or its refusal |
| ProcessQueue.Deliver | src/pages/api/cron/process-queue.js:61-115 | a delivered item ends `complete` with the send time, and one log row for it is appended; the whole new state is ProcessQueue.DeliverEffects and ProcessQueue.DeliverRollsUp |
| ProcessQueue.DeliverEffects | src/pages/api/cron/process-queue.js:61-98 | on success the item alone becomes complete with attempt, send time and provider id, one `sent` log copying the item is appended, and the journal shows processing, then complete, then the log |
| ProcessQueue.DeliverRollsUp | src/pages/api/cron/process-queue.js:100-115 | on success only the item's company is rolled up and only the linked draft becomes sent |
| ProcessQueue.Refuse | src/pages/api/cron/process-queue.js:124-133 | a refused item ends `failed` with the provider's message and one more retry; logs, companies and drafts are kept; the journal is ProcessQueue.RefuseEffects |
| ProcessQueue.RefuseEffects | src/pages/api/cron/process-queue.js:124-133 | on failure the item alone becomes failed with the message and one more retry; logs, companies and drafts are kept |
| ProcessQueue.RunTick | src/pages/api/cron/process-queue.js:13-140 | the imperative tick picks FIFO and leaves the store as `Tick` says |
| ProcessQueue.TickKeepsDailyCap | src/pages/api/cron/process-queue.js:27-41 | a tick never takes today's sent count past the limit |
| ProcessQueue.DeliveredRunLogsOnce | src/pages/api/cron/process-queue.js:86-98 | a delivered tick appends exactly one `sent` log |
| ManualSend.Lookup | src/pages/api/send/send.js:31-71 | queue mode finds the row; draft mode finds the draft and its company's address; otherwise an error |
| ManualSend.SendOne | src/pages/api/send/send.js:29-148 | one result for the id, success exactly when found and delivered; a lookup error changes nothing; draft mode never touches the queue |
| ManualSend.SendOneDeliveredQueue | src/pages/api/send/send.js:82-128 | whatever the row's status: one `sent` log, the company rolled up if it exists and untouched otherwise, the linked draft sent if it exists, and the row complete, in that order |
| ManualSend.SendOneDeliveredDraft | src/pages/api/send/send.js:47-130 | a delivered draft: one `sent` log to the company's address, the company rolled up, the draft sent, the queue untouched, in that order |
| ManualSend.SendOneThrownQueue | src/pages/api/send/send.js:132-147 | a provider error fails the row with message, attempt time and one more retry, and writes nothing else |
| ManualSend.SendOneThrownDraft | src/pages/api/send/send.js:132-147 | in draft mode a provider error changes nothing |
| ManualSend.SendSteps | src/pages/api/send/send.js:25-148 | one result per target in input order |
| ManualSend.SendOneDeliveredWrites | src/pages/api/send/send.js:82-128 | the journal of one delivery: log, company, draft, and in queue mode the row |
| ManualSend.SendOneNeverProcessing | src/pages/api/send/send.js:120-144 | one target only appends writes, none of them `processing` |
| ManualSend.ExtendsTransitive | src/pages/api/send/send.js:25-148 | that property chains over consecutive targets |
| ManualSend.SendStepsNeverProcessing | src/pages/api/send/send.js:25-148 | a manual send never moves a row to `processing` |
| ManualSend.Send | src/pages/api/send/send.js:10-164 | no targets (queue ids win over draft ids, even empty): 400 and nothing changes |
| ManualSend.SendReportShape | src/pages/api/send/send.js:130-164 | one result per target in order, counts add up to the targets, draft ids leave the queue alone, the activity row written exactly when something was sent |
| ManualSend.SendTarget | src/pages/api/send/send.js:29-148 | the imperative per-target body leaves the store as `SendOne` says |
| ManualSend.SendTargets | src/pages/api/send/send.js:25-148 | the loop leaves the store as `SendSteps` says |
| ManualSend.SendRequest | src/pages/api/send/send.js:9-164 | the imperative handler leaves the store as `Send` says |
| SendQueue.ListQueue | src/pages/api/send/queue.js:21-46 | as many rows as pass the filters, each a row of the table that passes them; order and multiplicity are SendQueue.ListQueueSpec |
| SendQueue.ListQueueSpec | src/pages/api/send/queue.js:21-46 | newest first; every row of the table that passes the filters, as often as the table holds it, and no other; the status filter off when absent or `all` |
| SendQueue.RowForDraft | src/pages/api/send/queue.js:87-99 | a waiting row with the draft's id, company, subject, body and send order, the company's email and the sender's address and name; no error, provider id, attempt or send time, no retries |
| SendQueue.AddOne | src/pages/api/send/queue.js:73-111 | one result; success exactly when draft and company exist and the insert succeeds; otherwise the draft is unchanged |
| SendQueue.AddOneSucceeded | src/pages/api/send/queue.js:87-110 | a success inserts that row and marks only that draft queued |
| SendQueue.AddFrom | src/pages/api/send/queue.js:70-113 | the remaining drafts in order; one result per draft until a crash |
| SendQueue.AddSteps | src/pages/api/send/queue.js:70-113 | one result per draft id in order, fewer only after a crash |
| SendQueue.AddToQueue | src/pages/api/send/queue.js:57-125 | missing or empty ids: 400 and nothing changes; otherwise one result per id in order, counts adding up |
| SendQueue.AddDraft | src/pages/api/send/queue.js:73-111 | the imperative body leaves the store as `AddOne` says |
| SendQueue.AddDrafts | src/pages/api/send/queue.js:70-113 | the loop leaves the store as `AddSteps` says |
| SendQueue.AddToQueueRequest | src/pages/api/send/queue.js:57-125 | the imperative handler leaves the store as `AddToQueue` says |
| SendQueue.UpdateQueue | src/pages/api/send/queue.js:127-153 | no id: 400; updated exactly when the row exists and is waiting, and then only that row's subject and body change and one write is journalled, every other table and the id counter staying as they were; otherwise the update is issued, no row changes and the answer is the `.single()` error |
| SendQueue.UpdateQueueRequest | src/pages/api/send/queue.js:127-153 | the imperative handler leaves the store as `UpdateQueue` says |
| SendQueue.RemoveFromQueue | src/pages/api/send/queue.js:155-194 | no id: 400; otherwise the row goes whatever its status, and the linked draft returns to `draft` only if the row was waiting; the journal gets that draft update (when made) and then the delete; no other table and not the id counter changes |
| SendQueue.RemoveFromQueueRequest | src/pages/api/send/queue.js:155-194 | the imperative handler leaves the store as `RemoveFromQueue` says |
| DirectQueue.PickTemplate | src/pages/api/send/queue-direct.js:19-43 | the given template if it exists, otherwise the single default, otherwise none |
| DirectQueue.EnqueueSignature | src/pages/api/send/queue-direct.js:46-52 | the default signature when it is non-empty, otherwise the sender name and email |
| DirectQueue.DirectOne | src/pages/api/send/queue-direct.js:58-100 | one result; success exactly when the company exists and the insert succeeds; a failure changes nothing |
| DirectQueue.RowForCompany | src/pages/api/send/queue-direct.js:75-89 | the whole inserted row: waiting, no draft, the company's email, the sender's address and name, subject and body through `replaceVariables`, send order `(send_count \|\| 0) + 1`, no error, provider id, attempt or send time, no retries |
| DirectQueue.DirectOneSucceeded | src/pages/api/send/queue-direct.js:75-96 | the new row is waiting, has no draft, the company's email, and send order `(send_count \|\| 0) + 1` |
| DirectQueue.DirectFrom | src/pages/api/send/queue-direct.js:56-101 | the remaining companies in order, one result each |
| DirectQueue.QueueDirect | src/pages/api/send/queue-direct.js:11-108 | no companies: 400; no template: 400; otherwise one result per company in order, counts adding up |
| DirectQueue.DirectCompany | src/pages/api/send/queue-direct.js:58-100 | the imperative body leaves the store as `DirectOne` says |
| DirectQueue.QueueDirectRequest | src/pages/api/send/queue-direct.js:9-113 | the imperative handler leaves the store as `QueueDirect` says |
| GenerateDrafts.ChooseTemplate | src/pages/api/drafts/generate.js:19-43 | a given id is used only if it exists, with no fallback; otherwise the single default |
| GenerateDrafts.SignBody | src/pages/api/drafts/generate.js:89-93 | no or empty signature, or a body without `{{sender_signature}}`: the body is kept; the leftmost-only replacement is GenerateDrafts.SignBodySpec |
| GenerateDrafts.SignBodySpec | src/pages/api/drafts/generate.js:89-93 | no signature, or a body without the placeholder: the body is kept; otherwise only the leftmost `{{sender_signature}}` is replaced |
| GenerateDrafts.GenerateOne | src/pages/api/drafts/generate.js:56-120 | exactly one draft or one error per company; a missing company is an error and changes nothing |
| GenerateDrafts.GenerateOneCreates | src/pages/api/drafts/generate.js:73-116 | a created draft has status `draft`, send order `(send_count \|\| 0) + 1` and the signed AI body |
| GenerateDrafts.GenerateFrom | src/pages/api/drafts/generate.js:55-121 | the remaining companies, one entry each |
| GenerateDrafts.Generate | src/pages/api/drafts/generate.js:9-139 | no companies: 400; no template: 400; otherwise success = drafts, fail = errors, total = companies |
| GenerateDrafts.GenerateLogsActivity | src/pages/api/drafts/generate.js:123-139 | counts add up to the total, and the activity row is written exactly when a draft was created; the drafts loop writes no other activity row |
| GenerateDrafts.GenerateForCompany | src/pages/api/drafts/generate.js:56-120 | the imperative body leaves the store as `GenerateOne` says |
| GenerateDrafts.GenerateAll | src/pages/api/drafts/generate.js:55-121 | the loop leaves the store as `GenerateFrom` says |
| GenerateDrafts.GenerateRequest | src/pages/api/drafts/generate.js:9-139 | the imperative handler leaves the store as `Generate` says |
| CsvUpload.FirstOf | src/pages/api/companies/csv-upload.js:52-57 | the first non-empty of three columns, empty only when all are |
| CsvUpload.MapRow | src/pages/api/companies/csv-upload.js:51-61 | name and email from their fallback columns, source `csv`, the given industry or null, the upload's log |
| CsvUpload.RowProblem | src/pages/api/companies/csv-upload.js:63-83 | no problem exactly when there is a name, a well-formed email and no company holding it; otherwise the first failing check's message |
| CsvUpload.ImportOne | src/pages/api/companies/csv-upload.js:47-98 | a refused row changes nothing; an accepted row is inserted |
| CsvUpload.ImportFrom | src/pages/api/companies/csv-upload.js:46-99 | the remaining rows, one outcome each |
| CsvUpload.ImportRows | src/pages/api/companies/csv-upload.js:46-99 | one outcome per row |
| CsvUpload.ErrorsOf | src/pages/api/companies/csv-upload.js:91-97 | one error per refused row |
| CsvUpload.ErrorsOfRows | src/pages/api/companies/csv-upload.js:93-97 | each error carries row number index + 2, the row and its message, in row order |
| CsvUpload.Upload | src/pages/api/companies/csv-upload.js:17-122 | missing or empty data: 400 and nothing changes |
| CsvUpload.Conclude | src/pages/api/companies/csv-upload.js:101-122 | success and fail count the outcomes and add up to the total |
| CsvUpload.UploadErrors | src/pages/api/companies/csv-upload.js:27-32 | total = rows, success + fail = total, the errors numbered as above |
| CsvUpload.UploadLog | src/pages/api/companies/csv-upload.js:35-44 | the collection log starts `processing` and ends `completed` with the final counts |
| CsvUpload.LogFinished | src/pages/api/companies/csv-upload.js:102-109 | finishing sets exactly the counts and the status |
| CsvUpload.UploadActivityRow | src/pages/api/companies/csv-upload.js:111-117 | one activity row with the counts |
| CsvUpload.UploadJournal | src/pages/api/companies/csv-upload.js:35-117 | the log insert comes first, then the company inserts, then the log update and the activity |
| CsvUpload.RowEmails | src/pages/api/companies/csv-upload.js:54 | each row's mapped email |
| CsvUpload.ImportOneKeeps | src/pages/api/companies/csv-upload.js:75-88 | one row keeps "every stored email belongs to one company" |
| CsvUpload.RefusedKeeps | src/pages/api/companies/csv-upload.js:91-97 | a refused row keeps it |
| CsvUpload.InsertedKeeps | src/pages/api/companies/csv-upload.js:86-90 | an inserted row keeps it, and is then the only holder of its email |
| CsvUpload.InsertKeepsHeld | src/pages/api/companies/csv-upload.js:86-90 | every inserted row's email is still held after an insert, and the new row joins the earlier holders of its email |
| CsvUpload.ImportFromKeeps | src/pages/api/companies/csv-upload.js:46-99 | the whole loop keeps it |
| CsvUpload.UploadKeepsEmailsUnique | src/pages/api/companies/csv-upload.js:75-88 | an upload keeps contact emails unique |
| CsvUpload.RepeatedEmailRejected | src/pages/api/companies/csv-upload.js:75-88 | a row repeating an email an earlier row of the same upload inserted is rejected as a duplicate |
| CsvUpload.ImportFromOutcome | src/pages/api/companies/csv-upload.js:46-99 | the outcome of row j is decided against the table as rows before it left it |
| CsvUpload.ImportRow | src/pages/api/companies/csv-upload.js:47-98 | the imperative body leaves the store as `ImportOne` says |
| CsvUpload.Tally | src/pages/api/companies/csv-upload.js:90-97 | one outcome adds one to exactly one counter |
| CsvUpload.TallyRow | src/pages/api/companies/csv-upload.js:90-97 | the counters and errors after one more row |
| CsvUpload.ImportAll | src/pages/api/companies/csv-upload.js:46-99 | the loop's counters and errors equal the counts and error list of `ImportRows` |
| CsvUpload.UploadRequest | src/pages/api/companies/csv-upload.js:12-127 | the imperative handler leaves the store as `Upload` says |
| Companies.ListCompanies | src/pages/api/companies/index.js:41-73 | `page` defaults to 1 and `limit` to 20; a page holds at most `limit` rows, each a table row passing the filters, and the total counts the rows passing them; which rows is Companies.ListCompaniesSpec |
| Companies.ListCompaniesSpec | src/pages/api/companies/index.js:41-73 | a page is the rows from `(page - 1) * limit` of the filtered, newest-first list: none past the end, `limit` when enough follow, the rest on the last page; the total is the number of rows passing the filters |
| Companies.ListHoldsMatches | src/pages/api/companies/index.js:41-73 | the list is newest first and holds exactly the rows passing the filters, as many as pass |
| Companies.PagesFollowOn | src/pages/api/companies/index.js:57-61 | consecutive pages adjoin without overlap |
| Companies.ManualCompany | src/pages/api/companies/index.js:114-128 | the form's fields, source `manual`, industry or null |
| Companies.CreateCompany | src/pages/api/companies/index.js:80-149 | no name or email: 400; an email a company holds: 400; otherwise created |
| Companies.CreateKeepsEmailsUnique | src/pages/api/companies/index.js:100-128 | creating keeps contact emails unique |
| Companies.CreateIgnoresActivity | src/pages/api/companies/index.js:132-142 | a failing activity insert changes neither the response nor the companies |
| Companies.DeleteCompanies | src/pages/api/companies/index.js:151-178 | no ids: 400; otherwise the listed companies go and `deletedCount` is the number of ids sent |
| Companies.MembersBound | src/pages/api/companies/index.js:169-173 | an id list has no more distinct ids than entries |
| Companies.DeletedCountBound | src/pages/api/companies/index.js:162-173 | the companies actually removed are at most `deletedCount` |
| Companies.CreateCompanyRequest | src/pages/api/companies/index.js:80-149 | the imperative handler leaves the store as `CreateCompany` says |
| Companies.DeleteCompaniesRequest | src/pages/api/companies/index.js:151-178 | the imperative handler leaves the store as `DeleteCompanies` says |
| Templates.DefaultsFirstIsTotal | src/pages/api/templates/index.js:18-19 | the two-key order is a total preorder |
| Templates.ListTemplates | src/pages/api/templates/index.js:15-19 | the list is a reordering of the table; the order is Templates.ListTemplatesSpec |
| Templates.ListTemplatesSpec | src/pages/api/templates/index.js:15-19 | every template once, each default before every other template, newer first within each group |
| Templates.CreateTemplate | src/pages/api/templates/index.js:30-67 | a missing name, subject or body: 400 and nothing changes; created exactly when all are present and the insert succeeds, with the fresh id and the stored template |
| Templates.CreateDefaultIsOnlyDefault | src/pages/api/templates/index.js:42-58 | after creating a default template it is the one and only default |
| Templates.CreatePlainKeepsOthers | src/pages/api/templates/index.js:49-56 | creating a non-default template changes no existing template and no default |
| Templates.FailedDefaultCreateLeavesNone | src/pages/api/templates/index.js:42-60 | a default create whose insert fails leaves no default at all |
| Templates.CreateTemplateRequest | src/pages/api/templates/index.js:30-67 | the imperative handler leaves the store as `CreateTemplate` says |
| Settings.SettingsMap | src/pages/api/settings/index.js:22-25 | every row's key is in the object; which value it holds is Settings.SettingsMapSpec |
| Settings.SettingsMapSpec | src/pages/api/settings/index.js:22-25 | a key is in the object exactly when some row has it, with the value of the last such row |
| Settings.GetSettings | src/pages/api/settings/index.js:13-32 | the `forEach` builds `SettingsMap` of the rows |
| Settings.ReplacedMap | src/pages/api/settings/index.js:39-45 | replacing a key's rows' values updates that key in the object |
| Settings.UpsertSettingMap | src/pages/api/settings/index.js:39-45 | after an upsert the object maps the key to the new value and every other key as before |
| Settings.UpsertKeepsKeysUnique | src/pages/api/settings/index.js:39-45 | upserts keep one row per key |
| Settings.MatchingNone | src/pages/api/settings/index.js:39-45 | a filter nothing passes keeps nothing |
| Settings.MatchingOne | src/pages/api/settings/index.js:39-45 | a filter exactly one row passes keeps exactly that row |
| Settings.UniqueSettingValue | src/pages/api/cron/process-queue.js:15-19 | with one row per key, `.single()` on a key reads the same value as the settings object |
| Settings.SavedSettingIsRead | src/pages/api/settings/index.js:39-45 | a saved setting is what `.single()` then reads |
| Settings.UpsertFrom | src/pages/api/settings/index.js:38-46 | the upserts change only the settings |
| Settings.UpdateSettings | src/pages/api/settings/index.js:34-53 | saved exactly when `Object.entries` of the body does not throw; a throw changes nothing |
| Settings.StringEntries | src/pages/api/settings/index.js:36 | `Object.entries` of a string: one entry per character, keyed by its index in decimal |
| Settings.StringEntriesDistinct | src/pages/api/settings/index.js:36 | the index keys of a string body are distinct |
| Settings.ScalarEntries | src/pages/api/settings/index.js:36 | `Object.entries` of a non-object body: a throw for null, no entries for a number or a boolean, the index entries for a string |
| Settings.ScalarBodyEffect | src/pages/api/settings/index.js:34-53 | a null body fails and writes nothing; a number or boolean body is saved and writes nothing; a string body is saved with each character under its index |
| Settings.UpsertFromMap | src/pages/api/settings/index.js:38-46 | each upserted key maps to its new value; keys not in the body are untouched |
| Settings.UpsertFromKeepsKeysUnique | src/pages/api/settings/index.js:38-46 | the loop keeps one row per key |
| Settings.UpdateSettingsEffect | src/pages/api/settings/index.js:34-53 | every body key maps to its value afterwards and every other key is untouched |
| Settings.UpdateSettingsRequest | src/pages/api/settings/index.js:34-53 | the imperative handler leaves the store as `UpdateSettings` says |
| Crawler.StartPage | scripts/crawler/main.py:47-50 | saved page (0 when none) + 1, back to 1 past page 100; never above 100, and at least 1 exactly when the saved page is not negative |
| Crawler.ShareOf | scripts/crawler/main.py:61 | `limit // n`: the floor of the quotient, as Python divides |
| Crawler.AllTextBlank | scripts/crawler/main.py:73-79 | the joined text is blank exactly when all three texts are |
| Crawler.FirstEmailContact | scripts/crawler/main.py:92-98 | the first AI contact with a truthy email, none exactly when there is none |
| Crawler.ResolveContact | scripts/crawler/main.py:86-105 | without an AI email contact, no name and no title come with the email |
| Crawler.AiContactWins | scripts/crawler/main.py:92-98 | the first AI contact with an email gives email, name and title |
| Crawler.RegexThenCompanyEmail | scripts/crawler/main.py:100-105 | otherwise the first regex email, then the company email |
| Crawler.ContactEmailFound | scripts/crawler/main.py:86-105 | a contact email is found exactly when an AI contact, the regex or the company email has one |
| Crawler.ResolvePhone | scripts/crawler/main.py:107-112 | the first regex phone, otherwise a truthy company phone, otherwise none |
| Crawler.RecordFor | scripts/crawler/main.py:114-126 | the resolved contact and phone, name falling back to `담당자`, `medium`, `미발송`, the source and the time |
| Crawler.Prepared | scripts/crawler/main.py:73-84 | blank text skips the AI; otherwise the AI result is merged in, and a parser error aborts the company |
| Crawler.Handle | scripts/crawler/main.py:64-137 | skipped exactly for duplicates; stored exactly when the save did not raise; errored otherwise |
| Crawler.QuietSaveFailureCountsAsStored | scripts/crawler/storage/supabase_client.py:66-71 | a save that answered `failed` still counts as success |
| Crawler.Outcomes | scripts/crawler/main.py:63-137 | one outcome per company, in order |
| Crawler.StoredNames | scripts/crawler/main.py:133 | one name per stored company |
| Crawler.SaveCalls | scripts/crawler/main.py:129 | one save per company that reached the save |
| Crawler.Crawl | scripts/crawler/main.py:44-152 | rocketpunch and wanted alone run nothing; otherwise the first call collects from the start page with the whole limit |
| Crawler.CrawlCounts | scripts/crawler/main.py:63-145 | total counts every company; stored, errored and skipped partition it; the log gets the final counts |
| Crawler.OutcomeCounts | scripts/crawler/main.py:63-137 | the three outcome counts add up to the companies |
| Crawler.StoredNamesAreStored | scripts/crawler/main.py:133 | every listed name belongs to a stored company |
| Crawler.OutcomeStep | scripts/crawler/main.py:63-137 | the counters after one more company |
| Crawler.CrawlOne | scripts/crawler/main.py:64-137 | the imperative body yields `Handle`'s outcome |
| Crawler.TallyOutcome | scripts/crawler/main.py:132-137 | one outcome bumps the matching counter |
| Crawler.CrawlCompanies | scripts/crawler/main.py:63-137 | the loop's counters, names and saves are those of the outcomes |
| Crawler.RunCrawler | scripts/crawler/main.py:44-152 | the imperative run equals `Crawl` |

## Left out

- Method dispatch and the 405 answers of every handler, and the cron authorization header: request routing, not table logic.
- The 500 answers for failed reads (`error` from a select), for thrown errors outside the per-item `try`, and for write errors other than the modelled insert faults. Every other statement is assumed to succeed.
- ManualSend.SendOneThrownQueue and ManualSend.Send: the failure branch of `send.js` (134-143) sets `retry_count` to `supabase.raw('retry_count + 1')`. The client is a plain `createClient` (`src/lib/supabase.js:7-9`), which has no `raw` method, so in queue mode that call itself throws a TypeError before the update is issued. The outer catch then answers 500: the row is not marked failed, later targets are not tried and no activity row is written. The model instead issues the update with the intended increment by one and carries on with the next target.
- ProcessQueue.LimitOf: of the strings, only plain decimal digits are read as a number. JavaScript's `>=` also reads a sign, a fraction, an exponent, a `0x` prefix and surrounding white space (`"-3"`, `"5.5"`, `"1e2"`, `" 7"` compare as -3, 5.5, 100 and 7), and a blank string as 0. The model treats all of those, like the strings and objects that become `NaN`, as a limit never reached.
- JSON numbers are integers here (`Json.JNum` holds an `int`): a fractional `daily_limit` is not modelled.
- JSON arrays have no `Json` variant, so a settings value that is an array is not modelled. An array `daily_limit` is truthy and compares as a number (`[]` as 0, so every tick would be skipped).
- Strings.Trim: its own contract states the length bound and the non-space ends only; that the result is the slice between white-space runs is the lemma Strings.TrimIsSlice, so that uses of `Trim` do not carry the quantified statement.
- Utils.Cell: its own contract states the length bound only; what a cell keeps of its raw text is the lemma Utils.CellSlice.
- `ilike` wildcards inside the search text, and case folding beyond ASCII letters.
- Templating.ReplaceVariablesStructured and Templating.PreviewLeavesUnfilled hold for structured templates only: literal text without `{`, and substituted values without `{`. `Templating.ChainAssemblesPlaceholder` shows the general statement is false.
- `$` replacement patterns in substituted values (`$&`, `$1`) are not modelled; values are inserted literally.
- Database column defaults other than the ones the handlers set: timestamps are the single `now` parameter, and ids come from one counter for all tables.
- The collection-log insert in the CSV upload is assumed to return its row. The source tolerates a null log (`collectionLog?.id`).
- The industries join in list reads and the AI prompt: the industry is carried as its id.
- Concurrency: overlapping cron ticks can both pass the limit check. Each handler runs alone here.
- The user interface, authentication and time zones. `formatDate` is represented by `AbsoluteDate`.
- Bodies that are not arrays or objects (a string `company_ids`, a numeric `ids`) are folded into "missing". In `send.js` this changes the answer: the source tests `Array.isArray` on `queue_ids || draft_ids` (13-20), so `{queue_ids: "5", draft_ids: [1]}` is answered 400 there, while ManualSend.Targets treats the string `queue_ids` as missing and sends draft 1.
- A falsy id (0, `''`) in `updateQueue`/`removeFromQueue` is represented as a missing id.
- `page` or `limit` below 1, or not a number, in `getCompanies`.
- The order among rows with equal sort keys: the database's tie order is unspecified.
- Settings.UpdateSettingsEffect assumes the body's keys are distinct. A JSON object's own keys always are.
- `updated_at` in settings upserts.
- `.maybeSingle()` finding several rows (an error in the library) is treated like finding none, as `.single()` is.
- `Collecting` stands for the collection log's `processing` status.
- Crawler.Crawl: `log_collection` and `save_crawler_state` are assumed not to raise. A raise there is caught at `main.py:155` and changes no counter.
- Python's `str.strip()` is modelled for ASCII white space only.
- Scraping, HTTP, regex extraction and the AI parser are parameters: `collected`, the AI reply, the duplicate check's and the save's answers.
- The rocketpunch and wanted crawlers are commented out in the source, so those sources run nothing.
- The crawler's `hasattr(crawler, 'last_page')` check is taken as true, which it is for the saramin crawler.
- Settings.UpdateSettings takes the body as its `Object.entries` list, `None` where that throws (a null or undefined body, answered 500 with the error's message, which is not kept). Settings.ScalarEntries gives that list for a null, number, boolean or string body. The order in which an object's entries come is the caller's.
- The activity insert in `createCompany` is modelled as succeeding or not (`activityOk`). The swallowed exception's message is not kept.
- The dashboard, auto-collect, analyze, history, draft listing, industries, demo links, collection logs and auth endpoints are not part of this model.

=== FILE: companies.dfy ===
/**
 * The companies endpoint: list companies (search, filters, newest first, one page), create one
 * company by hand, delete a set of companies.
 *
 * Creating refuses a request without a name or email and an email that `.maybeSingle()` finds on
 * a company already, so it keeps contact emails unique; deleting reports as many deletions as ids
 * were sent, whether or not each one existed.
 */
module Companies {
  import opened Wrappers
  import opened Strings
  import opened Records
  import opened Store
  import opened Query

  // ---------------------------------------------------------------- listing

  /** The list filters; `""` or `None` stands for an absent filter. */
  datatype CompanyFilter = CompanyFilter(search: string, industry: Option<Id>, priority: string, sendStatus: string)

  /** The row passes every filter that is present; the search is `ilike '%search%'` on three columns. */
  predicate Shows(f: CompanyFilter, row: (Id, Company)) {
    var c := row.1;
    && (f.search == "" || ContainsIgnoreCase(c.name, f.search) || ContainsIgnoreCase(c.contactName, f.search)
        || ContainsIgnoreCase(c.contactEmail, f.search))
    && (f.industry.None? || c.industryId == f.industry)
    && (f.priority == "" || c.priority == f.priority)
    && (f.sendStatus == "" || c.sendStatus.Label() == f.sendStatus)
  }

  /** `order('created_at', { ascending: false })`. */
  predicate NewestCompanyFirst(a: (Id, Company), b: (Id, Company)) {
    a.1.createdAt >= b.1.createdAt
  }

  /** One page of the list, with the number of rows passing the filters (`count: 'exact'`). */
  datatype CompanyPage = CompanyPage(data: seq<(Id, Company)>, total: nat, page: nat, limit: nat)

  /** Every row passing the filters, newest first. */
  function CompanyList(table: seq<(Id, Company)>, f: CompanyFilter): seq<(Id, Company)> {
    SortBy(Matching(table, row => Shows(f, row)), NewestCompanyFirst)
  }

  /** The first row of a page: `(page - 1) * limit`. */
  function Offset(page: nat, limit: nat): nat
    requires page >= 1
  {
    (page - 1) * limit
  }

  /** `page` defaults to 1 and `limit` to 20; the page is `range(offset, offset + limit - 1)` with offset `(page - 1) * limit`. */
  function ListCompanies(table: seq<(Id, Company)>, f: CompanyFilter, page: Option<nat>, limit: Option<nat>): (r: CompanyPage)
    requires page.None? || page.value >= 1
    requires limit.None? || limit.value >= 1
    ensures r.page == (if page.Some? then page.value else 1) && r.limit == (if limit.Some? then limit.value else 20)
    ensures |r.data| <= r.limit && r.total == Count(table, row => Shows(f, row))
    ensures forall row :: row in r.data ==> row in table && Shows(f, row)
  {
    var p := if page.Some? then page.value else 1;
    var n := if limit.Some? then limit.value else 20;
    var all := CompanyList(table, f);
    ListHoldsMatches(table, f);
    CompanyPage(Window(all, Offset(p, n), n), |all|, p, n)
  }

  /**
   * A page holds at most `limit` rows: the rows at positions `(page - 1) * limit` onwards of the
   * filtered list, which is newest first and holds exactly the rows passing the filters; a page
   * past the end is empty and the last page holds the rest; the total counts all the rows passing
   * the filters.
   */
  lemma ListCompaniesSpec(table: seq<(Id, Company)>, f: CompanyFilter, page: nat, limit: nat)
    requires page >= 1 && limit >= 1
    ensures var r := ListCompanies(table, f, Some(page), Some(limit));
      var all := CompanyList(table, f);
      && SortedBy(all, NewestCompanyFirst)
      && (forall row :: row in all <==> row in table && Shows(f, row))
      && r.total == |all| == |Matching(table, row => Shows(f, row))| == Count(table, row => Shows(f, row))
      && |r.data| <= limit
      && (Offset(page, limit) + limit <= |all| ==> |r.data| == limit)
      && |r.data| == (if Offset(page, limit) >= |all| then 0
                      else if Offset(page, limit) + limit <= |all| then limit
                      else |all| - Offset(page, limit))
      && (forall i :: 0 <= i < |r.data| ==> r.data[i] == all[Offset(page, limit) + i])
  {
    ListHoldsMatches(table, f);
    var all := CompanyList(table, f);
    assert ListCompanies(table, f, Some(page), Some(limit)) ==
      CompanyPage(Window(all, Offset(page, limit), limit), |all|, page, limit);
  }

  /** The sorted list is a reordering of the matching rows: same rows, same number. */
  lemma ListHoldsMatches(table: seq<(Id, Company)>, f: CompanyFilter)
    ensures var all := CompanyList(table, f);
      && SortedBy(all, NewestCompanyFirst)
      && (forall row :: row in all <==> row in table && Shows(f, row))
      && |all| == |Matching(table, row => Shows(f, row))|
  {
    var m := Matching(table, row => Shows(f, row));
    SortBySorted(m, NewestCompanyFirst);
    var all := CompanyList(table, f);
    forall row
      ensures row in all <==> row in m
    {
      calc {
        row in all;
        row in multiset(all);
        row in multiset(m);
        row in m;
      }
    }
    assert |all| == |multiset(all)| == |multiset(m)| == |m|;
  }

  /** Consecutive pages do not overlap: page `p + 1` starts where page `p` ends. */
  lemma PagesFollowOn(table: seq<(Id, Company)>, f: CompanyFilter, page: nat, limit: nat)
    requires page >= 1 && limit >= 1
    requires Offset(page, limit) + 2 * limit <= |CompanyList(table, f)|
    ensures var all := CompanyList(table, f);
      ListCompanies(table, f, Some(page), Some(limit)).data + ListCompanies(table, f, Some(page + 1), Some(limit)).data ==
      Window(all, Offset(page, limit), 2 * limit)
  {
    assert Offset(page + 1, limit) == Offset(page, limit) + limit;
    WindowsAdjoin(CompanyList(table, f), Offset(page, limit), limit);
  }

  // ---------------------------------------------------------------- create

  /** The request body of a create. */
  datatype CompanyForm = CompanyForm(
    name: string,
    industryId: Option<Id>,
    website: string,
    contactName: string,
    contactTitle: string,
    contactEmail: string,
    contactPhone: string,
    memo: string)

  datatype CreateResponse =
    | Created(id: Id, company: Company)
    | CreateRejected(message: string)
    | CreateFailed(message: string)

  const RequiredFieldsMsg := "회사명과 담당자 이메일은 필수입니다."
  const EmailTakenMsg := "이미 등록된 이메일입니다."

  /** The row a create inserts: the form's columns, source `manual`, the rest defaulted. */
  function ManualCompany(form: CompanyForm, now: Time): (c: Company)
    ensures c.name == form.name && c.contactEmail == form.contactEmail && c.memo == form.memo
    ensures c.source == "manual" && c.industryId == form.industryId && c.collectionLogId == None
    ensures c.sendStatus == NotSent && c.sendCount == 0
  {
    NewCompany(form.name, form.contactName, form.contactTitle, form.contactEmail, form.contactPhone, form.website,
               form.industryId, "manual", None, now).(memo := form.memo)
  }

  function CreatedActivity(id: Id, name: string): Activity {
    Activity("create", Some("company"), Some(id), name + " 기업 추가")
  }

  /**
   * `createCompany`: `fault` is the insert's error, if any; `activityOk` says whether the activity
   * insert went through (its failure is swallowed).
   */
  function CreateCompany(db: Db, form: CompanyForm, fault: Option<string>, activityOk: bool, now: Time): (r: (Db, CreateResponse))
    ensures form.name == "" || form.contactEmail == "" ==> r == (db, CreateRejected(RequiredFieldsMsg))
    ensures form.name != "" && form.contactEmail != "" && |EmailHolders(db.companies, form.contactEmail)| == 1 ==>
      r == (db, CreateRejected(EmailTakenMsg))
    ensures r.1.Created? <==>
      form.name != "" && form.contactEmail != "" && |EmailHolders(db.companies, form.contactEmail)| != 1 && fault.None?
    ensures r.1.CreateFailed? ==> r == (db, CreateFailed(fault.value))
    ensures r.1.Created? ==>
      && r.1.id == db.nextId && r.1.company == ManualCompany(form, now)
      && r.0.companies == db.companies[db.nextId := r.1.company]
      && r.0.activities == db.activities + (if activityOk then [CreatedActivity(db.nextId, form.name)] else [])
  {
    if form.name == "" || form.contactEmail == "" then (db, CreateRejected(RequiredFieldsMsg))
    else if |EmailHolders(db.companies, form.contactEmail)| == 1 then (db, CreateRejected(EmailTakenMsg))
    else match fault
      case Some(m) => (db, CreateFailed(m))
      case None =>
        var c := ManualCompany(form, now);
        var d := db.InsertCompany(c);
        (if activityOk then d.AppendActivity(CreatedActivity(db.nextId, form.name)) else d, Created(db.nextId, c))
  }

  /** A create keeps contact emails unique. */
  lemma CreateKeepsEmailsUnique(db: Db, form: CompanyForm, fault: Option<string>, activityOk: bool, now: Time)
    requires EmailsUnique(db.companies) && forall id :: id in db.companies ==> id < db.nextId
    ensures var r := CreateCompany(db, form, fault, activityOk, now).0;
      EmailsUnique(r.companies) && forall id :: id in r.companies ==> id < r.nextId
  {
    var r := CreateCompany(db, form, fault, activityOk, now);
    if r.1.Created? {
      UniqueHolders(db.companies, form.contactEmail);
      assert EmailHolders(db.companies, form.contactEmail) == {};
      InsertKeepsEmailsUnique(db.companies, db.nextId, ManualCompany(form, now));
    }
  }

  /** Whether the activity insert fails changes neither the response nor the companies. */
  lemma CreateIgnoresActivity(db: Db, form: CompanyForm, fault: Option<string>, now: Time)
    ensures var a := CreateCompany(db, form, fault, true, now);
      var b := CreateCompany(db, form, fault, false, now);
      a.1 == b.1 && a.0.companies == b.0.companies
  {
  }

  // ---------------------------------------------------------------- delete

  datatype DeleteResponse =
    | DeleteRejected(message: string)
    | Deleted(message: string, deletedCount: nat)

  const NoIdsMsg := "삭제할 기업 ID가 필요합니다."

  function Members(ids: seq<Id>): set<Id> {
    set id | id in ids
  }

  /** `deleteCompanies`: every listed company goes; the count reported is the number of ids sent. */
  function DeleteCompanies(db: Db, ids: Option<seq<Id>>): (r: (Db, DeleteResponse))
    ensures ids.None? || ids.value == [] ==> r == (db, DeleteRejected(NoIdsMsg))
    ensures r.1.Deleted? ==>
      && ids.Some? && r.1.deletedCount == |ids.value|
      && r.0.companies.Keys == db.companies.Keys - Members(ids.value)
      && (forall id :: id in r.0.companies ==> r.0.companies[id] == db.companies[id])
  {
    if ids.None? || ids.value == [] then (db, DeleteRejected(NoIdsMsg))
    else
      var n := |ids.value|;
      (db.DeleteCompanies(Members(ids.value)), Deleted(NatToString(n) + "개 기업 삭제 완료", n))
  }

  lemma {:induction false} MembersBound(ids: seq<Id>)
    ensures |Members(ids)| <= |ids|
  {
    if ids != [] {
      MembersBound(ids[1..]);
      assert Members(ids) == Members(ids[1..]) + {ids[0]};
    }
  }

  /**
   * The reported count never falls short of the rows that went, and can exceed them: ids that
   * match no company, or repeat, are counted too.
   */
  lemma DeletedCountBound(db: Db, ids: seq<Id>)
    requires ids != []
    ensures var r := DeleteCompanies(db, Some(ids));
      && r.1.Deleted?
      && |db.companies.Keys| - |r.0.companies.Keys| <= r.1.deletedCount
      && (Members(ids) <= db.companies.Keys && |Members(ids)| == |ids| ==>
            |db.companies.Keys| - |r.0.companies.Keys| == r.1.deletedCount)
  {
    var keys := db.companies.Keys;
    var gone := keys * Members(ids);
    assert keys == (keys - Members(ids)) + gone;
    assert |keys| == |keys - Members(ids)| + |gone|;
    MembersBound(ids);
    if Members(ids) <= keys {
      assert gone == Members(ids);
    }
  }

  // ---------------------------------------------------------------- handlers

  method CreateCompanyRequest(s: Store, form: CompanyForm, fault: Option<string>, activityOk: bool, now: Time)
    returns (resp: CreateResponse)
    modifies s
    ensures (s.Snapshot(), resp) == CreateCompany(old(s.Snapshot()), form, fault, activityOk, now)
  {
    if form.name == "" || form.contactEmail == "" {
      return CreateRejected(RequiredFieldsMsg);
    }
    var existing := TheOne(EmailHolders(s.companies, form.contactEmail));
    if existing.Some? {
      return CreateRejected(EmailTakenMsg);
    }
    if fault.Some? {
      return CreateFailed(fault.value);
    }
    var c := ManualCompany(form, now);
    var id := s.InsertCompany(c);
    if activityOk {
      s.AppendActivity(CreatedActivity(id, form.name));
    }
    resp := Created(id, c);
  }

  method DeleteCompaniesRequest(s: Store, ids: Option<seq<Id>>) returns (resp: DeleteResponse)
    modifies s
    ensures (s.Snapshot(), resp) == DeleteCompanies(old(s.Snapshot()), ids)
  {
    if ids.None? || ids.value == [] {
      return DeleteRejected(NoIdsMsg);
    }
    s.DeleteCompanies(Members(ids.value));
    resp := Deleted(NatToString(|ids.value|) + "개 기업 삭제 완료", |ids.value|);
  }
}

=== FILE: crawler.dfy ===
/**
 * The company crawler's run: pick the page to resume from, hand each crawler its share of the
 * limit, and for every collected company skip duplicates, resolve one contact email and phone
 * (AI-extracted contacts first, then regex matches, then the company-wide address) and save the
 * company, counting successes and failures.  Scraping, the AI parser and the storage service are
 * outside the model: their answers are parameters, and the storage calls the run issues are
 * returned in order.
 */
module Crawler {
  import opened Wrappers
  import opened Records

  // ---------------------------------------------------------------- start page and limit

  /**
   * The page to resume from: one past the saved `last_page` (0 when nothing is saved), back to 1
   * once past page 100.
   */
  function StartPage(lastPage: Option<int>): (r: int)
    ensures lastPage.GetOr(0) < 100 ==> r == lastPage.GetOr(0) + 1
    ensures lastPage.GetOr(0) >= 100 ==> r == 1
    ensures r <= 100
    ensures 1 <= r <==> lastPage.GetOr(0) >= 0
  {
    var start := lastPage.GetOr(0) + 1;
    if start > 100 then 1 else start
  }

  /** `limit // crawlers`: Python's floor division, the largest share `r` with `r * crawlers <= limit`. */
  function ShareOf(limit: int, crawlers: nat): (r: int)
    requires crawlers > 0
    ensures r * crawlers <= limit < (r + 1) * crawlers
  {
    limit / crawlers
  }

  // ---------------------------------------------------------------- contact resolution

  /** A contact the AI parser returned; absent or JSON-null fields are `None`. */
  datatype AiContact = AiContact(name: Option<string>, title: Option<string>, email: Option<string>)

  /** The AI parser's answer: `contacts`, `company_email`, `company_phone`. */
  datatype AiResult = AiResult(contacts: seq<AiContact>, companyEmail: Option<string>, companyPhone: Option<string>)

  /** A company as a crawler collected it (absent text fields are empty). */
  datatype Scraped = Scraped(
    name: string,
    website: Option<string>,
    rawText: string,
    websiteRawText: string,
    contactPageText: string,
    emails: seq<string>,
    phones: seq<string>,
    aiContacts: seq<AiContact>,
    companyEmail: Option<string>,
    companyPhone: Option<string>)

  /** Python truthiness of an optional string: present and not empty. */
  predicate PyTruthy(o: Option<string>) {
    o.Some? && o.value != ""
  }

  /** The ASCII white space Python's `str.strip()` removes. */
  predicate PyIsSpace(ch: char) {
    ch == ' ' || ch == '\t' || ch == '\n' || ch == '\r' || ch == '\U{000B}' || ch == '\U{000C}'
  }

  /** `s.strip()` is empty. */
  predicate IsBlank(s: string) {
    forall i :: 0 <= i < |s| ==> PyIsSpace(s[i])
  }

  /** The three texts joined by spaces, as handed to the AI parser. */
  function AllText(c: Scraped): string {
    c.rawText + " " + c.websiteRawText + " " + c.contactPageText
  }

  /** The joined text is blank exactly when each of the three texts is. */
  lemma AllTextBlank(c: Scraped)
    ensures IsBlank(AllText(c)) <==> IsBlank(c.rawText) && IsBlank(c.websiteRawText) && IsBlank(c.contactPageText)
  {
    var a, b, d := c.rawText, c.websiteRawText, c.contactPageText;
    var t := AllText(c);
    if IsBlank(t) {
      forall i | 0 <= i < |b| ensures PyIsSpace(b[i]) {
        assert b[i] == t[|a| + 1 + i];
      }
      forall i | 0 <= i < |d| ensures PyIsSpace(d[i]) {
        assert d[i] == t[|a| + 1 + |b| + 1 + i];
      }
      forall i | 0 <= i < |a| ensures PyIsSpace(a[i]) {
        assert a[i] == t[i];
      }
    }
  }

  /** The company with the AI parser's answer written over its contacts, email and phone. */
  function Enrich(c: Scraped, ai: AiResult): Scraped {
    c.(aiContacts := ai.contacts, companyEmail := ai.companyEmail, companyPhone := ai.companyPhone)
  }

  /** The index of the first AI contact with a truthy email (the loop that `break`s at it). */
  function FirstEmailContact(contacts: seq<AiContact>): (r: Option<nat>)
    ensures r.Some? ==> r.value < |contacts| && PyTruthy(contacts[r.value].email)
    ensures r.Some? ==> forall j :: 0 <= j < r.value ==> !PyTruthy(contacts[j].email)
    ensures r.None? <==> forall j :: 0 <= j < |contacts| ==> !PyTruthy(contacts[j].email)
  {
    if contacts == [] then None
    else if PyTruthy(contacts[0].email) then Some(0)
    else match FirstEmailContact(contacts[1..])
      case None => None
      case Some(k) => Some(k + 1)
  }

  /** The chosen contact: email, name and title. */
  datatype Contact = Contact(email: Option<string>, name: Option<string>, title: Option<string>)

  /**
   * The contact cascade: the first AI contact with an email, with its name and title; failing that
   * the first regex email; and if that is still falsy, the company-wide email.
   */
  function ResolveContact(c: Scraped): (r: Contact)
    ensures FirstEmailContact(c.aiContacts).None? ==> r.name.None? && r.title.None?
  {
    var fromAi := match FirstEmailContact(c.aiContacts)
      case Some(k) => Contact(c.aiContacts[k].email, c.aiContacts[k].name, c.aiContacts[k].title)
      case None => Contact(None, None, None);
    var regex := if !PyTruthy(fromAi.email) && |c.emails| > 0 then Some(c.emails[0]) else fromAi.email;
    var email := if !PyTruthy(regex) then c.companyEmail else regex;
    fromAi.(email := email)
  }

  /** An AI contact with an email wins outright: its email, name and title are taken together. */
  lemma AiContactWins(c: Scraped, k: nat)
    requires k < |c.aiContacts| && PyTruthy(c.aiContacts[k].email)
    requires forall j :: 0 <= j < k ==> !PyTruthy(c.aiContacts[j].email)
    ensures ResolveContact(c) == Contact(c.aiContacts[k].email, c.aiContacts[k].name, c.aiContacts[k].title)
  {
    var f := FirstEmailContact(c.aiContacts);
    assert f.Some?;
    assert f.value == k;
  }

  /**
   * Without an AI contact email, the first regex email is used when it is not empty, and the
   * company-wide email otherwise.
   */
  lemma RegexThenCompanyEmail(c: Scraped)
    requires forall j :: 0 <= j < |c.aiContacts| ==> !PyTruthy(c.aiContacts[j].email)
    ensures |c.emails| > 0 && c.emails[0] != "" ==> ResolveContact(c).email == Some(c.emails[0])
    ensures !(|c.emails| > 0 && c.emails[0] != "") ==> ResolveContact(c).email == c.companyEmail
  {
  }

  /** A contact email is found exactly when one of the three sources offers a non-empty one. */
  lemma ContactEmailFound(c: Scraped)
    ensures PyTruthy(ResolveContact(c).email) <==>
      || (exists j :: 0 <= j < |c.aiContacts| && PyTruthy(c.aiContacts[j].email))
      || (|c.emails| > 0 && c.emails[0] != "")
      || PyTruthy(c.companyEmail)
  {
    var f := FirstEmailContact(c.aiContacts);
    if f.Some? {
      assert PyTruthy(c.aiContacts[f.value].email);
    }
  }

  /** The phone: the first regex phone if there is one, else the company-wide phone when it is not empty. */
  function ResolvePhone(c: Scraped): (r: Option<string>)
    ensures |c.phones| > 0 ==> r == Some(c.phones[0])
    ensures |c.phones| == 0 ==> (r.Some? <==> PyTruthy(c.companyPhone))
    ensures r.Some? ==> r.value in c.phones || r == c.companyPhone
  {
    if |c.phones| > 0 then Some(c.phones[0])
    else if PyTruthy(c.companyPhone) then c.companyPhone
    else None
  }

  const DefaultContactName := "담당자"
  const CrawledPriority := "medium"
  const NotSentLabel := "미발송"

  /** The `company_data` row handed to `save_company`. */
  datatype CompanyRecord = CompanyRecord(
    name: string,
    website: Option<string>,
    contactEmail: Option<string>,
    contactName: string,
    contactTitle: Option<string>,
    contactPhone: Option<string>,
    source: string,
    priority: string,
    sendStatus: string,
    collectedAt: Time)

  /** The saved record: the resolved contact, the name falling back to `담당자`, medium priority, not sent. */
  function RecordFor(c: Scraped, source: string, now: Time): (r: CompanyRecord)
    ensures r.name == c.name && r.website == c.website && r.source == source && r.collectedAt == now
    ensures r.contactEmail == ResolveContact(c).email && r.contactTitle == ResolveContact(c).title
    ensures r.contactPhone == ResolvePhone(c)
    ensures r.contactName != ""
    ensures PyTruthy(ResolveContact(c).name) ==> r.contactName == ResolveContact(c).name.value
    ensures !PyTruthy(ResolveContact(c).name) ==> r.contactName == DefaultContactName
    ensures r.priority == CrawledPriority && r.sendStatus == NotSentLabel
  {
    var contact := ResolveContact(c);
    var name := if PyTruthy(contact.name) then contact.name.value else DefaultContactName;
    CompanyRecord(c.name, c.website, contact.email, name, contact.title, ResolvePhone(c),
                  source, CrawledPriority, NotSentLabel, now)
  }

  // ---------------------------------------------------------------- one company

  /** `check_duplicate`: a match by name (or website), no match (also when the request fails), or an exception. */
  datatype DupAnswer = Duplicate | Fresh | DupRaised

  /** `save_company`: it returns (an insert, an update, or `failed` when the insert answered nothing) or raises. */
  datatype SaveAnswer = SaveInserted | SaveUpdated | SaveNoRow | SaveRaised

  /** The outside answers for one company; `ai` is `None` when the AI parser raised. */
  datatype Reply = Reply(dup: DupAnswer, ai: Option<AiResult>, save: SaveAnswer)

  /** What became of one company; `attempt` is the record `save_company` was called with, if it was. */
  datatype Outcome = Skipped | Stored(record: CompanyRecord) | Errored(attempt: Option<CompanyRecord>)

  predicate IsSkipped(o: Outcome) { o.Skipped? }
  predicate IsStored(o: Outcome) { o.Stored? }
  predicate IsErrored(o: Outcome) { o.Errored? }

  /** The company as the cascade sees it: enriched by the AI parser unless its text is blank; `None` if the parser raised. */
  function Prepared(c: Scraped, ai: Option<AiResult>): (r: Option<Scraped>)
    ensures IsBlank(AllText(c)) ==> r == Some(c)
    ensures !IsBlank(AllText(c)) ==> (r.Some? <==> ai.Some?)
  {
    if IsBlank(AllText(c)) then Some(c)
    else match ai
      case None => None
      case Some(a) => Some(Enrich(c, a))
  }

  /** The body of the per-company `try`. */
  function Handle(c: Scraped, reply: Reply, source: string, now: Time): (r: Outcome)
    ensures r.Skipped? <==> reply.dup == Duplicate
    ensures r.Stored? <==> reply.dup == Fresh && Prepared(c, reply.ai).Some? && reply.save != SaveRaised
    ensures r.Stored? ==> r.record == RecordFor(Prepared(c, reply.ai).value, source, now)
    ensures r.Errored? && r.attempt.Some? <==> reply.dup == Fresh && Prepared(c, reply.ai).Some? && reply.save == SaveRaised
  {
    match reply.dup
    case Duplicate => Skipped
    case DupRaised => Errored(None)
    case Fresh =>
      match Prepared(c, reply.ai)
      case None => Errored(None)
      case Some(p) =>
        var record := RecordFor(p, source, now);
        if reply.save == SaveRaised then Errored(Some(record)) else Stored(record)
  }

  /** A save that returned `failed` (the insert answered no row) is still counted as stored. */
  lemma QuietSaveFailureCountsAsStored(c: Scraped, ai: Option<AiResult>, source: string, now: Time)
    requires IsBlank(AllText(c)) || ai.Some?
    ensures Handle(c, Reply(Fresh, ai, SaveNoRow), source, now).Stored?
  {
  }

  // ---------------------------------------------------------------- the run

  /** Which crawlers to run: only the `saramin` one exists; the others are commented out. */
  datatype Source = Saramin | Rocketpunch | Wanted | All

  const SaraminName := "saramin"

  /** A call the run makes outside itself, in order. */
  datatype Call =
    | Collect(startPage: int, limit: int)
    | SaveCompany(record: CompanyRecord)
    | LogCollection(source: string, total: nat, success: nat, fail: nat)
    | SaveCrawlerState(source: string, lastPage: int)

  /** The `results` dict, and the calls made. */
  datatype CrawlResults = CrawlResults(total: nat, success: nat, fail: nat, companies: seq<string>, calls: seq<Call>)

  function Outcomes(companies: seq<Scraped>, replies: nat -> Reply, source: string, now: Time): (r: seq<Outcome>)
    ensures |r| == |companies|
    ensures forall i :: 0 <= i < |r| ==> r[i] == Handle(companies[i], replies(i), source, now)
  {
    seq(|companies|, i requires 0 <= i < |companies| => Handle(companies[i], replies(i), source, now))
  }

  /** The names appended to `results['companies']`: the stored companies', in order. */
  function StoredNames(outcomes: seq<Outcome>): (r: seq<string>)
    ensures |r| == Count(outcomes, IsStored)
    decreases |outcomes|
  {
    if outcomes == [] then []
    else
      var last := outcomes[|outcomes| - 1];
      StoredNames(outcomes[..|outcomes| - 1]) + (if last.Stored? then [last.record.name] else [])
  }

  /** The `save_company` calls, in order: one per company that reached the save. */
  function SaveCalls(outcomes: seq<Outcome>): (r: seq<Call>)
    ensures |r| == Count(outcomes, IsStored) + Count(outcomes, (o: Outcome) => o.Errored? && o.attempt.Some?)
    decreases |outcomes|
  {
    if outcomes == [] then []
    else
      var last := outcomes[|outcomes| - 1];
      SaveCalls(outcomes[..|outcomes| - 1]) +
        (match last
         case Stored(record) => [SaveCompany(record)]
         case Errored(Some(record)) => [SaveCompany(record)]
         case _ => [])
  }

  /**
   * `run_crawler`: `collected` is what the crawler's `collect` returned (`None` when it raised) and
   * `endPage` the crawler's `last_page` afterwards.
   */
  function Crawl(source: Source, limit: int, lastPage: Option<int>, collected: Option<seq<Scraped>>,
                 replies: nat -> Reply, endPage: int, now: Time): (r: CrawlResults)
    ensures source != Saramin && source != All ==> r == CrawlResults(0, 0, 0, [], [])
    ensures source == Saramin || source == All ==> |r.calls| > 0 && r.calls[0] == Collect(StartPage(lastPage), limit)
  {
    if source != Saramin && source != All then CrawlResults(0, 0, 0, [], [])
    else
      var request := Collect(StartPage(lastPage), ShareOf(limit, 1));
      match collected
      case None => CrawlResults(0, 0, 0, [], [request])
      case Some(companies) =>
        var outs := Outcomes(companies, replies, SaraminName, now);
        var success := Count(outs, IsStored);
        var fail := Count(outs, IsErrored);
        CrawlResults(|companies|, success, fail, StoredNames(outs),
                     [request] + SaveCalls(outs) +
                     [LogCollection(SaraminName, |companies|, success, fail), SaveCrawlerState(SaraminName, endPage)])
  }

  /** Every company counts in `total`; stored, errored and skipped companies partition it. */
  lemma CrawlCounts(source: Source, limit: int, lastPage: Option<int>, companies: seq<Scraped>,
                    replies: nat -> Reply, endPage: int, now: Time)
    requires source == Saramin || source == All
    ensures var r := Crawl(source, limit, lastPage, Some(companies), replies, endPage, now);
      var outs := Outcomes(companies, replies, SaraminName, now);
      && r.total == |companies|
      && r.success + r.fail + Count(outs, IsSkipped) == r.total
      && |r.companies| == r.success
      && r.calls[|r.calls| - 2] == LogCollection(SaraminName, r.total, r.success, r.fail)
  {
    var outs := Outcomes(companies, replies, SaraminName, now);
    OutcomeCounts(outs);
  }

  lemma {:induction false} OutcomeCounts(outs: seq<Outcome>)
    ensures Count(outs, IsStored) + Count(outs, IsErrored) + Count(outs, IsSkipped) == |outs|
    decreases |outs|
  {
    if outs != [] {
      OutcomeCounts(outs[..|outs| - 1]);
    }
  }

  /** The i-th stored name is the name of a company whose outcome was stored. */
  lemma {:induction false} StoredNamesAreStored(outs: seq<Outcome>)
    ensures forall n :: n in StoredNames(outs) ==> exists i :: 0 <= i < |outs| && outs[i].Stored? && outs[i].record.name == n
    decreases |outs|
  {
    if outs != [] {
      var p := outs[..|outs| - 1];
      StoredNamesAreStored(p);
      forall n | n in StoredNames(outs)
        ensures exists i :: 0 <= i < |outs| && outs[i].Stored? && outs[i].record.name == n
      {
        if n in StoredNames(p) {
          var i :| 0 <= i < |p| && p[i].Stored? && p[i].record.name == n;
          assert outs[i] == p[i];
        } else {
          assert outs[|outs| - 1].Stored?;
        }
      }
    }
  }

  /** Extending the outcomes by one adds that outcome's share to each tally. */
  lemma OutcomeStep(outs: seq<Outcome>, i: nat)
    requires i < |outs|
    ensures var o, p, q := outs[i], outs[..i], outs[..i + 1];
      && Count(q, IsStored) == Count(p, IsStored) + (if o.Stored? then 1 else 0)
      && Count(q, IsErrored) == Count(p, IsErrored) + (if o.Errored? then 1 else 0)
      && StoredNames(q) == StoredNames(p) + (if o.Stored? then [o.record.name] else [])
      && SaveCalls(q) == SaveCalls(p) + (match o
           case Stored(record) => [SaveCompany(record)]
           case Errored(Some(record)) => [SaveCompany(record)]
           case _ => [])
  {
    assert outs[..i + 1][..i] == outs[..i];
  }

  /** The per-company `try` body: the duplicate check, the AI parse, the cascade and the save. */
  method CrawlOne(c: Scraped, reply: Reply, now: Time) returns (o: Outcome)
    ensures o == Handle(c, reply, SaraminName, now)
  {
    if reply.dup == Duplicate {
      return Skipped;
    }
    if reply.dup == DupRaised {
      return Errored(None);
    }
    var prepared := Prepared(c, reply.ai);
    if prepared.None? {
      return Errored(None);
    }
    var record := RecordFor(prepared.value, SaraminName, now);
    if reply.save == SaveRaised {
      return Errored(Some(record));
    }
    o := Stored(record);
  }

  /** The counters and lists after one more outcome. */
  method TallyOutcome(o: Outcome, success: nat, fail: nat, names: seq<string>, saves: seq<Call>)
    returns (success': nat, fail': nat, names': seq<string>, saves': seq<Call>)
    ensures success' == success + (if o.Stored? then 1 else 0)
    ensures fail' == fail + (if o.Errored? then 1 else 0)
    ensures names' == names + (if o.Stored? then [o.record.name] else [])
    ensures saves' == saves + (match o
      case Stored(record) => [SaveCompany(record)]
      case Errored(Some(record)) => [SaveCompany(record)]
      case _ => [])
  {
    success', fail', names', saves' := success, fail, names, saves;
    match o {
      case Skipped =>
      case Errored(attempt) =>
        fail' := fail + 1;
        if attempt.Some? {
          saves' := saves + [SaveCompany(attempt.value)];
        }
      case Stored(record) =>
        success' := success + 1;
        names' := names + [record.name];
        saves' := saves + [SaveCompany(record)];
    }
  }

  /** The loop over the collected companies, updating the counters in place. */
  method CrawlCompanies(companies: seq<Scraped>, replies: nat -> Reply, now: Time)
    returns (total: nat, success: nat, fail: nat, names: seq<string>, saves: seq<Call>)
    ensures var outs := Outcomes(companies, replies, SaraminName, now);
      && total == |companies| && success == Count(outs, IsStored) && fail == Count(outs, IsErrored)
      && names == StoredNames(outs) && saves == SaveCalls(outs)
  {
    ghost var outs := Outcomes(companies, replies, SaraminName, now);
    total, success, fail, names, saves := 0, 0, 0, [], [];
    for i := 0 to |companies|
      invariant total == i
      invariant success == Count(outs[..i], IsStored) && fail == Count(outs[..i], IsErrored)
      invariant names == StoredNames(outs[..i]) && saves == SaveCalls(outs[..i])
    {
      OutcomeStep(outs, i);
      total := total + 1;
      var o := CrawlOne(companies[i], replies(i), now);
      success, fail, names, saves := TallyOutcome(o, success, fail, names, saves);
    }
    assert outs[..|companies|] == outs;
  }

  method RunCrawler(source: Source, limit: int, lastPage: Option<int>, collected: Option<seq<Scraped>>,
                    replies: nat -> Reply, endPage: int, now: Time) returns (r: CrawlResults)
    ensures r == Crawl(source, limit, lastPage, collected, replies, endPage, now)
  {
    if source != Saramin && source != All {
      return CrawlResults(0, 0, 0, [], []);
    }
    var crawlers := 1;
    var request := Collect(StartPage(lastPage), ShareOf(limit, crawlers));
    if collected.None? {
      return CrawlResults(0, 0, 0, [], [request]);
    }
    var total, success, fail, names, saves := CrawlCompanies(collected.value, replies, now);
    r := CrawlResults(total, success, fail, names,
                      [request] + saves + [LogCollection(SaraminName, total, success, fail), SaveCrawlerState(SaraminName, endPage)]);
  }
}

=== FILE: csv_upload.dfy ===
/**
 * Bulk import of companies from an uploaded CSV: one collection log for the upload, then each
 * row mapped onto a company, checked, and inserted unless a check fails, with per-row errors and
 * success and failure tallies.
 */
module CsvUpload {
  import opened Wrappers
  import opened Strings
  import opened Records
  import opened Store
  import opened Utils

  /** One uploaded row: column name to cell text (a missing column reads as empty). */
  type CsvRow = map<string, string>

  const NoDataMsg := "CSV 데이터가 없습니다."
  const CompanyNameMissingMsg := "회사명 누락"
  const DuplicateEmailMsg := "이미 등록된 이메일"

  /** `row[k1] || row[k2] || row[k3]`: the first of the columns with a non-empty value. */
  function FirstOf(row: CsvRow, k1: string, k2: string, k3: string): (v: string)
    ensures v == "" <==> Field(row, k1) == "" && Field(row, k2) == "" && Field(row, k3) == ""
    ensures v != "" ==> v == Field(row, k1) || v == Field(row, k2) || v == Field(row, k3)
  {
    if Field(row, k1) != "" then Field(row, k1)
    else if Field(row, k2) != "" then Field(row, k2)
    else Field(row, k3)
  }

  function RowName(row: CsvRow): string {
    FirstOf(row, "name", "회사명", "기업명")
  }

  function RowContactEmail(row: CsvRow): string {
    FirstOf(row, "contact_email", "이메일", "담당자이메일")
  }

  /** The company a row describes: each column from its first non-empty alias, source `csv`. */
  function MapRow(row: CsvRow, industryId: Option<Id>, logId: Id, now: Time): (c: Company)
    ensures c.name == RowName(row) && c.contactEmail == RowContactEmail(row)
    ensures c.source == "csv" && c.industryId == industryId && c.collectionLogId == Some(logId)
  {
    NewCompany(RowName(row),
               FirstOf(row, "contact_name", "담당자", "담당자명"),
               FirstOf(row, "contact_title", "직책", "직함"),
               RowContactEmail(row),
               FirstOf(row, "contact_phone", "전화번호", "연락처"),
               FirstOf(row, "website", "웹사이트", "홈페이지"),
               industryId, "csv", Some(logId), now)
  }

  /**
   * Why a row is refused before its insert, checked in order: the name, the presence of the
   * email, its shape, and whether `.single()` finds a company with that email.
   */
  function RowProblem(companies: map<Id, Company>, c: Company): (r: Option<string>)
    ensures r.None? <==> c.name != "" && ValidateEmail(c.contactEmail) && |EmailHolders(companies, c.contactEmail)| != 1
    ensures r.None? ==> c.contactEmail != ""
    ensures c.name == "" ==> r == Some(CompanyNameMissingMsg)
    ensures c.name != "" && c.contactEmail == "" ==> r == Some(EmailMissingMsg)
    ensures c.name != "" && c.contactEmail != "" && !ValidateEmail(c.contactEmail) ==> r == Some(EmailFormatMsg)
    ensures c.name != "" && ValidateEmail(c.contactEmail) && |EmailHolders(companies, c.contactEmail)| == 1 ==>
      r == Some(DuplicateEmailMsg)
  {
    if c.name == "" then Some(CompanyNameMissingMsg)
    else if c.contactEmail == "" then Some(EmailMissingMsg)
    else if !ValidateEmail(c.contactEmail) then Some(EmailFormatMsg)
    else if |EmailHolders(companies, c.contactEmail)| == 1 then Some(DuplicateEmailMsg)
    else None
  }

  /** One row: refused (no write) with its message, or inserted (`None`); `fault` is the insert's error. */
  function ImportOne(db: Db, row: CsvRow, industryId: Option<Id>, logId: Id, fault: Option<string>, now: Time)
    : (r: (Db, Option<string>))
    ensures r.1.Some? ==> r.0 == db
    ensures r.1.None? <==> RowProblem(db.companies, MapRow(row, industryId, logId, now)).None? && fault.None?
    ensures r.1.None? ==> r.0 == db.InsertCompany(MapRow(row, industryId, logId, now))
    ensures r.0.collectionLogs == db.collectionLogs && r.0.activities == db.activities
    ensures r.0.journal == db.journal + (if r.1.None? then [CompanyInserted(db.nextId)] else [])
  {
    var c := MapRow(row, industryId, logId, now);
    match RowProblem(db.companies, c)
    case Some(m) => (db, Some(m))
    case None =>
      match fault
      case Some(m) => (db, Some(m))
      case None => (db.InsertCompany(c), None)
  }

  /**
   * The rows `rows[i..]` in order, after `outcomes` (one per row already done): each row's outcome
   * is `None` when it was inserted, or its error message.
   */
  function ImportFrom(db: Db, outcomes: seq<Option<string>>, rows: seq<CsvRow>, i: nat, industryId: Option<Id>,
                      logId: Id, faults: nat -> Option<string>, now: Time): (r: (Db, seq<Option<string>>))
    requires |outcomes| == i <= |rows|
    ensures |r.1| == |rows| && r.1[..i] == outcomes
    ensures r.0.collectionLogs == db.collectionLogs && r.0.activities == db.activities
    ensures |db.journal| <= |r.0.journal| && r.0.journal[..|db.journal|] == db.journal
    decreases |rows| - i
  {
    if i == |rows| then (db, outcomes)
    else
      var step := ImportOne(db, rows[i], industryId, logId, faults(i), now);
      var r := ImportFrom(step.0, outcomes + [step.1], rows, i + 1, industryId, logId, faults, now);
      assert r.1[..i] == (outcomes + [step.1])[..i];
      assert r.0.journal[..|db.journal|] == r.0.journal[..|step.0.journal|][..|db.journal|];
      r
  }

  function ImportRows(db: Db, rows: seq<CsvRow>, industryId: Option<Id>, logId: Id, faults: nat -> Option<string>, now: Time)
    : (r: (Db, seq<Option<string>>))
    ensures |r.1| == |rows|
  {
    ImportFrom(db, [], rows, 0, industryId, logId, faults, now)
  }

  /** A row's outcome: inserted, or refused with a message. */
  predicate Inserted(o: Option<string>) { o.None? }
  predicate Refused(o: Option<string>) { o.Some? }

  /** One entry of the response's `errors`: the spreadsheet row number (header is row 1), the row, the message. */
  datatype RowError = RowError(row: nat, data: CsvRow, message: string)

  /** The `errors` list for the first `|outcomes|` rows: one entry per refused row, in row order. */
  function ErrorsOf(rows: seq<CsvRow>, outcomes: seq<Option<string>>): (r: seq<RowError>)
    requires |outcomes| <= |rows|
    ensures |r| == Count(outcomes, Refused)
    decreases |outcomes|
  {
    if outcomes == [] then []
    else
      var n := |outcomes| - 1;
      ErrorsOf(rows, outcomes[..n]) + ErrorEntry(n, rows[n], outcomes[n])
  }

  /**
   * Each error names a refused row by its spreadsheet number (index + 2), carries that row and its
   * message, and the errors come in row order.
   */
  predicate Numbered(rows: seq<CsvRow>, outcomes: seq<Option<string>>, r: seq<RowError>)
    requires |outcomes| <= |rows|
  {
    && (forall k :: 0 <= k < |r| ==>
          2 <= r[k].row < |outcomes| + 2 && r[k].data == rows[r[k].row - 2] && outcomes[r[k].row - 2] == Some(r[k].message))
    && (forall k, l :: 0 <= k < l < |r| ==> r[k].row < r[l].row)
  }

  lemma {:induction false} ErrorsOfRows(rows: seq<CsvRow>, outcomes: seq<Option<string>>)
    requires |outcomes| <= |rows|
    ensures Numbered(rows, outcomes, ErrorsOf(rows, outcomes))
    decreases |outcomes|
  {
    if outcomes != [] {
      var n := |outcomes| - 1;
      var pre := outcomes[..n];
      ErrorsOfRows(rows, pre);
      var earlier := ErrorsOf(rows, pre);
      var r := ErrorsOf(rows, outcomes);
      assert r == earlier + ErrorEntry(n, rows[n], outcomes[n]);
      forall k | 0 <= k < |r|
        ensures 2 <= r[k].row < |outcomes| + 2 && r[k].data == rows[r[k].row - 2] && outcomes[r[k].row - 2] == Some(r[k].message)
      {
        if k < |earlier| {
          assert r[k] == earlier[k];
          assert outcomes[earlier[k].row - 2] == pre[earlier[k].row - 2];
        }
      }
      forall k, l | 0 <= k < l < |r|
        ensures r[k].row < r[l].row
      {
        if l < |earlier| {
          assert r[k] == earlier[k] && r[l] == earlier[l];
        } else {
          assert r[k] == earlier[k];
        }
      }
    }
  }

  /** The error entry for the row at index `n`, if it was refused. */
  function ErrorEntry(n: nat, row: CsvRow, o: Option<string>): seq<RowError> {
    if o.Some? then [RowError(n + 2, row, o.value)] else []
  }

  datatype UploadResponse =
    | NoData(message: string)
    | UploadReport(total: nat, success: nat, fail: nat, errors: seq<RowError>)

  function UploadActivity(logId: Id, success: nat, fail: nat): Activity {
    Activity("collect", Some("collection_log"), Some(logId),
             "CSV 업로드 완료 (성공: " + NatToString(success) + ", 실패: " + NatToString(fail) + ")")
  }

  /**
   * The whole upload: a missing or empty `data` changes nothing; otherwise a `processing`
   * collection log, the rows, the log finished with the tallies, and an activity row.
   */
  function Upload(db: Db, data: Option<seq<CsvRow>>, industryId: Option<Id>, faults: nat -> Option<string>, now: Time)
    : (r: (Db, UploadResponse))
    ensures data.None? || data.value == [] ==> r == (db, NoData(NoDataMsg))
    ensures r.1.UploadReport? ==> data.Some? && r.1.total == |data.value| && r.1.success + r.1.fail == r.1.total
  {
    if data.None? || data.value == [] then (db, NoData(NoDataMsg))
    else
      var rows := data.value;
      var logId := db.nextId;
      var d1 := db.InsertCollectionLog(CollectionLog("csv", industryId, |rows|, 0, 0, Collecting));
      var run := ImportRows(d1, rows, industryId, logId, faults, now);
      Conclude(run.0, rows, run.1, logId)
  }

  /** After the rows: the tallies, the log row finished with them, the activity row, and the report. */
  function Conclude(db: Db, rows: seq<CsvRow>, outcomes: seq<Option<string>>, logId: Id): (r: (Db, UploadResponse))
    requires |outcomes| == |rows|
    ensures r.1.UploadReport? && r.1.total == |rows| && r.1.success + r.1.fail == |rows|
    ensures r.1.success == Count(outcomes, Inserted)
    ensures r.1.fail == Count(outcomes, Refused)
    ensures r.1.errors == ErrorsOf(rows, outcomes)
    ensures r.0.collectionLogs.Keys == db.collectionLogs.Keys
    ensures logId in db.collectionLogs ==>
      r.0.collectionLogs == db.collectionLogs[logId := db.collectionLogs[logId].(successCount := r.1.success, failCount := r.1.fail, status := Completed)]
    ensures r.0.activities == db.activities + [UploadActivity(logId, r.1.success, r.1.fail)]
    ensures r.0.journal == db.journal + [CollectionLogUpdated(logId), ActivityInserted("collect")]
    ensures r.0.companies == db.companies
  {
    var success := Count(outcomes, Inserted);
    var fail := Count(outcomes, Refused);
    CountComplement(outcomes, Inserted, Refused);
    var d2 := db.FinishCollectionLog(logId, success, fail).AppendActivity(UploadActivity(logId, success, fail));
    (d2, UploadReport(|rows|, success, fail, ErrorsOf(rows, outcomes)))
  }

  /** The report lists one error per refused row, with its spreadsheet row number (index + 2) and the row. */
  lemma UploadErrors(db: Db, rows: seq<CsvRow>, industryId: Option<Id>, faults: nat -> Option<string>, now: Time)
    requires rows != []
    ensures var r := Upload(db, Some(rows), industryId, faults, now).1;
      && r.UploadReport?
      && |r.errors| == r.fail
      && (forall k :: 0 <= k < |r.errors| ==> 2 <= r.errors[k].row <= |rows| + 1 && r.errors[k].data == rows[r.errors[k].row - 2])
      && (forall k, l :: 0 <= k < l < |r.errors| ==> r.errors[k].row < r.errors[l].row)
  {
    var d1 := db.InsertCollectionLog(CollectionLog("csv", industryId, |rows|, 0, 0, Collecting));
    var run := ImportRows(d1, rows, industryId, db.nextId, faults, now);
    ErrorsOfRows(rows, run.1);
  }

  /** The upload's collection log row ends `completed`, holding the upload's size and tallies. */
  lemma UploadLog(db: Db, rows: seq<CsvRow>, industryId: Option<Id>, faults: nat -> Option<string>, now: Time)
    requires rows != []
    ensures var r := Upload(db, Some(rows), industryId, faults, now);
      && r.1.UploadReport?
      && r.0.collectionLogs == db.collectionLogs[db.nextId := CollectionLog("csv", industryId, |rows|, r.1.success, r.1.fail, Completed)]
  {
    var log := CollectionLog("csv", industryId, |rows|, 0, 0, Collecting);
    var d1 := db.InsertCollectionLog(log);
    var run := ImportRows(d1, rows, industryId, db.nextId, faults, now);
    LogFinished(run.0, rows, run.1, db.nextId, db.collectionLogs, log);
  }

  lemma LogFinished(db: Db, rows: seq<CsvRow>, outcomes: seq<Option<string>>, logId: Id, before: map<Id, CollectionLog>, log: CollectionLog)
    requires |outcomes| == |rows| && db.collectionLogs == before[logId := log]
    ensures var r := Conclude(db, rows, outcomes, logId);
      r.0.collectionLogs == before[logId := log.(successCount := r.1.success, failCount := r.1.fail, status := Completed)]
  {
    var r := Conclude(db, rows, outcomes, logId);
    assert r.0.collectionLogs == before[logId := log][logId := log.(successCount := r.1.success, failCount := r.1.fail, status := Completed)];
  }

  /** One activity row is added, naming the upload's log and its tallies. */
  lemma UploadActivityRow(db: Db, rows: seq<CsvRow>, industryId: Option<Id>, faults: nat -> Option<string>, now: Time)
    requires rows != []
    ensures var r := Upload(db, Some(rows), industryId, faults, now);
      && r.1.UploadReport?
      && r.0.activities == db.activities + [UploadActivity(db.nextId, r.1.success, r.1.fail)]
  {
  }

  /** The log row is written before any company and finished after the last; the activity comes last. */
  lemma UploadJournal(db: Db, rows: seq<CsvRow>, industryId: Option<Id>, faults: nat -> Option<string>, now: Time)
    requires rows != []
    ensures var r := Upload(db, Some(rows), industryId, faults, now).0;
      && |db.journal| + 3 <= |r.journal|
      && r.journal[..|db.journal| + 1] == db.journal + [CollectionLogInserted(db.nextId)]
      && r.journal[|r.journal| - 2..] == [CollectionLogUpdated(db.nextId), ActivityInserted("collect")]
  {
    var d1 := db.InsertCollectionLog(CollectionLog("csv", industryId, |rows|, 0, 0, Collecting));
    var run := ImportRows(d1, rows, industryId, db.nextId, faults, now);
    assert run.0.journal[..|d1.journal|] == d1.journal;
  }

  // ----- email uniqueness -----

  /** The email column of every row, in order. */
  function RowEmails(rows: seq<CsvRow>): (r: seq<string>)
    ensures |r| == |rows| && forall j :: 0 <= j < |rows| ==> r[j] == RowContactEmail(rows[j])
  {
    seq(|rows|, j requires 0 <= j < |rows| => RowContactEmail(rows[j]))
  }

  /**
   * What holds after the first `|outcomes|` rows (with emails `emails`) when the table started with
   * unique emails: ids are fresh, emails are still unique, every inserted row's email has the
   * right shape and is in the table, and a row whose email an earlier row inserted was refused.
   */
  ghost predicate Tracked(cs: map<Id, Company>, nextId: nat, rows: seq<CsvRow>, emails: seq<string>, outcomes: seq<Option<string>>)
    requires |outcomes| <= |rows| == |emails|
  {
    && (forall id :: id in cs ==> id < nextId)
    && EmailsUnique(cs)
    && (forall j :: 0 <= j < |outcomes| && outcomes[j].None? ==>
          ValidateEmail(emails[j]) && emails[j] != "" && EmailHolders(cs, emails[j]) != {})
    && (forall i, j :: 0 <= i < j < |outcomes| && outcomes[i].None? && emails[i] == emails[j] ==>
          outcomes[j] == Some(if RowName(rows[j]) == "" then CompanyNameMissingMsg else DuplicateEmailMsg))
  }

  lemma ImportOneKeeps(db: Db, rows: seq<CsvRow>, outcomes: seq<Option<string>>, industryId: Option<Id>, logId: Id,
                       fault: Option<string>, now: Time)
    requires |outcomes| < |rows| && Tracked(db.companies, db.nextId, rows, RowEmails(rows), outcomes)
    ensures var step := ImportOne(db, rows[|outcomes|], industryId, logId, fault, now);
      Tracked(step.0.companies, step.0.nextId, rows, RowEmails(rows), outcomes + [step.1])
  {
    var k := |outcomes|;
    var emails := RowEmails(rows);
    var c := MapRow(rows[k], industryId, logId, now);
    var step := ImportOne(db, rows[k], industryId, logId, fault, now);
    if step.1.None? {
      InsertedKeeps(db.companies, db.nextId, rows, emails, outcomes, c);
      assert step.0.companies == db.companies[db.nextId := c];
    } else {
      forall i | 0 <= i < k && outcomes[i].None? && emails[i] == emails[k]
        ensures step.1 == Some(if RowName(rows[k]) == "" then CompanyNameMissingMsg else DuplicateEmailMsg)
      {
        var h :| h in EmailHolders(db.companies, emails[k]);
        UniqueHolders(db.companies, emails[k]);
      }
      RefusedKeeps(db.companies, db.nextId, rows, emails, outcomes, step.1.value);
    }
  }

  /** A refused row keeps the table; if an earlier row inserted its email, it was refused as shown. */
  lemma RefusedKeeps(cs: map<Id, Company>, nextId: nat, rows: seq<CsvRow>, emails: seq<string>, outcomes: seq<Option<string>>, m: string)
    requires |outcomes| < |rows| == |emails| && Tracked(cs, nextId, rows, emails, outcomes)
    requires var k := |outcomes|;
      forall i :: 0 <= i < k && outcomes[i].None? && emails[i] == emails[k] ==>
        Some(m) == Some(if RowName(rows[k]) == "" then CompanyNameMissingMsg else DuplicateEmailMsg)
    ensures Tracked(cs, nextId, rows, emails, outcomes + [Some(m)])
  {
  }

  /** An inserted row whose checks passed against the table keeps every part of `Tracked`. */
  lemma InsertedKeeps(cs: map<Id, Company>, nextId: nat, rows: seq<CsvRow>, emails: seq<string>, outcomes: seq<Option<string>>, c: Company)
    requires |outcomes| < |rows| == |emails| && Tracked(cs, nextId, rows, emails, outcomes)
    requires c.contactEmail == emails[|outcomes|] && ValidateEmail(c.contactEmail) && c.contactEmail != ""
    requires |EmailHolders(cs, c.contactEmail)| != 1
    ensures Tracked(cs[nextId := c], nextId + 1, rows, emails, outcomes + [None])
    ensures EmailHolders(cs[nextId := c], c.contactEmail) == {nextId}
  {
    UniqueHolders(cs, c.contactEmail);
    assert EmailHolders(cs, c.contactEmail) == {};
    InsertKeepsEmailsUnique(cs, nextId, c);
    InsertKeepsHeld(cs, nextId, emails, outcomes, c);
    forall i | 0 <= i < |outcomes| && outcomes[i].None?
      ensures emails[i] != c.contactEmail
    {
    }
  }

  /**
   * The emails of the inserted rows, this one included, are all in the table after the insert,
   * and the new row joins the earlier holders of its email.
   */
  lemma InsertKeepsHeld(cs: map<Id, Company>, nextId: nat, emails: seq<string>, outcomes: seq<Option<string>>, c: Company)
    requires |outcomes| < |emails| && c.contactEmail == emails[|outcomes|] && nextId !in cs
    requires forall j :: 0 <= j < |outcomes| && outcomes[j].None? ==> EmailHolders(cs, emails[j]) != {}
    ensures var outs := outcomes + [None];
      forall j :: 0 <= j < |outs| && outs[j].None? ==> EmailHolders(cs[nextId := c], emails[j]) != {}
    ensures EmailHolders(cs[nextId := c], c.contactEmail) == EmailHolders(cs, c.contactEmail) + {nextId}
  {
    var cs' := cs[nextId := c];
    var outs := outcomes + [None];
    assert nextId in EmailHolders(cs', c.contactEmail);
    forall j | 0 <= j < |outs| && outs[j].None?
      ensures EmailHolders(cs', emails[j]) != {}
    {
      if j < |outcomes| {
        assert outcomes[j].None?;
        var h :| h in EmailHolders(cs, emails[j]);
        assert h in EmailHolders(cs', emails[j]);
      }
    }
  }

  lemma {:induction false} ImportFromKeeps(db: Db, outcomes: seq<Option<string>>, rows: seq<CsvRow>, i: nat,
                                           industryId: Option<Id>, logId: Id, faults: nat -> Option<string>, now: Time)
    requires |outcomes| == i <= |rows| && Tracked(db.companies, db.nextId, rows, RowEmails(rows), outcomes)
    ensures var r := ImportFrom(db, outcomes, rows, i, industryId, logId, faults, now);
      Tracked(r.0.companies, r.0.nextId, rows, RowEmails(rows), r.1)
    decreases |rows| - i
  {
    if i < |rows| {
      var step := ImportOne(db, rows[i], industryId, logId, faults(i), now);
      ImportOneKeeps(db, rows, outcomes, industryId, logId, faults(i), now);
      ImportFromKeeps(step.0, outcomes + [step.1], rows, i + 1, industryId, logId, faults, now);
    }
  }

  /** An upload into a table with unique emails (and fresh ids) leaves the emails unique. */
  lemma UploadKeepsEmailsUnique(db: Db, data: Option<seq<CsvRow>>, industryId: Option<Id>, faults: nat -> Option<string>, now: Time)
    requires EmailsUnique(db.companies) && forall id :: id in db.companies ==> id < db.nextId
    ensures EmailsUnique(Upload(db, data, industryId, faults, now).0.companies)
  {
    if data.Some? && data.value != [] {
      var d1 := db.InsertCollectionLog(CollectionLog("csv", industryId, |data.value|, 0, 0, Collecting));
      ImportFromKeeps(d1, [], data.value, 0, industryId, db.nextId, faults, now);
    }
  }

  /**
   * A row whose email an earlier row of the same upload inserted is refused: as a duplicate, or
   * for its missing name, which is checked first.
   */
  lemma RepeatedEmailRejected(db: Db, rows: seq<CsvRow>, industryId: Option<Id>, logId: Id,
                              faults: nat -> Option<string>, now: Time, i: nat, j: nat)
    requires EmailsUnique(db.companies) && forall id :: id in db.companies ==> id < db.nextId
    requires i < j < |rows| && RowContactEmail(rows[i]) == RowContactEmail(rows[j])
    ensures var out := ImportRows(db, rows, industryId, logId, faults, now).1;
      out[i].None? ==> out[j] == Some(if RowName(rows[j]) == "" then CompanyNameMissingMsg else DuplicateEmailMsg)
  {
    ImportFromKeeps(db, [], rows, 0, industryId, logId, faults, now);
  }

  /** A row is inserted exactly when its checks pass against the table as the earlier rows left it and the insert succeeds. */
  lemma {:induction false} ImportFromOutcome(db: Db, outcomes: seq<Option<string>>, rows: seq<CsvRow>, i: nat,
                                             industryId: Option<Id>, logId: Id, faults: nat -> Option<string>, now: Time)
    requires |outcomes| == i < |rows|
    ensures var step := ImportOne(db, rows[i], industryId, logId, faults(i), now);
      ImportFrom(db, outcomes, rows, i, industryId, logId, faults, now).1[i] == step.1
  {
    var step := ImportOne(db, rows[i], industryId, logId, faults(i), now);
    var r := ImportFrom(step.0, outcomes + [step.1], rows, i + 1, industryId, logId, faults, now);
    assert r.1[..i + 1][i] == step.1;
  }
  // ----- the handler -----

  /** One row against the store: the checks in order, the `.single()` duplicate lookup, the insert. */
  method ImportRow(s: Store, row: CsvRow, industryId: Option<Id>, logId: Id, fault: Option<string>, now: Time)
    returns (problem: Option<string>)
    modifies s
    ensures (s.Snapshot(), problem) == ImportOne(old(s.Snapshot()), row, industryId, logId, fault, now)
  {
    var c := MapRow(row, industryId, logId, now);
    if c.name == "" {
      return Some(CompanyNameMissingMsg);
    }
    if c.contactEmail == "" {
      return Some(EmailMissingMsg);
    }
    if !ValidateEmail(c.contactEmail) {
      return Some(EmailFormatMsg);
    }
    var existing := TheOne(EmailHolders(s.companies, c.contactEmail));
    if existing.Some? {
      return Some(DuplicateEmailMsg);
    }
    if fault.Some? {
      return fault;
    }
    var _ := s.InsertCompany(c);
    problem := None;
  }

  /** The tallies and the error list after one more row. */
  lemma Tally(rows: seq<CsvRow>, outcomes: seq<Option<string>>, p: Option<string>)
    requires |outcomes| < |rows|
    ensures Count(outcomes + [p], Inserted) == Count(outcomes, Inserted) + (if p.None? then 1 else 0)
    ensures Count(outcomes + [p], Refused) == Count(outcomes, Refused) + (if p.Some? then 1 else 0)
    ensures ErrorsOf(rows, outcomes + [p]) == ErrorsOf(rows, outcomes) + ErrorEntry(|outcomes|, rows[|outcomes|], p)
  {
    assert (outcomes + [p])[..|outcomes|] == outcomes;
  }

  /** The `try`/`catch` bookkeeping for the row at index `i`: a success, or a failure and its error entry. */
  method TallyRow(rows: seq<CsvRow>, i: nat, ghost outcomes: seq<Option<string>>, problem: Option<string>,
                  success: nat, fail: nat, errors: seq<RowError>)
    returns (success': nat, fail': nat, errors': seq<RowError>)
    requires |outcomes| == i < |rows|
    requires success == Count(outcomes, Inserted) && fail == Count(outcomes, Refused) && errors == ErrorsOf(rows, outcomes)
    ensures success' == Count(outcomes + [problem], Inserted) && fail' == Count(outcomes + [problem], Refused)
    ensures errors' == ErrorsOf(rows, outcomes + [problem])
  {
    Tally(rows, outcomes, problem);
    success', fail', errors' := success, fail, errors;
    if problem.None? {
      success' := success + 1;
    } else {
      fail' := fail + 1;
      errors' := errors + [RowError(i + 2, rows[i], problem.value)];
    }
  }

  /** The loop over the rows, counting successes and failures and collecting the errors. */
  method ImportAll(s: Store, rows: seq<CsvRow>, industryId: Option<Id>, logId: Id, faults: nat -> Option<string>, now: Time)
    returns (success: nat, fail: nat, errors: seq<RowError>, ghost outcomes: seq<Option<string>>)
    modifies s
    ensures (s.Snapshot(), outcomes) == ImportRows(old(s.Snapshot()), rows, industryId, logId, faults, now)
    ensures success == Count(outcomes, Inserted) && fail == Count(outcomes, Refused)
    ensures |outcomes| == |rows| && errors == ErrorsOf(rows, outcomes)
  {
    ghost var goal := ImportRows(s.Snapshot(), rows, industryId, logId, faults, now);
    success, fail, errors, outcomes := 0, 0, [], [];
    for i := 0 to |rows|
      invariant |outcomes| == i
      invariant ImportFrom(s.Snapshot(), outcomes, rows, i, industryId, logId, faults, now) == goal
      invariant success == Count(outcomes, Inserted) && fail == Count(outcomes, Refused)
      invariant errors == ErrorsOf(rows, outcomes)
    {
      var problem := ImportRow(s, rows[i], industryId, logId, faults(i), now);
      success, fail, errors := TallyRow(rows, i, outcomes, problem, success, fail, errors);
      outcomes := outcomes + [problem];
    }
  }

  /** The CSV upload handler. */
  method UploadRequest(s: Store, data: Option<seq<CsvRow>>, industryId: Option<Id>, faults: nat -> Option<string>, now: Time)
    returns (resp: UploadResponse)
    modifies s
    ensures (s.Snapshot(), resp) == Upload(old(s.Snapshot()), data, industryId, faults, now)
  {
    if data.None? || data.value == [] {
      return NoData(NoDataMsg);
    }
    var rows := data.value;
    var logId := s.InsertCollectionLog(CollectionLog("csv", industryId, |rows|, 0, 0, Collecting));
    var success, fail, errors, outcomes := ImportAll(s, rows, industryId, logId, faults, now);
    s.FinishCollectionLog(logId, success, fail);
    s.AppendActivity(UploadActivity(logId, success, fail));
    resp := UploadReport(|rows|, success, fail, errors);
  }
}

=== FILE: generate.dfy ===
/**
 * Draft generation: for each selected company the AI writes a subject and body from a template,
 * the default signature is put in, and the result is stored as a new draft.
 */
module GenerateDrafts {
  import opened Wrappers
  import opened Strings
  import opened Records
  import opened Store
  import opened Templating

  const NoCompaniesMsg := "기업을 선택해주세요."
  const NoTemplateMsg := "템플릿을 찾을 수 없습니다."
  const CompanyMissingMsg := "기업을 찾을 수 없습니다."
  const DefaultDemoLink := "https://demo.gptko.co.kr"
  const DefaultSenderName := "GPTko AI사업팀"

  /** What the AI is asked: the company's facts, the template, the demo link and the sender. */
  datatype AiRequest = AiRequest(name: string, industryId: Option<Id>, contactName: string, bmSummary: string,
                                 newsSummary: string, template: Template, demoLink: string, senderName: string)

  /** The AI's answer: a subject and a body, or an error. */
  datatype AiReply = AiDraft(subject: string, body: string) | AiError(message: string)

  /** The template named by id (no fallback), or the single default when no id is given. */
  function ChooseTemplate(templates: map<Id, Template>, templateId: Option<Id>): (r: Option<Id>)
    ensures templateId.Some? ==> (r.Some? <==> templateId.value in templates) && (r.Some? ==> r == templateId)
    ensures templateId.None? ==> r == DefaultTemplate(templates)
  {
    match templateId
    case Some(k) => if k in templates then Some(k) else None
    case None => DefaultTemplate(templates)
  }

  function AskFor(c: Company, t: Template, demoLink: Option<string>, env: SenderEnv): AiRequest {
    AiRequest(c.name, c.industryId, Or(c.contactName, "담당자"), c.bmSummary, c.newsSummary, t,
              if demoLink.Some? then Or(demoLink.value, DefaultDemoLink) else DefaultDemoLink,
              Or(env.name, DefaultSenderName))
  }

  /** The body with the default signature put in place of the first `{{sender_signature}}`, if there is a signature. */
  function SignBody(body: string, signature: Option<string>): (r: string)
    ensures signature.None? || signature.value == "" ==> r == body
    ensures !Contains(body, "{{sender_signature}}") ==> r == body
  {
    if signature.Some? && signature.value != "" then
      assert !Contains(body, "{{sender_signature}}") ==> ReplaceFirst(body, "{{sender_signature}}", signature.value) == body by {
        if !Contains(body, "{{sender_signature}}") {
          ReplaceFirstNoMatch(body, "{{sender_signature}}", signature.value);
        }
      }
      ReplaceFirst(body, "{{sender_signature}}", signature.value)
    else body
  }

  /**
   * Only the first `{{sender_signature}}` is replaced, and only by a non-empty signature; text
   * without the placeholder is left as it is.
   */
  lemma SignBodySpec(body: string, signature: Option<string>, i: nat)
    ensures signature.None? || signature.value == "" ==> SignBody(body, signature) == body
    ensures !Contains(body, "{{sender_signature}}") ==> SignBody(body, signature) == body
    ensures signature.Some? && signature.value != "" && OccursAt(body, "{{sender_signature}}", i)
            && (forall j :: 0 <= j < i ==> !OccursAt(body, "{{sender_signature}}", j)) ==>
      SignBody(body, signature) == body[..i] + signature.value + body[i + |"{{sender_signature}}"|..]
  {
    var p := "{{sender_signature}}";
    if !Contains(body, p) {
      ReplaceFirstNoMatch(body, p, if signature.Some? then signature.value else "");
    }
    if signature.Some? && signature.value != "" && OccursAt(body, p, i) && (forall j :: 0 <= j < i ==> !OccursAt(body, p, j)) {
      ReplaceFirstLeftmost(body, p, signature.value, i);
    }
  }

  /** The draft stored for one company. */
  function DraftFor(companyId: Id, c: Company, templateId: Id, reply: AiReply, signature: Option<string>,
                    demoLink: Option<string>, now: Time): Draft
    requires reply.AiDraft?
  {
    Draft(companyId, templateId, reply.subject, SignBody(reply.body, signature), demoLink, c.sendCount + 1, Drafted, now)
  }

  /** Drafts made and errors met so far. */
  datatype GenRun = GenRun(db: Db, drafts: seq<(Id, Draft)>, errors: seq<(Id, string)>)

  /** One company; `fault` is the insert's error, if any. */
  function GenerateOne(run: GenRun, companyId: Id, templateId: Id, ai: AiRequest -> AiReply, signature: Option<string>,
                       demoLink: Option<string>, fault: Option<string>, env: SenderEnv, now: Time): (r: GenRun)
    requires templateId in run.db.templates
    ensures |r.drafts| + |r.errors| == |run.drafts| + |run.errors| + 1
    ensures r.db.templates == run.db.templates
    ensures companyId !in run.db.companies ==> r == run.(errors := run.errors + [(companyId, CompanyMissingMsg)])
  {
    var db := run.db;
    if companyId !in db.companies then run.(errors := run.errors + [(companyId, CompanyMissingMsg)])
    else
      var c := db.companies[companyId];
      match ai(AskFor(c, db.templates[templateId], demoLink, env))
      case AiError(m) => run.(errors := run.errors + [(companyId, m)])
      case AiDraft(subject, body) =>
        if fault.Some? then run.(errors := run.errors + [(companyId, fault.value)])
        else
          var dr := DraftFor(companyId, c, templateId, AiDraft(subject, body), signature, demoLink, now);
          GenRun(db.InsertDraft(dr), run.drafts + [(db.nextId, dr)], run.errors)
  }

  /**
   * A company the AI answered for and whose insert succeeded gets a new `draft` row under a fresh
   * id, with send order one past the company's send count and the signed body.
   */
  lemma GenerateOneCreates(run: GenRun, companyId: Id, templateId: Id, ai: AiRequest -> AiReply, signature: Option<string>,
                           demoLink: Option<string>, env: SenderEnv, now: Time)
    requires templateId in run.db.templates && companyId in run.db.companies
    requires ai(AskFor(run.db.companies[companyId], run.db.templates[templateId], demoLink, env)).AiDraft?
    ensures var r := GenerateOne(run, companyId, templateId, ai, signature, demoLink, None, env, now);
      var reply := ai(AskFor(run.db.companies[companyId], run.db.templates[templateId], demoLink, env));
      var dr := r.db.drafts[run.db.nextId];
      && r.db.drafts == run.db.drafts[run.db.nextId := dr] && r.db.nextId == run.db.nextId + 1
      && r.drafts == run.drafts + [(run.db.nextId, dr)] && r.errors == run.errors
      && dr.status == Drafted && dr.companyId == companyId && dr.templateId == templateId
      && dr.sendOrder == run.db.companies[companyId].sendCount + 1
      && dr.subject == reply.subject && dr.body == SignBody(reply.body, signature)
      && r.db.queue == run.db.queue && r.db.companies == run.db.companies
  {
  }

  function GenerateFrom(run: GenRun, ids: seq<Id>, i: nat, templateId: Id, ai: AiRequest -> AiReply, signature: Option<string>,
                        demoLink: Option<string>, faults: nat -> Option<string>, env: SenderEnv, now: Time): (r: GenRun)
    requires i <= |ids| && templateId in run.db.templates
    ensures |r.drafts| + |r.errors| == |run.drafts| + |run.errors| + |ids| - i
    ensures r.db.activities == run.db.activities
    decreases |ids| - i
  {
    if i == |ids| then run
    else
      var next := GenerateOne(run, ids[i], templateId, ai, signature, demoLink, faults(i), env, now);
      GenerateFrom(next, ids, i + 1, templateId, ai, signature, demoLink, faults, env, now)
  }

  datatype GenerateResponse =
    | NoCompanies(message: string)
    | NoTemplate(message: string)
    | GenerateReport(drafts: seq<(Id, Draft)>, errors: seq<(Id, string)>, total: nat, successCount: nat, failCount: nat)

  function GenerateActivity(n: nat): Activity {
    Activity("draft", Some("draft"), None, "AI 초안 " + NatToString(n) + "건 생성")
  }

  /** The whole request. */
  function Generate(db: Db, companyIds: Option<seq<Id>>, templateId: Option<Id>, demoLink: Option<string>,
                    ai: AiRequest -> AiReply, faults: nat -> Option<string>, env: SenderEnv, now: Time): (r: (Db, GenerateResponse))
    ensures companyIds.None? || companyIds.value == [] ==> r == (db, NoCompanies(NoCompaniesMsg))
    ensures companyIds.Some? && companyIds.value != [] && ChooseTemplate(db.templates, templateId).None? ==>
      r == (db, NoTemplate(NoTemplateMsg))
    ensures r.1.GenerateReport? ==>
      && r.1.total == |companyIds.value|
      && r.1.successCount == |r.1.drafts| && r.1.failCount == |r.1.errors|
      && r.1.successCount + r.1.failCount == r.1.total
  {
    if companyIds.None? || companyIds.value == [] then (db, NoCompanies(NoCompaniesMsg))
    else match ChooseTemplate(db.templates, templateId)
      case None => (db, NoTemplate(NoTemplateMsg))
      case Some(tid) =>
        var run := GenerateFrom(GenRun(db, [], []), companyIds.value, 0, tid, ai, DefaultSignature(db.signatures),
                                demoLink, faults, env, now);
        var d := if |run.drafts| > 0 then run.db.AppendActivity(GenerateActivity(|run.drafts|)) else run.db;
        (d, GenerateReport(run.drafts, run.errors, |companyIds.value|, |run.drafts|, |run.errors|))
  }

  /** The activity row is written exactly when at least one draft was made, and it is the only one. */
  lemma GenerateLogsActivity(db: Db, companyIds: Option<seq<Id>>, templateId: Option<Id>, demoLink: Option<string>,
                             ai: AiRequest -> AiReply, faults: nat -> Option<string>, env: SenderEnv, now: Time)
    requires companyIds.Some? && companyIds.value != [] && ChooseTemplate(db.templates, templateId).Some?
    ensures var r := Generate(db, companyIds, templateId, demoLink, ai, faults, env, now);
      var run := GenerateFrom(GenRun(db, [], []), companyIds.value, 0, ChooseTemplate(db.templates, templateId).value,
                              ai, DefaultSignature(db.signatures), demoLink, faults, env, now);
      && r.1.GenerateReport?
      && run.db.activities == db.activities
      && (r.1.successCount > 0 ==> r.0.activities == run.db.activities + [GenerateActivity(r.1.successCount)])
      && (r.1.successCount == 0 ==> r.0 == run.db)
  {
  }

  method GenerateForCompany(s: Store, companyId: Id, templateId: Id, ai: AiRequest -> AiReply, signature: Option<string>,
                            demoLink: Option<string>, fault: Option<string>, env: SenderEnv, now: Time,
                            drafts: seq<(Id, Draft)>, errors: seq<(Id, string)>)
    returns (drafts': seq<(Id, Draft)>, errors': seq<(Id, string)>)
    requires templateId in s.templates
    modifies s
    ensures GenRun(s.Snapshot(), drafts', errors') ==
      GenerateOne(GenRun(old(s.Snapshot()), drafts, errors), companyId, templateId, ai, signature, demoLink, fault, env, now)
  {
    drafts', errors' := drafts, errors;
    if companyId !in s.companies {
      errors' := errors + [(companyId, CompanyMissingMsg)];
      return;
    }
    var c := s.companies[companyId];
    var reply := ai(AskFor(c, s.templates[templateId], demoLink, env));
    if reply.AiError? {
      errors' := errors + [(companyId, reply.message)];
      return;
    }
    if fault.Some? {
      errors' := errors + [(companyId, fault.value)];
      return;
    }
    var dr := DraftFor(companyId, c, templateId, reply, signature, demoLink, now);
    var id := s.InsertDraft(dr);
    drafts' := drafts + [(id, dr)];
  }

  method GenerateAll(s: Store, ids: seq<Id>, tid: Id, ai: AiRequest -> AiReply, signature: Option<string>,
                     demoLink: Option<string>, faults: nat -> Option<string>, env: SenderEnv, now: Time)
    returns (drafts: seq<(Id, Draft)>, errors: seq<(Id, string)>)
    requires tid in s.templates
    modifies s
    ensures GenRun(s.Snapshot(), drafts, errors) ==
      GenerateFrom(GenRun(old(s.Snapshot()), [], []), ids, 0, tid, ai, signature, demoLink, faults, env, now)
  {
    ghost var goal := GenerateFrom(GenRun(s.Snapshot(), [], []), ids, 0, tid, ai, signature, demoLink, faults, env, now);
    drafts, errors := [], [];
    var i := 0;
    while i < |ids|
      invariant i <= |ids| && tid in s.templates
      invariant GenerateFrom(GenRun(s.Snapshot(), drafts, errors), ids, i, tid, ai, signature, demoLink, faults, env, now) == goal
    {
      drafts, errors := GenerateForCompany(s, ids[i], tid, ai, signature, demoLink, faults(i), env, now, drafts, errors);
      i := i + 1;
    }
  }

  method GenerateRequest(s: Store, companyIds: Option<seq<Id>>, templateId: Option<Id>, demoLink: Option<string>,
                         ai: AiRequest -> AiReply, faults: nat -> Option<string>, env: SenderEnv, now: Time)
    returns (resp: GenerateResponse)
    modifies s
    ensures (s.Snapshot(), resp) == Generate(old(s.Snapshot()), companyIds, templateId, demoLink, ai, faults, env, now)
  {
    if companyIds.None? || companyIds.value == [] {
      return NoCompanies(NoCompaniesMsg);
    }
    var picked := ChooseTemplate(s.templates, templateId);
    if picked.None? {
      return NoTemplate(NoTemplateMsg);
    }
    var ids := companyIds.value;
    var drafts, errors := GenerateAll(s, ids, picked.value, ai, DefaultSignature(s.signatures), demoLink, faults, env, now);
    if |drafts| > 0 {
      s.AppendActivity(GenerateActivity(|drafts|));
    }
    resp := GenerateReport(drafts, errors, |ids|, |drafts|, |errors|);
  }
}

=== FILE: process_queue.dfy ===
/**
 * The scheduled send tick: at most one queued mail per run.
 *
 * A run reads the daily limit from the `send_settings` row, counts the mail logged as sent
 * since the start of the day, and stops when the count has reached the limit.  Otherwise it
 * takes the oldest waiting queue item, marks it processing, hands it to the mail provider and
 * records the outcome: on delivery the item completes, a mail log is written, the company's
 * send status is rolled up and the linked draft is marked sent; on a provider error the item
 * fails and its retry count goes up by one.
 */
module ProcessQueue {
  import opened Wrappers
  import opened Strings
  import opened Records
  import opened Store

  /** The daily limit as the comparison `todaySent >= dailyLimit` sees it. */
  datatype Limit = Limit(n: int) | NeverReached

  /** `x || 100` for the `daily_limit` value `x`, then coerced for `>=`. */
  function LimitOf(v: Json): (l: Limit)
    ensures v == JNull || v == JBool(false) || v == JNum(0) || v == JStr("") ==> l == Limit(100)
    ensures v.JNum? && v.n != 0 ==> l == Limit(v.n)
    ensures v == JBool(true) ==> l == Limit(1)
    ensures v.JStr? && IsDigits(v.s) ==> l == Limit(ParseDigits(v.s))
    ensures v.JStr? && v.s != "" && !IsDigits(v.s) ==> l == NeverReached
    ensures v.JObj? ==> l == NeverReached
  {
    match v
    case JNull => Limit(100)
    case JBool(b) => if b then Limit(1) else Limit(100)
    case JNum(n) => if n == 0 then Limit(100) else Limit(n)
    case JStr(s) =>
      if s == "" then Limit(100)
      else if IsDigits(s) then Limit(ParseDigits(s))
      else NeverReached
    case JObj(_) => NeverReached
  }

  /** `sendSettings?.value?.daily_limit || 100`. */
  function DailyLimit(settings: seq<SettingRow>): (l: Limit)
    ensures SettingValue(settings, "send_settings").None? ==> l == Limit(100)
    ensures (match SettingValue(settings, "send_settings")
             case Some(JObj(f)) => "daily_limit" !in f
             case _ => true) ==> l == Limit(100)
    ensures match SettingValue(settings, "send_settings")
            case Some(JObj(f)) => "daily_limit" in f ==> l == LimitOf(f["daily_limit"])
            case _ => l == Limit(100)
  {
    match SettingValue(settings, "send_settings")
    case Some(JObj(f)) => if "daily_limit" in f then LimitOf(f["daily_limit"]) else Limit(100)
    case _ => Limit(100)
  }

  predicate IsSentSince(l: MailLog, startOfToday: Time) {
    l.status == "sent" && l.sentAt >= startOfToday
  }

  /** The number of mail logs with status `sent` and `sent_at` at or after the start of today. */
  function TodaySent(logs: seq<MailLog>, startOfToday: Time): nat {
    Count(logs, (l: MailLog) => IsSentSince(l, startOfToday))
  }

  predicate LimitReached(limit: Limit, sent: nat) {
    match limit
    case Limit(n) => sent >= n
    case NeverReached => false
  }

  /** `id` is a waiting item and no waiting item was created before it. */
  predicate IsOldestWaiting(queue: map<Id, QueueItem>, id: Id) {
    && id in queue && queue[id].status == Waiting
    && forall j :: j in queue && queue[j].status == Waiting ==> queue[id].createdAt <= queue[j].createdAt
  }

  /** What `status = 'waiting' order by created_at limit 1` may return. */
  predicate IsFifoPick(queue: map<Id, QueueItem>, pick: Option<Id>) {
    match pick
    case Some(id) => IsOldestWaiting(queue, id)
    case None => forall j :: j in queue ==> queue[j].status != Waiting
  }

  /** Finds the oldest waiting item, if any (ties between equal creation times go to any of them). */
  method OldestWaiting(queue: map<Id, QueueItem>) returns (pick: Option<Id>)
    ensures IsFifoPick(queue, pick)
  {
    pick := None;
    var todo := queue.Keys;
    while todo != {}
      invariant todo <= queue.Keys
      invariant pick.Some? ==> pick.value in queue && queue[pick.value].status == Waiting
      invariant forall j :: j in queue && j !in todo && queue[j].status == Waiting ==>
        pick.Some? && queue[pick.value].createdAt <= queue[j].createdAt
      decreases |todo|
    {
      var j :| j in todo;
      if queue[j].status == Waiting && (pick.None? || queue[j].createdAt < queue[pick.value].createdAt) {
        pick := Some(j);
      }
      todo := todo - {j};
    }
  }

  /** The answer of one run. */
  datatype TickResult =
    | TickSkipped(todaySent: nat, dailyLimit: Limit)
    | TickIdle
    | TickSent(email: string)
    | TickFailed(error: string)

  function ProcessingPatch(now: Time): QueuePatch {
    NoPatch.(status := Some(Processing), attemptedAt := Some(now))
  }

  /** The completion update; an absent provider id is left out of the update. */
  function CompletePatch(now: Time, ext: Option<string>): QueuePatch {
    NoPatch.(status := Some(Complete), sentAt := Some(now), externalId := ext)
  }

  function FailPatch(message: string, retries: nat): QueuePatch {
    NoPatch.(status := Some(Failed), errorMessage := Some(message), retryCount := Some(retries))
  }

  /** The mail log of a delivered item: the item's own fields, status `sent`. */
  function LogFor(item: QueueItem, ext: Option<string>, now: Time): MailLog {
    MailLog(item.companyId, item.draftId, item.toEmail, item.fromEmail, item.fromName,
            item.subject, item.body, item.sendOrder, "sent", ext, now)
  }

  /** The writes of a delivered item: complete, log, company rollup, draft. */
  function Deliver(db: Db, id: Id, now: Time, ext: Option<string>): (d: Db)
    requires id in db.queue
    ensures id in d.queue && d.queue[id].status == Complete && d.queue[id].sentAt == Some(now)
    ensures d.mailLogs == db.mailLogs + [LogFor(db.queue[id], ext, now)]
  {
    var item := db.queue[id];
    db.PatchQueue(id, ProcessingPatch(now))
      .PatchQueue(id, CompletePatch(now, ext))
      .AppendMailLog(LogFor(item, ext, now))
      .RollupCompany(item.companyId, item.sendOrder, now)
      .SetDraftStatus(item.draftId, Sent)
  }

  /** The writes of an item the provider refused: processing, then failed with one more retry. */
  function Refuse(db: Db, id: Id, now: Time, message: string): (d: Db)
    requires id in db.queue
    ensures id in d.queue && d.queue[id].status == Failed && d.queue[id].errorMessage == Some(message)
    ensures d.queue[id].retryCount == db.queue[id].retryCount + 1
    ensures d.mailLogs == db.mailLogs && d.companies == db.companies && d.drafts == db.drafts
  {
    db.PatchQueue(id, ProcessingPatch(now))
      .PatchQueue(id, FailPatch(message, db.queue[id].retryCount + 1))
  }

  /**
   * One run, given the item the oldest-first query returned (`pick`), the clock and the
   * provider's answer.
   */
  function Tick(db: Db, pick: Option<Id>, startOfToday: Time, now: Time, reply: SendOutcome): (r: (Db, TickResult))
    requires LimitReached(DailyLimit(db.settings), TodaySent(db.mailLogs, startOfToday)) || IsFifoPick(db.queue, pick)
    // the limit gate and the empty queue change nothing
    ensures LimitReached(DailyLimit(db.settings), TodaySent(db.mailLogs, startOfToday)) ==>
      r == (db, TickSkipped(TodaySent(db.mailLogs, startOfToday), DailyLimit(db.settings)))
    ensures !LimitReached(DailyLimit(db.settings), TodaySent(db.mailLogs, startOfToday)) && pick.None? ==>
      r == (db, TickIdle)
    // otherwise the oldest waiting item is sent, and the answer reports how that went
    ensures !LimitReached(DailyLimit(db.settings), TodaySent(db.mailLogs, startOfToday)) && pick.Some? ==>
      && IsOldestWaiting(db.queue, pick.value)
      && r.1 == (match reply
                 case Delivered(_) => TickSent(db.queue[pick.value].toEmail)
                 case Thrown(m) => TickFailed(m))
      && r.0 == (match reply
                 case Delivered(ext) => Deliver(db, pick.value, now, ext)
                 case Thrown(m) => Refuse(db, pick.value, now, m))
  {
    var limit := DailyLimit(db.settings);
    var sent := TodaySent(db.mailLogs, startOfToday);
    if LimitReached(limit, sent) then (db, TickSkipped(sent, limit))
    else match pick
      case None => (db, TickIdle)
      case Some(id) =>
        match reply
        case Delivered(ext) => (Deliver(db, id, now, ext), TickSent(db.queue[id].toEmail))
        case Thrown(msg) => (Refuse(db, id, now, msg), TickFailed(msg))
  }

  /** Nothing outside the queue, the mail log, the companies, the drafts and the journal changes. */
  predicate SameElsewhere(a: Db, b: Db) {
    && a.settings == b.settings && a.templates == b.templates && a.signatures == b.signatures
    && a.collectionLogs == b.collectionLogs && a.activities == b.activities && a.nextId == b.nextId
  }

  /**
   * A delivered item is completed with the delivery time and the provider's id, then exactly
   * one `sent` log copying the item is written, then the company's send status is rolled up and
   * the linked draft marked sent; no other queue row, company or draft changes.
   */
  lemma DeliverEffects(db: Db, id: Id, now: Time, ext: Option<string>)
    requires id in db.queue
    ensures var d := Deliver(db, id, now, ext);
      var item := db.queue[id];
      && d.queue.Keys == db.queue.Keys
      && (forall j :: j in db.queue && j != id ==> d.queue[j] == db.queue[j])
      && d.queue[id] == item.(status := Complete, attemptedAt := Some(now), sentAt := Some(now),
                              externalId := if ext.Some? then ext else item.externalId)
      && d.mailLogs == db.mailLogs + [LogFor(item, ext, now)]
      && SameElsewhere(d, db)
      && d.journal == db.journal + [QueueUpdated(id, Some(Processing)), QueueUpdated(id, Some(Complete)),
                                    MailLogInserted(item.companyId), CompanyUpdated(item.companyId),
                                    DraftUpdated(item.draftId, Sent)]
  {
    var item := db.queue[id];
    var d1 := db.PatchQueue(id, ProcessingPatch(now));
    var d2 := d1.PatchQueue(id, CompletePatch(now, ext));
    assert d2.queue[id] == item.(status := Complete, attemptedAt := Some(now), sentAt := Some(now),
                                 externalId := if ext.Some? then ext else item.externalId);
  }

  /** The rollup sets the sent item's company to its send order, and leaves other companies alone. */
  lemma DeliverRollsUp(db: Db, id: Id, now: Time, ext: Option<string>)
    requires id in db.queue
    ensures var d := Deliver(db, id, now, ext);
      var item := db.queue[id];
      && d.companies.Keys == db.companies.Keys
      && (forall c :: c in db.companies ==>
            d.companies[c] == if c == item.companyId
                              then db.companies[c].(sendStatus := SendStatusFor(item.sendOrder),
                                                    sendCount := item.sendOrder, lastSendDate := Some(now))
                              else db.companies[c])
      && d.drafts.Keys == db.drafts.Keys
      && (forall k :: k in db.drafts ==>
            d.drafts[k] == if item.draftId == Some(k) then db.drafts[k].(status := Sent) else db.drafts[k])
  {
  }

  /**
   * A refused item fails with the provider's message and one more retry; no log, company or
   * draft is written.
   */
  lemma RefuseEffects(db: Db, id: Id, now: Time, message: string)
    requires id in db.queue
    ensures var d := Refuse(db, id, now, message);
      var item := db.queue[id];
      && d.queue.Keys == db.queue.Keys
      && (forall j :: j in db.queue && j != id ==> d.queue[j] == db.queue[j])
      && d.queue[id] == item.(status := Failed, attemptedAt := Some(now), errorMessage := Some(message),
                              retryCount := item.retryCount + 1)
      && d.mailLogs == db.mailLogs && d.companies == db.companies && d.drafts == db.drafts
      && SameElsewhere(d, db)
      && d.journal == db.journal + [QueueUpdated(id, Some(Processing)), QueueUpdated(id, Some(Failed))]
  {
    var item := db.queue[id];
    var d1 := db.PatchQueue(id, ProcessingPatch(now));
    assert d1.queue[id] == item.(status := Processing, attemptedAt := Some(now));
  }

  /** One run against the store. */
  method RunTick(s: Store, startOfToday: Time, now: Time, reply: SendOutcome) returns (picked: Option<Id>, r: TickResult)
    modifies s
    ensures !LimitReached(DailyLimit(old(s.settings)), TodaySent(old(s.mailLogs), startOfToday)) ==>
      IsFifoPick(old(s.queue), picked)
    ensures (s.Snapshot(), r) == Tick(old(s.Snapshot()), picked, startOfToday, now, reply)
  {
    var limit := DailyLimit(s.settings);
    var sent := TodaySent(s.mailLogs, startOfToday);
    if LimitReached(limit, sent) {
      picked := None;
      r := TickSkipped(sent, limit);
      return;
    }
    picked := OldestWaiting(s.queue);
    if picked.None? {
      r := TickIdle;
      return;
    }
    var id := picked.value;
    var item := s.queue[id];
    s.PatchQueue(id, ProcessingPatch(now));
    match reply
    case Delivered(ext) =>
      s.PatchQueue(id, CompletePatch(now, ext));
      s.AppendMailLog(LogFor(item, ext, now));
      s.RollupCompany(item.companyId, item.sendOrder, now);
      s.SetDraftStatus(item.draftId, Sent);
      r := TickSent(item.toEmail);
    case Thrown(msg) =>
      s.PatchQueue(id, FailPatch(msg, item.retryCount + 1));
      r := TickFailed(msg);
  }

  /**
   * Runs on one day never push the day's sent count past a numeric limit: a run below the
   * limit adds at most one log, and a run at the limit adds none.
   */
  lemma {:induction false} TickKeepsDailyCap(db: Db, pick: Option<Id>, startOfToday: Time, now: Time, reply: SendOutcome, n: int)
    requires LimitReached(DailyLimit(db.settings), TodaySent(db.mailLogs, startOfToday)) || IsFifoPick(db.queue, pick)
    requires DailyLimit(db.settings) == Limit(n) && TodaySent(db.mailLogs, startOfToday) <= n
    ensures var after := Tick(db, pick, startOfToday, now, reply).0;
      after.settings == db.settings && TodaySent(after.mailLogs, startOfToday) <= n
  {
    if !LimitReached(Limit(n), TodaySent(db.mailLogs, startOfToday)) && pick.Some? {
      var id := pick.value;
      match reply
      case Delivered(ext) =>
        DeliverEffects(db, id, now, ext);
        var log := LogFor(db.queue[id], ext, now);
        CountAppend(db.mailLogs, [log], (l: MailLog) => IsSentSince(l, startOfToday));
        assert [log][..0] == [];
      case Thrown(msg) =>
        RefuseEffects(db, id, now, msg);
    }
  }

  /** A delivered run writes exactly one mail log, it says `sent`, and it counts for today. */
  lemma {:induction false} DeliveredRunLogsOnce(db: Db, pick: Option<Id>, startOfToday: Time, now: Time, ext: Option<string>)
    requires !LimitReached(DailyLimit(db.settings), TodaySent(db.mailLogs, startOfToday))
    requires IsFifoPick(db.queue, pick) && pick.Some?
    ensures var after := Tick(db, pick, startOfToday, now, Delivered(ext)).0;
      |after.mailLogs| == |db.mailLogs| + 1 && after.mailLogs[|db.mailLogs|].status == "sent"
      && TodaySent(after.mailLogs, startOfToday) == TodaySent(db.mailLogs, startOfToday) + (if now >= startOfToday then 1 else 0)
  {
    DeliverEffects(db, pick.value, now, ext);
    var log := LogFor(db.queue[pick.value], ext, now);
    CountAppend(db.mailLogs, [log], (l: MailLog) => IsSentSince(l, startOfToday));
    assert [log][..0] == [];
  }
}

=== FILE: queries.dfy ===
/**
 * The read side of the store: ordering and paging of the rows a `select` returns.
 *
 * A query's rows are a sequence; `order(...)` is a sort by a comparison the handler names, and
 * `range(from, to)` keeps an inclusive window of that sequence.
 */
module Query {
  /** `le(a, b)`: `a` may come before `b`.  Every two rows compare, and the order is transitive. */
  ghost predicate TotalPreorder<T(!new)>(le: (T, T) -> bool) {
    && (forall a, b :: le(a, b) || le(b, a))
    && (forall a, b, c :: le(a, b) && le(b, c) ==> le(a, c))
  }

  predicate SortedBy<T>(xs: seq<T>, le: (T, T) -> bool) {
    forall i, j :: 0 <= i < j < |xs| ==> le(xs[i], xs[j])
  }

  /** `x` placed before the first row it may precede. */
  function InsertBy<T>(x: T, xs: seq<T>, le: (T, T) -> bool): (r: seq<T>)
    ensures multiset(r) == multiset(xs) + multiset{x}
    decreases |xs|
  {
    if xs == [] then [x]
    else if le(x, xs[0]) then [x] + xs
    else
      assert xs == [xs[0]] + xs[1..];
      [xs[0]] + InsertBy(x, xs[1..], le)
  }

  /** The rows in the order `le` asks for (ties in no particular order). */
  function SortBy<T>(xs: seq<T>, le: (T, T) -> bool): (r: seq<T>)
    ensures multiset(r) == multiset(xs)
    decreases |xs|
  {
    if xs == [] then []
    else
      assert xs == [xs[0]] + xs[1..];
      InsertBy(xs[0], SortBy(xs[1..], le), le)
  }

  lemma {:induction false} InsertBySorted<T(!new)>(x: T, xs: seq<T>, le: (T, T) -> bool)
    requires TotalPreorder(le) && SortedBy(xs, le)
    ensures SortedBy(InsertBy(x, xs, le), le)
    decreases |xs|
  {
    if xs != [] && !le(x, xs[0]) {
      var rest := InsertBy(x, xs[1..], le);
      InsertBySorted(x, xs[1..], le);
      assert le(xs[0], x);
      forall k | 0 <= k < |rest|
        ensures le(xs[0], rest[k])
      {
        assert rest[k] in multiset(rest);
        assert rest[k] in multiset(xs[1..]) + multiset{x};
        if rest[k] != x {
          assert rest[k] in multiset(xs[1..]);
          var m :| 0 <= m < |xs[1..]| && xs[1..][m] == rest[k];
          assert xs[1 + m] == rest[k];
        }
      }
    }
  }

  /** The sort is ordered by `le` and keeps every row exactly as often as it occurs. */
  lemma {:induction false} SortBySorted<T(!new)>(xs: seq<T>, le: (T, T) -> bool)
    requires TotalPreorder(le)
    ensures SortedBy(SortBy(xs, le), le)
    ensures multiset(SortBy(xs, le)) == multiset(xs)
    decreases |xs|
  {
    if xs != [] {
      SortBySorted(xs[1..], le);
      InsertBySorted(xs[0], SortBy(xs[1..], le), le);
    }
  }

  /** `range(offset, offset + count - 1)`: the rows at positions offset .. offset + count - 1 that exist. */
  function Window<T>(xs: seq<T>, offset: nat, count: nat): (r: seq<T>)
    ensures |r| <= count
    ensures offset + count <= |xs| ==> |r| == count
    ensures |r| == if offset >= |xs| then 0 else if offset + count <= |xs| then count else |xs| - offset
    ensures forall i :: 0 <= i < |r| ==> offset + i < |xs| && r[i] == xs[offset + i]
  {
    var from := if offset < |xs| then offset else |xs|;
    var to := if offset + count < |xs| then offset + count else |xs|;
    xs[from..to]
  }
  /** Two windows that meet make up the window covering both. */
  lemma WindowsAdjoin<T>(xs: seq<T>, offset: nat, count: nat)
    requires offset + 2 * count <= |xs|
    ensures Window(xs, offset, count) + Window(xs, offset + count, count) == Window(xs, offset, 2 * count)
  {
    assert xs[offset..offset + 2 * count] == xs[offset..offset + count] + xs[offset + count..offset + 2 * count];
  }
}

=== FILE: queue.dfy ===
/**
 * The send-queue endpoint: list the queue, enqueue drafts, edit a waiting item, remove an item.
 *
 * Enqueueing turns each draft into one `waiting` row and marks the draft `queued`; editing only
 * reaches a row that is still waiting; removing deletes the row whatever its status and gives the
 * draft back (status `draft`) only when the row was still waiting.
 */
module SendQueue {
  import opened Wrappers
  import opened Strings
  import opened Records
  import opened Store
  import opened Query

  const NoDraftsMsg := "초안을 선택해주세요."
  const DraftMissingMsg := "초안을 찾을 수 없습니다."
  const MissingIdMsg := "ID가 필요합니다."
  /** The error `.single()` reports when the statement matched no row. */
  const NoSingleRowMsg := "JSON object requested, multiple (or no) rows returned"

  // ---------------------------------------------------------------- listing

  /** The list filters; `""` stands for an absent text filter. */
  datatype QueueFilter = QueueFilter(status: string, search: string, fromDate: Option<Time>, toDate: Option<Time>)

  /** The row passes every filter that is present. */
  predicate Admits(f: QueueFilter, row: (Id, QueueItem)) {
    var q := row.1;
    && (f.status == "" || f.status == "all" || q.status.Name() == f.status)
    && (f.search == "" || ContainsIgnoreCase(q.toEmail, f.search) || ContainsIgnoreCase(q.subject, f.search))
    && (f.fromDate.None? || q.createdAt >= f.fromDate.value)
    && (f.toDate.None? || q.createdAt <= f.toDate.value)
  }

  /** `order('created_at', { ascending: false })`. */
  predicate NewestFirst(a: (Id, QueueItem), b: (Id, QueueItem)) {
    a.1.createdAt >= b.1.createdAt
  }

  /** The rows of the list, from the table's rows in scan order. */
  function ListQueue(table: seq<(Id, QueueItem)>, f: QueueFilter): (r: seq<(Id, QueueItem)>)
    ensures |r| == Count(table, row => Admits(f, row))
    ensures forall row :: row in r ==> row in table && Admits(f, row)
  {
    var m := Matching(table, row => Admits(f, row));
    assert forall row :: row in SortBy(m, NewestFirst) ==> row in m by {
      forall row | row in SortBy(m, NewestFirst) ensures row in m {
        assert row in multiset(SortBy(m, NewestFirst));
      }
    }
    SortBy(m, NewestFirst)
  }

  /**
   * The list is newest first, holds exactly the rows that pass the filters, each as often as in
   * the table; the status filter is ignored when it is absent or `all`.
   */
  lemma ListQueueSpec(table: seq<(Id, QueueItem)>, f: QueueFilter)
    ensures var r := ListQueue(table, f);
      && SortedBy(r, NewestFirst)
      && multiset(r) == multiset(Matching(table, row => Admits(f, row)))
      && (forall row :: row in r <==> row in table && Admits(f, row))
      && multiset(r) <= multiset(table)
      && (forall row :: row in table ==> multiset(r)[row] == (if Admits(f, row) then multiset(table)[row] else 0))
      && |r| == Count(table, row => Admits(f, row))
  {
    var m := Matching(table, row => Admits(f, row));
    MatchingMultiset(table, row => Admits(f, row));
    SortBySorted(m, NewestFirst);
    var r := ListQueue(table, f);
    forall row
      ensures row in r <==> row in m
    {
      calc {
        row in r;
        row in multiset(r);
        row in multiset(m);
        row in m;
      }
    }
  }

  // ---------------------------------------------------------------- enqueue drafts

  /** The `waiting` row a draft becomes: its company, content and order, the company's address, the sender. */
  function RowForDraft(draftId: Id, dr: Draft, company: Company, env: SenderEnv, now: Time): (q: QueueItem)
    ensures q.status == Waiting && q.draftId == Some(draftId) && q.companyId == dr.companyId
    ensures q.toEmail == company.contactEmail && q.subject == dr.subject && q.body == dr.body
    ensures q.sendOrder == dr.sendOrder && q.retryCount == 0 && q.createdAt == now
    ensures q.fromEmail == env.email && q.fromName == env.name
    ensures q.errorMessage.None? && q.externalId.None? && q.attemptedAt.None? && q.sentAt.None?
  {
    QueueItem(dr.companyId, Some(draftId), company.contactEmail, env.email, env.name, dr.subject, dr.body,
              dr.sendOrder, Waiting, None, 0, None, now, None, None)
  }

  /** The state of an enqueue batch: the store, the results so far, and the error that ended it early. */
  datatype AddRun = AddRun(db: Db, results: seq<ItemResult>, crash: Option<string>)

  /**
   * One draft: a missing draft or a failed insert is a failure entry and writes nothing; a draft
   * whose company is gone throws out of the loop; otherwise one row is inserted and the draft is
   * queued.  `fault` is the insert's error, if any.
   */
  function AddOne(db: Db, draftId: Id, fault: Option<string>, env: SenderEnv, now: Time): (r: AddRun)
    ensures r.crash.None? ==> |r.results| == 1 && r.results[0].id == draftId
    ensures r.crash.Some? ==> r.results == []
    ensures r.results != [] && r.results[0].Succeeded? <==>
      draftId in db.drafts && db.drafts[draftId].companyId in db.companies && fault.None?
    ensures !(r.results != [] && r.results[0].Succeeded?) ==> r.db == db
  {
    if draftId !in db.drafts then AddRun(db, [Rejected(draftId, DraftMissingMsg)], None)
    else
      var dr := db.drafts[draftId];
      if dr.companyId !in db.companies then AddRun(db, [], Some(NullCompanyMsg))
      else match fault
        case Some(m) => AddRun(db, [Rejected(draftId, m)], None)
        case None =>
          var d := db.InsertQueue(RowForDraft(draftId, dr, db.companies[dr.companyId], env, now))
                     .SetDraftStatus(Some(draftId), Queued);
          AddRun(d, [Succeeded(draftId, "")], None)
  }

  /** An enqueued draft: one new `waiting` row under a fresh id, the draft queued, in this order. */
  lemma AddOneSucceeded(db: Db, draftId: Id, env: SenderEnv, now: Time)
    requires draftId in db.drafts && db.drafts[draftId].companyId in db.companies
    ensures var r := AddOne(db, draftId, None, env, now).db;
      var dr := db.drafts[draftId];
      && r.queue == db.queue[db.nextId := RowForDraft(draftId, dr, db.companies[dr.companyId], env, now)]
      && r.nextId == db.nextId + 1
      && r.drafts == db.drafts[draftId := dr.(status := Queued)]
      && r.journal == db.journal + [QueueInserted(db.nextId), DraftUpdated(Some(draftId), Queued)]
      && r.mailLogs == db.mailLogs && r.companies == db.companies
  {
    var dr := db.drafts[draftId];
    var d1 := db.InsertQueue(RowForDraft(draftId, dr, db.companies[dr.companyId], env, now));
    var d2 := d1.SetDraftStatus(Some(draftId), Queued);
    assert d2.drafts == db.drafts[draftId := dr.(status := Queued)];
  }

  /** A batch state whose results are the first `i` drafts' (fewer when it crashed). */
  predicate RunAfter(run: AddRun, ids: seq<Id>, i: nat) {
    && i <= |ids|
    && (run.crash.None? ==> |run.results| == i)
    && (run.crash.Some? ==> |run.results| < i)
    && (forall j :: 0 <= j < |run.results| ==> run.results[j].id == ids[j])
  }

  /** The drafts `ids[i..]` in order from `run`; `faults(j)` is the insert error for the j-th, if any. */
  function AddFrom(run: AddRun, ids: seq<Id>, i: nat, faults: nat -> Option<string>, env: SenderEnv, now: Time): (r: AddRun)
    requires RunAfter(run, ids, i)
    ensures RunAfter(r, ids, |ids|)
    decreases |ids| - i
  {
    if i == |ids| || run.crash.Some? then run
    else
      var step := AddOne(run.db, ids[i], faults(i), env, now);
      AddFrom(AddRun(step.db, run.results + step.results, step.crash), ids, i + 1, faults, env, now)
  }

  /** The drafts `ids` in order, from the store `db`. */
  function AddSteps(db: Db, ids: seq<Id>, faults: nat -> Option<string>, env: SenderEnv, now: Time): (r: AddRun)
    ensures r.crash.None? ==> |r.results| == |ids|
    ensures r.crash.Some? ==> |r.results| < |ids|
    ensures forall i :: 0 <= i < |r.results| ==> r.results[i].id == ids[i]
  {
    AddFrom(AddRun(db, [], None), ids, 0, faults, env, now)
  }

  datatype AddResponse =
    | NoDrafts(message: string)
    | AddReport(results: seq<ItemResult>, successCount: nat, failCount: nat)
    | AddCrashed(message: string)

  /** The whole request: 400 without drafts, 500 when the loop threw (earlier rows stay), else the report. */
  function AddToQueue(db: Db, draftIds: Option<seq<Id>>, faults: nat -> Option<string>, env: SenderEnv, now: Time): (r: (Db, AddResponse))
    ensures draftIds.None? || draftIds.value == [] ==> r == (db, NoDrafts(NoDraftsMsg))
    ensures r.1.AddReport? ==>
      && |r.1.results| == |draftIds.value|
      && (forall i :: 0 <= i < |draftIds.value| ==> r.1.results[i].id == draftIds.value[i])
      && r.1.successCount == SuccessCount(r.1.results)
      && r.1.successCount + r.1.failCount == |draftIds.value|
  {
    if draftIds.None? || draftIds.value == [] then (db, NoDrafts(NoDraftsMsg))
    else
      var run := AddSteps(db, draftIds.value, faults, env, now);
      match run.crash
      case Some(m) => (run.db, AddCrashed(m))
      case None =>
        ResultCounts(run.results);
        (run.db, AddReport(run.results, SuccessCount(run.results), FailCount(run.results)))
  }

  method AddDraft(s: Store, draftId: Id, fault: Option<string>, env: SenderEnv, now: Time) returns (results: seq<ItemResult>, crash: Option<string>)
    modifies s
    ensures AddRun(s.Snapshot(), results, crash) == AddOne(old(s.Snapshot()), draftId, fault, env, now)
  {
    if draftId !in s.drafts {
      return [Rejected(draftId, DraftMissingMsg)], None;
    }
    var dr := s.drafts[draftId];
    if dr.companyId !in s.companies {
      return [], Some(NullCompanyMsg);
    }
    if fault.Some? {
      return [Rejected(draftId, fault.value)], None;
    }
    var _ := s.InsertQueue(RowForDraft(draftId, dr, s.companies[dr.companyId], env, now));
    s.SetDraftStatus(Some(draftId), Queued);
    results, crash := [Succeeded(draftId, "")], None;
  }

  method AddDrafts(s: Store, ids: seq<Id>, faults: nat -> Option<string>, env: SenderEnv, now: Time) returns (results: seq<ItemResult>, crash: Option<string>)
    modifies s
    ensures AddRun(s.Snapshot(), results, crash) == AddSteps(old(s.Snapshot()), ids, faults, env, now)
  {
    ghost var goal := AddSteps(s.Snapshot(), ids, faults, env, now);
    results, crash := [], None;
    var i := 0;
    while i < |ids| && crash.None?
      invariant RunAfter(AddRun(s.Snapshot(), results, crash), ids, i)
      invariant AddFrom(AddRun(s.Snapshot(), results, crash), ids, i, faults, env, now) == goal
      decreases |ids| - i
    {
      var more, stop := AddDraft(s, ids[i], faults(i), env, now);
      results, crash := results + more, stop;
      i := i + 1;
    }
  }

  method AddToQueueRequest(s: Store, draftIds: Option<seq<Id>>, faults: nat -> Option<string>, env: SenderEnv, now: Time) returns (resp: AddResponse)
    modifies s
    ensures (s.Snapshot(), resp) == AddToQueue(old(s.Snapshot()), draftIds, faults, env, now)
  {
    if draftIds.None? || draftIds.value == [] {
      return NoDrafts(NoDraftsMsg);
    }
    var results, crash := AddDrafts(s, draftIds.value, faults, env, now);
    if crash.Some? {
      return AddCrashed(crash.value);
    }
    resp := AddReport(results, SuccessCount(results), FailCount(results));
  }

  // ---------------------------------------------------------------- edit

  datatype UpdateResponse = UpdateNeedsId(message: string) | UpdatedRow(row: QueueItem) | UpdateFailed(message: string)

  /**
   * `update({subject, body}) where id = <id> and status = 'waiting'`, then `.single()`; an
   * absent `subject` or `body` leaves that column alone.
   */
  function UpdateQueue(db: Db, id: Option<Id>, subject: Option<string>, body: Option<string>): (r: (Db, UpdateResponse))
    ensures id.None? ==> r == (db, UpdateNeedsId(MissingIdMsg))
    ensures r.1.UpdatedRow? <==> id.Some? && id.value in db.queue && db.queue[id.value].status == Waiting
    ensures r.1.UpdatedRow? ==>
      var q := db.queue[id.value];
      && r.1.row == q.(subject := subject.GetOr(q.subject), body := body.GetOr(q.body))
      && r.0 == db.(queue := db.queue[id.value := r.1.row], journal := db.journal + [QueueUpdated(id.value, None)])
    ensures id.Some? && !r.1.UpdatedRow? ==>
      r == (db.(journal := db.journal + [QueueUpdated(id.value, None)]), UpdateFailed(NoSingleRowMsg))
  {
    match id
    case None => (db, UpdateNeedsId(MissingIdMsg))
    case Some(k) =>
      if k in db.queue && db.queue[k].status == Waiting then
        var d := db.PatchQueue(k, NoPatch.(subject := subject, body := body));
        (d, UpdatedRow(d.queue[k]))
      else (db.UnmatchedQueueUpdate(k), UpdateFailed(NoSingleRowMsg))
  }

  method UpdateQueueRequest(s: Store, id: Option<Id>, subject: Option<string>, body: Option<string>) returns (resp: UpdateResponse)
    modifies s
    ensures (s.Snapshot(), resp) == UpdateQueue(old(s.Snapshot()), id, subject, body)
  {
    if id.None? {
      return UpdateNeedsId(MissingIdMsg);
    }
    var k := id.value;
    if k in s.queue && s.queue[k].status == Waiting {
      s.PatchQueue(k, NoPatch.(subject := subject, body := body));
      resp := UpdatedRow(s.queue[k]);
    } else {
      s.UnmatchedQueueUpdate(k);
      resp := UpdateFailed(NoSingleRowMsg);
    }
  }

  // ---------------------------------------------------------------- remove

  datatype RemoveResponse = RemoveNeedsId(message: string) | Removed

  /** Restore the draft of a waiting row, then delete the row whatever its status. */
  function RemoveFromQueue(db: Db, id: Option<Id>): (r: (Db, RemoveResponse))
    ensures id.None? ==> r == (db, RemoveNeedsId(MissingIdMsg))
    ensures id.Some? ==>
      && r.1 == Removed
      && r.0.queue.Keys == db.queue.Keys - {id.value}
      && (forall j :: j in r.0.queue ==> r.0.queue[j] == db.queue[j])
      && r.0.drafts.Keys == db.drafts.Keys
      && (forall d :: d in db.drafts ==>
            r.0.drafts[d] == if id.value in db.queue && db.queue[id.value].status == Waiting && db.queue[id.value].draftId == Some(d)
                             then db.drafts[d].(status := Drafted) else db.drafts[d])
      && r.0 == db.(queue := r.0.queue, drafts := r.0.drafts, journal := r.0.journal)
    ensures id.Some? ==>
      var k := id.value;
      var restored := if k in db.queue && db.queue[k].status == Waiting then [DraftUpdated(db.queue[k].draftId, Drafted)] else [];
      r.0.journal == db.journal + restored + [QueueDeleted(k)]
  {
    match id
    case None => (db, RemoveNeedsId(MissingIdMsg))
    case Some(k) =>
      var d := if k in db.queue && db.queue[k].status == Waiting then db.SetDraftStatus(db.queue[k].draftId, Drafted) else db;
      (d.DeleteQueue(k), Removed)
  }

  method RemoveFromQueueRequest(s: Store, id: Option<Id>) returns (resp: RemoveResponse)
    modifies s
    ensures (s.Snapshot(), resp) == RemoveFromQueue(old(s.Snapshot()), id)
  {
    if id.None? {
      return RemoveNeedsId(MissingIdMsg);
    }
    var k := id.value;
    if k in s.queue && s.queue[k].status == Waiting {
      s.SetDraftStatus(s.queue[k].draftId, Drafted);
    }
    s.DeleteQueue(k);
    resp := Removed;
  }
}

=== FILE: queue_direct.dfy ===
/**
 * Direct enqueue: companies go straight into the send queue, with a template's subject and body
 * filled in for each company, without a draft in between.
 */
module DirectQueue {
  import opened Wrappers
  import opened Records
  import opened Store
  import opened Templating

  const NoCompaniesMsg := "기업을 선택해주세요."
  const NoTemplateMsg := "사용 가능한 템플릿이 없습니다."
  const CompanyMissingMsg := "기업을 찾을 수 없습니다."

  /** The template by id when it exists, otherwise the single default template. */
  function PickTemplate(templates: map<Id, Template>, templateId: Option<Id>): (r: Option<Id>)
    ensures templateId.Some? && templateId.value in templates ==> r == templateId
    ensures !(templateId.Some? && templateId.value in templates) ==> r == DefaultTemplate(templates)
    ensures r.Some? ==> r.value in templates
  {
    if templateId.Some? && templateId.value in templates then templateId else DefaultTemplate(templates)
  }

  /** The default signature's content, or the sender's name and address when there is none. */
  function EnqueueSignature(sigs: seq<Signature>, env: SenderEnv): (s: string)
    ensures DefaultSignature(sigs).Some? && DefaultSignature(sigs).value != "" ==> s == DefaultSignature(sigs).value
    ensures DefaultSignature(sigs).None? || DefaultSignature(sigs).value == "" ==> s == env.name + "\nEmail: " + env.email
  {
    match DefaultSignature(sigs)
    case Some(content) => if content != "" then content else env.name + "\nEmail: " + env.email
    case None => env.name + "\nEmail: " + env.email
  }

  /** The `waiting` row for one company: no draft, the filled-in template, the next send order. */
  function RowForCompany(companyId: Id, c: Company, t: Template, signature: string, env: SenderEnv, now: Time): (q: QueueItem)
    ensures q.status == Waiting && q.draftId.None? && q.companyId == companyId && q.toEmail == c.contactEmail
    ensures q.subject == ReplaceVariables(t.subject, c, env, signature) && q.body == ReplaceVariables(t.body, c, env, signature)
    ensures q.sendOrder == c.sendCount + 1 && q.retryCount == 0 && q.createdAt == now
    ensures q.fromEmail == env.email && q.fromName == env.name
    ensures q.errorMessage.None? && q.externalId.None? && q.attemptedAt.None? && q.sentAt.None?
  {
    QueueItem(companyId, None, c.contactEmail, env.email, env.name,
              ReplaceVariables(t.subject, c, env, signature), ReplaceVariables(t.body, c, env, signature),
              c.sendCount + 1, Waiting, None, 0, None, now, None, None)
  }

  /** One company: a missing company or a failed insert is a failure entry and writes nothing. */
  function DirectOne(db: Db, companyId: Id, t: Template, signature: string, fault: Option<string>, env: SenderEnv, now: Time): (r: (Db, ItemResult))
    ensures r.1.id == companyId
    ensures r.1.Succeeded? <==> companyId in db.companies && fault.None?
    ensures r.1.Rejected? ==> r.0 == db
    ensures r.1.Rejected? && companyId !in db.companies ==> r.1.error == CompanyMissingMsg
  {
    if companyId !in db.companies then (db, Rejected(companyId, CompanyMissingMsg))
    else match fault
      case Some(m) => (db, Rejected(companyId, m))
      case None =>
        var c := db.companies[companyId];
        (db.InsertQueue(RowForCompany(companyId, c, t, signature, env, now)), Succeeded(companyId, c.name))
  }

  /**
   * An enqueued company: one new row under a fresh id, `waiting`, without a draft, addressed to the
   * company's contact, with send order one past the company's send count, and the template's
   * subject and body with the company's values filled in.
   */
  lemma DirectOneSucceeded(db: Db, companyId: Id, t: Template, signature: string, env: SenderEnv, now: Time)
    requires companyId in db.companies
    ensures var r := DirectOne(db, companyId, t, signature, None, env, now);
      var c := db.companies[companyId];
      var q := r.0.queue[db.nextId];
      && r.0.queue == db.queue[db.nextId := q] && r.0.nextId == db.nextId + 1
      && q.status == Waiting && q.draftId == None && q.companyId == companyId
      && q.toEmail == c.contactEmail && q.sendOrder == c.sendCount + 1
      && q.subject == ReplaceVariables(t.subject, c, env, signature)
      && q.body == ReplaceVariables(t.body, c, env, signature)
      && r.0.drafts == db.drafts && r.0.companies == db.companies
      && r.0.journal == db.journal + [QueueInserted(db.nextId)]
  {
  }

  /** A batch state whose results are the first `i` companies'. */
  predicate DoneUpTo(results: seq<ItemResult>, ids: seq<Id>, i: nat) {
    i <= |ids| && |results| == i && forall j :: 0 <= j < i ==> results[j].id == ids[j]
  }

  /** The companies `ids[i..]` in order; `faults(j)` is the insert error for the j-th, if any. */
  function DirectFrom(db: Db, results: seq<ItemResult>, ids: seq<Id>, i: nat, t: Template, signature: string,
                      faults: nat -> Option<string>, env: SenderEnv, now: Time): (r: (Db, seq<ItemResult>))
    requires DoneUpTo(results, ids, i)
    ensures DoneUpTo(r.1, ids, |ids|)
    decreases |ids| - i
  {
    if i == |ids| then (db, results)
    else
      var step := DirectOne(db, ids[i], t, signature, faults(i), env, now);
      DirectFrom(step.0, results + [step.1], ids, i + 1, t, signature, faults, env, now)
  }

  datatype DirectResponse =
    | NoCompanies(message: string)
    | NoTemplate(message: string)
    | DirectReport(results: seq<ItemResult>, successCount: nat, failCount: nat)

  /** The whole request. */
  function QueueDirect(db: Db, companyIds: Option<seq<Id>>, templateId: Option<Id>, faults: nat -> Option<string>,
                       env: SenderEnv, now: Time): (r: (Db, DirectResponse))
    ensures companyIds.None? || companyIds.value == [] ==> r == (db, NoCompanies(NoCompaniesMsg))
    ensures companyIds.Some? && companyIds.value != [] && PickTemplate(db.templates, templateId).None? ==>
      r == (db, NoTemplate(NoTemplateMsg))
    ensures r.1.DirectReport? ==>
      && |r.1.results| == |companyIds.value|
      && (forall i :: 0 <= i < |companyIds.value| ==> r.1.results[i].id == companyIds.value[i])
      && r.1.successCount == SuccessCount(r.1.results)
      && r.1.successCount + r.1.failCount == |companyIds.value|
  {
    if companyIds.None? || companyIds.value == [] then (db, NoCompanies(NoCompaniesMsg))
    else match PickTemplate(db.templates, templateId)
      case None => (db, NoTemplate(NoTemplateMsg))
      case Some(tid) =>
        var signature := EnqueueSignature(db.signatures, env);
        var run := DirectFrom(db, [], companyIds.value, 0, db.templates[tid], signature, faults, env, now);
        ResultCounts(run.1);
        (run.0, DirectReport(run.1, SuccessCount(run.1), FailCount(run.1)))
  }

  method DirectCompany(s: Store, companyId: Id, t: Template, signature: string, fault: Option<string>, env: SenderEnv, now: Time)
    returns (r: ItemResult)
    modifies s
    ensures (s.Snapshot(), r) == DirectOne(old(s.Snapshot()), companyId, t, signature, fault, env, now)
  {
    if companyId !in s.companies {
      return Rejected(companyId, CompanyMissingMsg);
    }
    if fault.Some? {
      return Rejected(companyId, fault.value);
    }
    var c := s.companies[companyId];
    var _ := s.InsertQueue(RowForCompany(companyId, c, t, signature, env, now));
    r := Succeeded(companyId, c.name);
  }

  method QueueDirectRequest(s: Store, companyIds: Option<seq<Id>>, templateId: Option<Id>, faults: nat -> Option<string>,
                            env: SenderEnv, now: Time) returns (resp: DirectResponse)
    modifies s
    ensures (s.Snapshot(), resp) == QueueDirect(old(s.Snapshot()), companyIds, templateId, faults, env, now)
  {
    if companyIds.None? || companyIds.value == [] {
      return NoCompanies(NoCompaniesMsg);
    }
    var picked := PickTemplate(s.templates, templateId);
    if picked.None? {
      return NoTemplate(NoTemplateMsg);
    }
    var t := s.templates[picked.value];
    var signature := EnqueueSignature(s.signatures, env);
    var ids := companyIds.value;
    ghost var goal := DirectFrom(s.Snapshot(), [], ids, 0, t, signature, faults, env, now);
    var results: seq<ItemResult> := [];
    var i := 0;
    while i < |ids|
      invariant DoneUpTo(results, ids, i)
      invariant DirectFrom(s.Snapshot(), results, ids, i, t, signature, faults, env, now) == goal
    {
      var r := DirectCompany(s, ids[i], t, signature, faults(i), env, now);
      results := results + [r];
      i := i + 1;
    }
    resp := DirectReport(results, SuccessCount(results), FailCount(results));
  }
}

=== FILE: records.dfy ===
/**
 * The tables the send-queue engine reads and writes, as values.
 *
 * `Db` is the content of the whole store at one moment: one map (id -> row) per table that is
 * looked up by id, a sequence for the append-only logs and for the settings rows, and a
 * `journal` that records every write statement in the order it was issued.  Each elementary
 * write (one `insert`, `update` or `delete` statement of the handlers) is a member function of
 * `Db`; the handler specifications are compositions of these writes.
 */
module Records {
  import opened Wrappers

  type Id = nat
  /** An instant, abstract: only its order matters. */
  type Time = int

  /** `send_queue.status`. */
  datatype QueueStatus = Waiting | Processing | Complete | Failed {
    function Name(): string {
      match this
      case Waiting => "waiting"
      case Processing => "processing"
      case Complete => "complete"
      case Failed => "failed"
    }
  }

  /** `drafts.status`. */
  datatype DraftStatus = Drafted | Queued | Sent

  /** `companies.send_status`: the four labels of the send-status badge. */
  datatype SendStatus = NotSent | FirstDone | SecondDone | ThirdDone {
    function Label(): string {
      match this
      case NotSent => "미발송"
      case FirstDone => "1차완료"
      case SecondDone => "2차완료"
      case ThirdDone => "3차완료"
    }
  }

  /** The company rollup's lookup table `{1: '1차완료', 2: '2차완료', 3: '3차완료'}[order] || '3차완료'`. */
  function SendStatusFor(sendOrder: int): (st: SendStatus)
    ensures st != NotSent
    ensures st == FirstDone <==> sendOrder == 1
    ensures st == SecondDone <==> sendOrder == 2
    ensures st == ThirdDone <==> sendOrder != 1 && sendOrder != 2
  {
    if sendOrder == 1 then FirstDone
    else if sendOrder == 2 then SecondDone
    else ThirdDone
  }

  /** A JSON value as stored in `settings.value` (numbers are integers here). */
  datatype Json = JNull | JBool(b: bool) | JNum(n: int) | JStr(s: string) | JObj(fields: map<string, Json>)

  /** The `SENDER_EMAIL` and `SENDER_NAME` environment variables, `""` when unset. */
  datatype SenderEnv = SenderEnv(email: string, name: string)

  /** A `send_queue` row. */
  datatype QueueItem = QueueItem(
    companyId: Id,
    draftId: Option<Id>,
    toEmail: string,
    fromEmail: string,
    fromName: string,
    subject: string,
    body: string,
    sendOrder: int,
    status: QueueStatus,
    errorMessage: Option<string>,
    retryCount: nat,
    externalId: Option<string>,
    createdAt: Time,
    attemptedAt: Option<Time>,
    sentAt: Option<Time>)

  /** A `mail_logs` row: written once per successful send, never changed. */
  datatype MailLog = MailLog(
    companyId: Id,
    draftId: Option<Id>,
    toEmail: string,
    fromEmail: string,
    fromName: string,
    subject: string,
    body: string,
    sendOrder: int,
    status: string,
    externalId: Option<string>,
    sentAt: Time)

  /** A `companies` row; `""` stands for a NULL or empty text column. */
  datatype Company = Company(
    name: string,
    contactName: string,
    contactTitle: string,
    contactEmail: string,
    contactPhone: string,
    website: string,
    memo: string,
    industryId: Option<Id>,
    priority: string,
    bmSummary: string,
    newsSummary: string,
    source: string,
    collectionLogId: Option<Id>,
    sendStatus: SendStatus,
    sendCount: int,
    lastSendDate: Option<Time>,
    createdAt: Time)

  /** A `drafts` row. */
  datatype Draft = Draft(
    companyId: Id,
    templateId: Id,
    subject: string,
    body: string,
    demoLink: Option<string>,
    sendOrder: int,
    status: DraftStatus,
    createdAt: Time)

  /** A `mail_templates` row. */
  datatype Template = Template(name: string, subject: string, body: string, isDefault: bool, createdAt: Time)

  /** A `signatures` row (read only here). */
  datatype Signature = Signature(content: string, isDefault: bool)

  /** A `settings` row. */
  datatype SettingRow = SettingRow(key: string, value: Json)

  datatype CollectionStatus = Collecting | Completed

  /** A `collection_logs` row. */
  datatype CollectionLog = CollectionLog(
    source: string,
    industryId: Option<Id>,
    totalCount: nat,
    successCount: nat,
    failCount: nat,
    status: CollectionStatus)

  /** An `activity_logs` row; `targetType` is `None` where the insert leaves `target_type` out. */
  datatype Activity = Activity(action: string, targetType: Option<string>, targetId: Option<Id>, description: string)

  /** One write statement, as issued (an update whose filter matches no row is still issued). */
  datatype Write =
    | QueueInserted(id: Id)
    | QueueUpdated(id: Id, status: Option<QueueStatus>)
    | QueueDeleted(id: Id)
    | MailLogInserted(companyId: Id)
    | CompanyInserted(id: Id)
    | CompanyUpdated(id: Id)
    | CompaniesDeleted(ids: set<Id>)
    | DraftInserted(id: Id)
    | DraftUpdated(draftId: Option<Id>, draftStatus: DraftStatus)
    | TemplateDefaultsCleared
    | TemplateInserted(id: Id)
    | SettingUpserted(key: string)
    | CollectionLogInserted(id: Id)
    | CollectionLogUpdated(id: Id)
    | ActivityInserted(action: string)

  /**
   * The columns one `send_queue` update sets; `None` leaves the column alone (a key whose value
   * is `undefined` is dropped from the request).
   */
  datatype QueuePatch = QueuePatch(
    status: Option<QueueStatus>,
    subject: Option<string>,
    body: Option<string>,
    errorMessage: Option<string>,
    retryCount: Option<nat>,
    externalId: Option<string>,
    attemptedAt: Option<Time>,
    sentAt: Option<Time>)
  {
    function Apply(q: QueueItem): (r: QueueItem)
      ensures r.companyId == q.companyId && r.draftId == q.draftId && r.toEmail == q.toEmail
      ensures r.sendOrder == q.sendOrder && r.createdAt == q.createdAt
      ensures r.fromEmail == q.fromEmail && r.fromName == q.fromName
      ensures r.status == status.GetOr(q.status)
      ensures r.subject == subject.GetOr(q.subject) && r.body == body.GetOr(q.body)
      ensures r.errorMessage == (if errorMessage.Some? then errorMessage else q.errorMessage)
      ensures r.retryCount == retryCount.GetOr(q.retryCount)
      ensures r.externalId == (if externalId.Some? then externalId else q.externalId)
      ensures r.attemptedAt == (if attemptedAt.Some? then attemptedAt else q.attemptedAt)
      ensures r.sentAt == (if sentAt.Some? then sentAt else q.sentAt)
    {
      q.(status := status.GetOr(q.status),
         subject := subject.GetOr(q.subject),
         body := body.GetOr(q.body),
         errorMessage := if errorMessage.Some? then errorMessage else q.errorMessage,
         retryCount := retryCount.GetOr(q.retryCount),
         externalId := if externalId.Some? then externalId else q.externalId,
         attemptedAt := if attemptedAt.Some? then attemptedAt else q.attemptedAt,
         sentAt := if sentAt.Some? then sentAt else q.sentAt)
    }
  }

  /** The patch with no columns set. */
  const NoPatch := QueuePatch(None, None, None, None, None, None, None, None)

  /** The whole store. `nextId` is the id the database hands to the next inserted row. */
  datatype Db = Db(
    queue: map<Id, QueueItem>,
    mailLogs: seq<MailLog>,
    companies: map<Id, Company>,
    drafts: map<Id, Draft>,
    templates: map<Id, Template>,
    signatures: seq<Signature>,
    settings: seq<SettingRow>,
    collectionLogs: map<Id, CollectionLog>,
    activities: seq<Activity>,
    journal: seq<Write>,
    nextId: nat)
  {
    /** Every id in use is below `nextId`, so the next insert gets a fresh id. */
    predicate Valid() {
      && (forall id :: id in queue ==> id < nextId)
      && (forall id :: id in companies ==> id < nextId)
      && (forall id :: id in drafts ==> id < nextId)
      && (forall id :: id in templates ==> id < nextId)
      && (forall id :: id in collectionLogs ==> id < nextId)
    }

    /** `update send_queue set <p> where id = <id>`. */
    function PatchQueue(id: Id, p: QueuePatch): (d: Db)
      ensures d.queue.Keys == queue.Keys
      ensures id in queue ==> d.queue[id] == p.Apply(queue[id])
      ensures forall j :: j in queue && j != id ==> d.queue[j] == queue[j]
      ensures d == this.(queue := d.queue, journal := journal + [QueueUpdated(id, p.status)])
    {
      this.(queue := if id in queue then queue[id := p.Apply(queue[id])] else queue,
            journal := journal + [QueueUpdated(id, p.status)])
    }

    /**
     * A `send_queue` update whose filter (`where id = <id> and status = 'waiting'`) matches no
     * row: issued, but no row changes.
     */
    function UnmatchedQueueUpdate(id: Id): Db {
      this.(journal := journal + [QueueUpdated(id, None)])
    }

    /** `insert into send_queue`: the new row gets id `nextId`. */
    function InsertQueue(item: QueueItem): (d: Db)
      ensures d.queue == queue[nextId := item] && d.nextId == nextId + 1
      ensures d == this.(queue := d.queue, nextId := d.nextId, journal := journal + [QueueInserted(nextId)])
    {
      this.(queue := queue[nextId := item], nextId := nextId + 1,
            journal := journal + [QueueInserted(nextId)])
    }

    /** `delete from send_queue where id = <id>`. */
    function DeleteQueue(id: Id): (d: Db)
      ensures d.queue.Keys == queue.Keys - {id}
      ensures forall j :: j in d.queue ==> d.queue[j] == queue[j]
      ensures d == this.(queue := d.queue, journal := journal + [QueueDeleted(id)])
    {
      this.(queue := queue - {id}, journal := journal + [QueueDeleted(id)])
    }

    /** `insert into mail_logs`. */
    function AppendMailLog(log: MailLog): (d: Db)
      ensures d.mailLogs == mailLogs + [log]
      ensures d == this.(mailLogs := d.mailLogs, journal := journal + [MailLogInserted(log.companyId)])
    {
      this.(mailLogs := mailLogs + [log], journal := journal + [MailLogInserted(log.companyId)])
    }

    /**
     * The company rollup after a successful send:
     * `update companies set send_status, send_count = send_order, last_send_date where id = <id>`.
     */
    function RollupCompany(id: Id, sendOrder: int, now: Time): (d: Db)
      ensures d.companies.Keys == companies.Keys
      ensures id in companies ==>
        d.companies[id] == companies[id].(sendStatus := SendStatusFor(sendOrder), sendCount := sendOrder, lastSendDate := Some(now))
      ensures forall j :: j in companies && j != id ==> d.companies[j] == companies[j]
      ensures d == this.(companies := d.companies, journal := journal + [CompanyUpdated(id)])
    {
      var c := if id in companies then
        companies[id := companies[id].(sendStatus := SendStatusFor(sendOrder), sendCount := sendOrder, lastSendDate := Some(now))]
      else companies;
      this.(companies := c, journal := journal + [CompanyUpdated(id)])
    }

    /** `insert into companies`: the new row gets id `nextId`. */
    function InsertCompany(c: Company): (d: Db)
      ensures d.companies == companies[nextId := c] && d.nextId == nextId + 1
      ensures d == this.(companies := d.companies, nextId := d.nextId, journal := journal + [CompanyInserted(nextId)])
    {
      this.(companies := companies[nextId := c], nextId := nextId + 1,
            journal := journal + [CompanyInserted(nextId)])
    }

    /** `delete from companies where id in <ids>`. */
    function DeleteCompanies(ids: set<Id>): (d: Db)
      ensures d.companies.Keys == companies.Keys - ids
      ensures forall j :: j in d.companies ==> d.companies[j] == companies[j]
      ensures d == this.(companies := d.companies, journal := journal + [CompaniesDeleted(ids)])
    {
      this.(companies := companies - ids, journal := journal + [CompaniesDeleted(ids)])
    }

    /** `update drafts set status = <st> where id = <id>`; a NULL id matches no row. */
    function SetDraftStatus(id: Option<Id>, st: DraftStatus): (d: Db)
      ensures d.drafts.Keys == drafts.Keys
      ensures forall j :: j in drafts ==>
        d.drafts[j] == if id == Some(j) then drafts[j].(status := st) else drafts[j]
      ensures d == this.(drafts := d.drafts, journal := journal + [DraftUpdated(id, st)])
    {
      var ds := if id.Some? && id.value in drafts then drafts[id.value := drafts[id.value].(status := st)] else drafts;
      this.(drafts := ds, journal := journal + [DraftUpdated(id, st)])
    }

    /** `insert into drafts`: the new row gets id `nextId`. */
    function InsertDraft(dr: Draft): (d: Db)
      ensures d.drafts == drafts[nextId := dr] && d.nextId == nextId + 1
      ensures d == this.(drafts := d.drafts, nextId := d.nextId, journal := journal + [DraftInserted(nextId)])
    {
      this.(drafts := drafts[nextId := dr], nextId := nextId + 1, journal := journal + [DraftInserted(nextId)])
    }

    /** `update mail_templates set is_default = false where is_default = true`. */
    function ClearDefaultTemplates(): (d: Db)
      ensures d.templates.Keys == templates.Keys
      ensures forall j :: j in templates ==> d.templates[j] == templates[j].(isDefault := false)
      ensures d == this.(templates := d.templates, journal := journal + [TemplateDefaultsCleared])
    {
      var ts := map j | j in templates :: templates[j].(isDefault := false);
      this.(templates := ts, journal := journal + [TemplateDefaultsCleared])
    }

    /** `insert into mail_templates`: the new row gets id `nextId`. */
    function InsertTemplate(t: Template): (d: Db)
      ensures d.templates == templates[nextId := t] && d.nextId == nextId + 1
      ensures d == this.(templates := d.templates, nextId := d.nextId, journal := journal + [TemplateInserted(nextId)])
    {
      this.(templates := templates[nextId := t], nextId := nextId + 1, journal := journal + [TemplateInserted(nextId)])
    }

    /** `upsert into settings (key, value) on conflict (key)`: every row with the key gets the value, or one row is added. */
    function UpsertSetting(key: string, value: Json): (d: Db)
      ensures d == this.(settings := d.settings, journal := journal + [SettingUpserted(key)])
    {
      var hit := exists i :: 0 <= i < |settings| && settings[i].key == key;
      var rows := if hit then
        seq(|settings|, i requires 0 <= i < |settings| =>
          if settings[i].key == key then SettingRow(key, value) else settings[i])
      else settings + [SettingRow(key, value)];
      this.(settings := rows, journal := journal + [SettingUpserted(key)])
    }

    /** `insert into collection_logs`: the new row gets id `nextId`. */
    function InsertCollectionLog(l: CollectionLog): (d: Db)
      ensures d.collectionLogs == collectionLogs[nextId := l] && d.nextId == nextId + 1
      ensures d == this.(collectionLogs := d.collectionLogs, nextId := d.nextId, journal := journal + [CollectionLogInserted(nextId)])
    {
      this.(collectionLogs := collectionLogs[nextId := l], nextId := nextId + 1,
            journal := journal + [CollectionLogInserted(nextId)])
    }

    /** `update collection_logs set success_count, fail_count, status = 'completed' where id = <id>`. */
    function FinishCollectionLog(id: Id, success: nat, fail: nat): (d: Db)
      ensures d.collectionLogs.Keys == collectionLogs.Keys
      ensures id in collectionLogs ==>
        d.collectionLogs[id] == collectionLogs[id].(successCount := success, failCount := fail, status := Completed)
      ensures d == this.(collectionLogs := d.collectionLogs, journal := journal + [CollectionLogUpdated(id)])
    {
      var ls := if id in collectionLogs then
        collectionLogs[id := collectionLogs[id].(successCount := success, failCount := fail, status := Completed)]
      else collectionLogs;
      this.(collectionLogs := ls, journal := journal + [CollectionLogUpdated(id)])
    }

    /** `insert into activity_logs`. */
    function AppendActivity(a: Activity): (d: Db)
      ensures d.activities == activities + [a]
      ensures d == this.(activities := d.activities, journal := journal + [ActivityInserted(a.action)])
    {
      this.(activities := activities + [a], journal := journal + [ActivityInserted(a.action)])
    }
  }

  /** The rows `select ... where <column> = <value>` would return, kept in order. */
  function Matching<T>(rows: seq<T>, keep: T -> bool): (r: seq<T>)
    ensures |r| <= |rows|
    ensures forall x :: x in r ==> x in rows && keep(x)
    ensures forall x :: x in rows && keep(x) ==> x in r
    ensures |r| == Count(rows, keep)
    decreases |rows|
  {
    if rows == [] then []
    else
      var init, last := rows[..|rows| - 1], rows[|rows| - 1];
      assert rows == init + [last];
      Matching(init, keep) + (if keep(last) then [last] else [])
  }

  /** Filtering keeps every copy of a matching row and no copy of any other. */
  lemma {:induction false} MatchingMultiset<T>(rows: seq<T>, keep: T -> bool)
    ensures multiset(Matching(rows, keep)) <= multiset(rows)
    ensures forall x :: x in rows ==> multiset(Matching(rows, keep))[x] == (if keep(x) then multiset(rows)[x] else 0)
    decreases |rows|
  {
    if rows != [] {
      var init, last := rows[..|rows| - 1], rows[|rows| - 1];
      assert rows == init + [last];
      MatchingMultiset(init, keep);
      MatchingSnoc(init, last, keep);
    }
  }

  /** Filtering keeps order: a row appended to the table comes last among the matches, if it matches. */
  lemma MatchingSnoc<T>(rows: seq<T>, x: T, keep: T -> bool)
    ensures Matching(rows + [x], keep) == Matching(rows, keep) + (if keep(x) then [x] else [])
  {
    assert (rows + [x])[..|rows|] == rows;
  }

  /** `.single()` over a row list: the row when exactly one matches, otherwise NULL (an error). */
  function Single<T>(rows: seq<T>, keep: T -> bool): (r: Option<T>)
    ensures r.Some? ==> r.value in rows && keep(r.value)
    ensures r.Some? <==> Count(rows, keep) == 1
    ensures r.Some? ==> Matching(rows, keep) == [r.value]
  {
    var m := Matching(rows, keep);
    if |m| == 1 then Some(m[0]) else None
  }

  /** The content of the default signature (`signatures where is_default .single()`), if exactly one. */
  function DefaultSignature(sigs: seq<Signature>): (r: Option<string>)
    ensures r.Some? ==> exists s :: s in sigs && s.isDefault && s.content == r.value
    ensures r.Some? <==> Count(sigs, (s: Signature) => s.isDefault) == 1
    ensures r.Some? ==> Matching(sigs, (s: Signature) => s.isDefault) == [Signature(r.value, true)]
  {
    match Single(sigs, (s: Signature) => s.isDefault)
    case Some(s) => Some(s.content)
    case None => None
  }

  /** The value of the settings row with `key` (`settings where key = <key> .single()`). */
  function SettingValue(rows: seq<SettingRow>, key: string): (r: Option<Json>)
    ensures r.Some? ==> SettingRow(key, r.value) in rows
    ensures r.Some? <==> Count(rows, (row: SettingRow) => row.key == key) == 1
    ensures r.Some? ==> Matching(rows, (row: SettingRow) => row.key == key) == [SettingRow(key, r.value)]
  {
    match Single(rows, (row: SettingRow) => row.key == key)
    case Some(row) => Some(row.value)
    case None => None
  }

  /** The ids of `m` whose row satisfies `keep`. */
  function IdsWhere<T>(m: map<Id, T>, keep: T -> bool): (r: set<Id>)
    ensures forall id :: id in r <==> id in m && keep(m[id])
  {
    set id | id in m && keep(m[id])
  }

  /** `.single()` over a table: the id of the one row satisfying `keep`, if exactly one does. */
  predicate IsSingle<T>(m: map<Id, T>, keep: T -> bool, id: Id) {
    IdsWhere(m, keep) == {id}
  }

  /** The only element of `ids`, if it has exactly one. */
  function TheOne(ids: set<Id>): (r: Option<Id>)
    ensures r.Some? <==> |ids| == 1
    ensures r.Some? ==> ids == {r.value}
  {
    if |ids| == 1 then
      var k :| k in ids;
      SingletonOnly(ids, k);
      Some(k)
    else None
  }

  lemma SingletonOnly(ids: set<Id>, k: Id)
    requires |ids| == 1 && k in ids
    ensures ids == {k}
  {
    assert |ids - {k}| == 0;
    assert ids == (ids - {k}) + {k};
  }

  /** `mail_templates where is_default = true .single()`: the default template, if exactly one. */
  function DefaultTemplate(templates: map<Id, Template>): (r: Option<Id>)
    ensures r.Some? <==> |IdsWhere(templates, (t: Template) => t.isDefault)| == 1
    ensures r.Some? ==> r.value in templates && templates[r.value].isDefault
  {
    var r := TheOne(IdsWhere(templates, (t: Template) => t.isDefault));
    assert r.Some? ==> r.value in IdsWhere(templates, (t: Template) => t.isDefault);
    r
  }

  /** How many entries of `xs` satisfy `p`. */
  function Count<T>(xs: seq<T>, p: T -> bool): (n: nat)
    ensures n <= |xs|
    decreases |xs|
  {
    if xs == [] then 0 else Count(xs[..|xs| - 1], p) + (if p(xs[|xs| - 1]) then 1 else 0)
  }

  lemma {:induction false} CountAppend<T>(xs: seq<T>, ys: seq<T>, p: T -> bool)
    ensures Count(xs + ys, p) == Count(xs, p) + Count(ys, p)
    decreases |ys|
  {
    if ys == [] {
      assert xs + ys == xs;
    } else {
      var last := ys[|ys| - 1];
      assert (xs + ys)[..|xs + ys| - 1] == xs + ys[..|ys| - 1];
      CountAppend(xs, ys[..|ys| - 1], p);
    }
  }

  /** Every entry satisfies exactly one of `p` and its negation. */
  lemma {:induction false} CountComplement<T>(xs: seq<T>, p: T -> bool, q: T -> bool)
    requires forall x :: q(x) == !p(x)
    ensures Count(xs, p) + Count(xs, q) == |xs|
    decreases |xs|
  {
    if xs != [] {
      CountComplement(xs[..|xs| - 1], p, q);
    }
  }

  /** What reading `contact_email` through a draft whose company join is null throws. */
  const NullCompanyMsg := "Cannot read properties of null (reading 'contact_email')"

  /** What the mail provider does with one message: accepts it (maybe with an id), or throws. */
  datatype SendOutcome = Delivered(externalId: Option<string>) | Thrown(message: string)

  /** One entry of a batch handler's `results`: `{id, success: true, ...}` or `{id, success: false, error}`. */
  datatype ItemResult = Succeeded(id: Id, info: string) | Rejected(id: Id, error: string)

  function SuccessCount(results: seq<ItemResult>): nat {
    Count(results, (r: ItemResult) => r.Succeeded?)
  }

  function FailCount(results: seq<ItemResult>): nat {
    Count(results, (r: ItemResult) => r.Rejected?)
  }

  /** `successCount + failCount` is the number of results. */
  lemma ResultCounts(results: seq<ItemResult>)
    ensures SuccessCount(results) + FailCount(results) == |results|
  {
    CountComplement(results, (r: ItemResult) => r.Succeeded?, (r: ItemResult) => r.Rejected?);
  }
  /**
   * A `companies` row as an insert that names only some columns creates it: the columns it leaves
   * out take their defaults (no text, `미발송`, a send count of 0, no last send date).
   */
  function NewCompany(name: string, contactName: string, contactTitle: string, contactEmail: string,
                      contactPhone: string, website: string, industryId: Option<Id>, source: string,
                      collectionLogId: Option<Id>, now: Time): Company
  {
    Company(name, contactName, contactTitle, contactEmail, contactPhone, website, "", industryId, "",
            "", "", source, collectionLogId, NotSent, 0, None, now)
  }

  /** The companies whose `contact_email` is `email` (`companies where contact_email = <email>`). */
  function EmailHolders(companies: map<Id, Company>, email: string): (r: set<Id>)
    ensures forall id :: id in r <==> id in companies && companies[id].contactEmail == email
  {
    set id | id in companies && companies[id].contactEmail == email
  }

  /** No two companies share a non-empty `contact_email`. */
  predicate EmailsUnique(companies: map<Id, Company>) {
    forall a, b ::
      a in companies && b in companies && companies[a].contactEmail != "" && companies[a].contactEmail == companies[b].contactEmail
      ==> a == b
  }

  /**
   * With unique emails, a `.single()` lookup by a non-empty email finds a row exactly when some
   * company has that email, and then it finds that company.
   */
  lemma UniqueHolders(companies: map<Id, Company>, email: string)
    requires EmailsUnique(companies) && email != ""
    ensures |EmailHolders(companies, email)| <= 1
    ensures |EmailHolders(companies, email)| == 1 <==> exists id :: id in companies && companies[id].contactEmail == email
    ensures forall id :: id in companies && companies[id].contactEmail == email ==> EmailHolders(companies, email) == {id}
  {
    var h := EmailHolders(companies, email);
    if id :| id in companies && companies[id].contactEmail == email {
      assert h == {id};
    } else {
      assert h == {};
    }
  }

  /** Adding a company under a fresh id, with an email no company has, keeps emails unique. */
  lemma InsertKeepsEmailsUnique(cs: map<Id, Company>, nextId: nat, c: Company)
    requires EmailsUnique(cs) && nextId !in cs
    requires c.contactEmail == "" || EmailHolders(cs, c.contactEmail) == {}
    ensures EmailsUnique(cs[nextId := c])
  {
  }
}

=== FILE: send.dfy ===
/**
 * The manual batch send: every selected queue item (or draft) is sent at once, one after the
 * other in the order given, with one result per target.
 *
 * Unlike the scheduled tick there is no daily limit and no status guard: any queue row that
 * exists is sent whatever its status, and no row ever passes through `processing`.
 */
module ManualSend {
  import opened Wrappers
  import opened Strings
  import opened Records
  import opened Store

  const NoTargetsMsg := "발송할 항목을 선택해주세요."
  const QueueItemMissingMsg := "대기열 항목을 찾을 수 없습니다."
  const DraftMissingMsg := "초안을 찾을 수 없습니다."

  /** The message to send and the rows its bookkeeping goes to. */
  datatype Outgoing = Outgoing(toEmail: string, subject: string, body: string, sendOrder: int,
                               companyId: Id, draftId: Option<Id>)

  /** The target's message: the queue row in queue mode, otherwise the draft and its company's address. */
  function Lookup(db: Db, queueMode: bool, id: Id): (r: Result<Outgoing>)
    ensures queueMode ==> (r.Ok? <==> id in db.queue)
    ensures !queueMode ==> (r.Ok? <==> id in db.drafts && db.drafts[id].companyId in db.companies)
    ensures queueMode && r.Ok? ==>
      var q := db.queue[id];
      r.value == Outgoing(q.toEmail, q.subject, q.body, q.sendOrder, q.companyId, q.draftId)
    ensures !queueMode && r.Ok? ==> r.value.draftId == Some(id) && r.value.toEmail == db.companies[db.drafts[id].companyId].contactEmail
  {
    if queueMode then
      if id in db.queue then
        var q := db.queue[id];
        Ok(Outgoing(q.toEmail, q.subject, q.body, q.sendOrder, q.companyId, q.draftId))
      else Err(QueueItemMissingMsg)
    else if id !in db.drafts then Err(DraftMissingMsg)
    else
      var dr := db.drafts[id];
      if dr.companyId !in db.companies then Err(NullCompanyMsg)
      else Ok(Outgoing(db.companies[dr.companyId].contactEmail, dr.subject, dr.body, dr.sendOrder, dr.companyId, Some(id)))
  }

  /** The queue row after a manual delivery: `complete` with `sent_at`, nothing else. */
  function CompletedPatch(now: Time): QueuePatch {
    NoPatch.(status := Some(Complete), sentAt := Some(now))
  }

  /** The queue row after a provider error: `failed`, the message, `attempted_at`, one more retry. */
  function FailedPatch(message: string, now: Time, retries: nat): QueuePatch {
    NoPatch.(status := Some(Failed), errorMessage := Some(message), attemptedAt := Some(now), retryCount := Some(retries))
  }

  /** The log row of a manual delivery; the sender comes from the environment. */
  function SentLog(o: Outgoing, env: SenderEnv, ext: Option<string>, now: Time): MailLog {
    MailLog(o.companyId, o.draftId, o.toEmail, env.email, env.name, o.subject, o.body, o.sendOrder, "sent", ext, now)
  }

  /** Writes none of which puts a queue row into `processing`. */
  predicate NoProcessing(writes: seq<Write>) {
    forall w :: w in writes ==> !(w.QueueUpdated? && w.status == Some(Processing))
  }

  /** `after` is `before` followed by writes none of which is a move to `processing`. */
  predicate ExtendsWithoutProcessing(before: seq<Write>, after: seq<Write>) {
    |before| <= |after| && after[..|before|] == before && NoProcessing(after[|before|..])
  }

  /** The tables a manual send never writes. */
  predicate Untouched(a: Db, b: Db) {
    && a.settings == b.settings && a.templates == b.templates && a.signatures == b.signatures
    && a.collectionLogs == b.collectionLogs && a.activities == b.activities && a.nextId == b.nextId
  }

  /** One target: look it up, send, then log, roll up, mark the draft and (in queue mode) the row. */
  function SendOne(db: Db, queueMode: bool, id: Id, reply: SendOutcome, env: SenderEnv, now: Time): (r: (Db, ItemResult))
    ensures r.1.id == id
    ensures r.1.Succeeded? <==> Lookup(db, queueMode, id).Ok? && reply.Delivered?
    ensures Lookup(db, queueMode, id).Err? ==> r == (db, Rejected(id, Lookup(db, queueMode, id).error))
    ensures !queueMode ==> r.0.queue == db.queue
    ensures Untouched(db, r.0)
  {
    match Lookup(db, queueMode, id)
    case Err(e) => (db, Rejected(id, e))
    case Ok(o) =>
      match reply
      case Delivered(ext) =>
        var d1 := db.AppendMailLog(SentLog(o, env, ext, now));
        var d2 := d1.RollupCompany(o.companyId, o.sendOrder, now);
        var d3 := d2.SetDraftStatus(o.draftId, Sent);
        var d4 := if queueMode then d3.PatchQueue(id, CompletedPatch(now)) else d3;
        (d4, Succeeded(id, o.toEmail))
      case Thrown(m) =>
        if queueMode then (db.PatchQueue(id, FailedPatch(m, now, db.queue[id].retryCount + 1)), Rejected(id, m))
        else (db, Rejected(id, m))
  }

  /**
   * A delivered queue-mode target, whatever its status: one `sent` log, the company rolled up,
   * the linked draft sent, and the row `complete` with `sent_at`, in this order.
   */
  lemma SendOneDeliveredQueue(db: Db, id: Id, ext: Option<string>, env: SenderEnv, now: Time)
    requires id in db.queue
    ensures var r := SendOne(db, true, id, Delivered(ext), env, now);
      var q := db.queue[id];
      var o := Outgoing(q.toEmail, q.subject, q.body, q.sendOrder, q.companyId, q.draftId);
      && r.1 == Succeeded(id, q.toEmail)
      && r.0.mailLogs == db.mailLogs + [SentLog(o, env, ext, now)]
      && r.0.queue == db.queue[id := q.(status := Complete, sentAt := Some(now))]
      && (q.companyId in db.companies ==>
            r.0.companies == db.companies[q.companyId := db.companies[q.companyId].(
              sendStatus := SendStatusFor(q.sendOrder), sendCount := q.sendOrder, lastSendDate := Some(now))])
      && (q.companyId !in db.companies ==> r.0.companies == db.companies)
      && r.0.drafts == (if q.draftId.Some? && q.draftId.value in db.drafts
                        then db.drafts[q.draftId.value := db.drafts[q.draftId.value].(status := Sent)]
                        else db.drafts)
      && r.0.journal == db.journal + [MailLogInserted(q.companyId), CompanyUpdated(q.companyId),
                                      DraftUpdated(q.draftId, Sent), QueueUpdated(id, Some(Complete))]
  {
    var q := db.queue[id];
    var o := Outgoing(q.toEmail, q.subject, q.body, q.sendOrder, q.companyId, q.draftId);
    var d2 := db.AppendMailLog(SentLog(o, env, ext, now)).RollupCompany(o.companyId, o.sendOrder, now);
    var d3 := d2.SetDraftStatus(o.draftId, Sent);
    assert d3.queue == db.queue;
    var d4 := d3.PatchQueue(id, CompletedPatch(now));
    assert d4.queue == db.queue[id := q.(status := Complete, sentAt := Some(now))];
    if q.companyId in db.companies {
      assert d3.companies == db.companies[q.companyId := db.companies[q.companyId].(
        sendStatus := SendStatusFor(q.sendOrder), sendCount := q.sendOrder, lastSendDate := Some(now))];
    } else {
      assert d3.companies == db.companies;
    }
    assert d2.drafts == db.drafts;
    if q.draftId.Some? && q.draftId.value in db.drafts {
      assert d3.drafts == db.drafts[q.draftId.value := db.drafts[q.draftId.value].(status := Sent)];
    } else {
      assert d3.drafts == db.drafts;
    }
  }

  /**
   * A delivered draft-mode target: one `sent` log to the company's address, the company rolled
   * up, the draft sent, and the queue left alone, in this order.
   */
  lemma SendOneDeliveredDraft(db: Db, id: Id, ext: Option<string>, env: SenderEnv, now: Time)
    requires id in db.drafts && db.drafts[id].companyId in db.companies
    ensures var r := SendOne(db, false, id, Delivered(ext), env, now);
      var dr := db.drafts[id];
      var c := db.companies[dr.companyId];
      var o := Outgoing(c.contactEmail, dr.subject, dr.body, dr.sendOrder, dr.companyId, Some(id));
      && r.1 == Succeeded(id, c.contactEmail)
      && r.0.mailLogs == db.mailLogs + [SentLog(o, env, ext, now)]
      && r.0.companies == db.companies[dr.companyId := c.(
           sendStatus := SendStatusFor(dr.sendOrder), sendCount := dr.sendOrder, lastSendDate := Some(now))]
      && r.0.drafts == db.drafts[id := dr.(status := Sent)]
      && r.0.queue == db.queue
      && r.0.journal == db.journal + [MailLogInserted(dr.companyId), CompanyUpdated(dr.companyId), DraftUpdated(Some(id), Sent)]
  {
    var dr := db.drafts[id];
    var c := db.companies[dr.companyId];
    var o := Outgoing(c.contactEmail, dr.subject, dr.body, dr.sendOrder, dr.companyId, Some(id));
    var d2 := db.AppendMailLog(SentLog(o, env, ext, now)).RollupCompany(o.companyId, o.sendOrder, now);
    assert d2.companies == db.companies[dr.companyId := c.(
      sendStatus := SendStatusFor(dr.sendOrder), sendCount := dr.sendOrder, lastSendDate := Some(now))];
    var d3 := d2.SetDraftStatus(o.draftId, Sent);
    assert d3.drafts == db.drafts[id := dr.(status := Sent)];
  }

  /** A provider error in queue mode fails the row with one more retry and writes nothing else. */
  lemma SendOneThrownQueue(db: Db, id: Id, m: string, env: SenderEnv, now: Time)
    requires id in db.queue
    ensures var r := SendOne(db, true, id, Thrown(m), env, now);
      var q := db.queue[id];
      && r.1 == Rejected(id, m)
      && r.0.queue == db.queue[id := q.(status := Failed, errorMessage := Some(m), attemptedAt := Some(now),
                                        retryCount := q.retryCount + 1)]
      && r.0.mailLogs == db.mailLogs && r.0.companies == db.companies && r.0.drafts == db.drafts
      && r.0.journal == db.journal + [QueueUpdated(id, Some(Failed))]
  {
    var q := db.queue[id];
    var d := db.PatchQueue(id, FailedPatch(m, now, q.retryCount + 1));
    assert d.queue == db.queue[id := q.(status := Failed, errorMessage := Some(m), attemptedAt := Some(now),
                                        retryCount := q.retryCount + 1)];
  }

  /** A draft-mode failure touches no table at all. */
  lemma SendOneThrownDraft(db: Db, id: Id, m: string, env: SenderEnv, now: Time)
    ensures SendOne(db, false, id, Thrown(m), env, now).0 == db
  {
  }

  /** The targets `ids` in order; `replies(i)` is the provider's answer to the i-th. */
  function SendSteps(db: Db, queueMode: bool, ids: seq<Id>, replies: nat -> SendOutcome, env: SenderEnv, now: Time): (r: (Db, seq<ItemResult>))
    ensures |r.1| == |ids|
    ensures forall i :: 0 <= i < |ids| ==> r.1[i].id == ids[i]
    ensures !queueMode ==> r.0.queue == db.queue
    ensures Untouched(db, r.0)
    decreases |ids|
  {
    if ids == [] then (db, [])
    else
      var n := |ids| - 1;
      var before := SendSteps(db, queueMode, ids[..n], replies, env, now);
      var after := SendOne(before.0, queueMode, ids[n], replies(n), env, now);
      (after.0, before.1 + [after.1])
  }

  /** The writes of one delivered target, in order. */
  lemma SendOneDeliveredWrites(db: Db, queueMode: bool, id: Id, ext: Option<string>, env: SenderEnv, now: Time)
    requires Lookup(db, queueMode, id).Ok?
    ensures var o := Lookup(db, queueMode, id).value;
      SendOne(db, queueMode, id, Delivered(ext), env, now).0.journal ==
        db.journal + [MailLogInserted(o.companyId), CompanyUpdated(o.companyId), DraftUpdated(o.draftId, Sent)]
                   + (if queueMode then [QueueUpdated(id, Some(Complete))] else [])
  {
    var o := Lookup(db, queueMode, id).value;
    var d3 := db.AppendMailLog(SentLog(o, env, ext, now)).RollupCompany(o.companyId, o.sendOrder, now).SetDraftStatus(o.draftId, Sent);
    assert d3.journal == db.journal + [MailLogInserted(o.companyId), CompanyUpdated(o.companyId), DraftUpdated(o.draftId, Sent)];
  }

  /** One target never moves a queue row to `processing`, and only appends to the journal. */
  lemma SendOneNeverProcessing(db: Db, queueMode: bool, id: Id, reply: SendOutcome, env: SenderEnv, now: Time)
    ensures ExtendsWithoutProcessing(db.journal, SendOne(db, queueMode, id, reply, env, now).0.journal)
  {
    var after := SendOne(db, queueMode, id, reply, env, now).0.journal;
    if Lookup(db, queueMode, id).Err? {
      assert after[|db.journal|..] == [];
    } else if reply.Delivered? {
      SendOneDeliveredWrites(db, queueMode, id, reply.externalId, env, now);
    } else {
      assert after == db.journal + (if queueMode then [QueueUpdated(id, Some(Failed))] else []);
    }
  }

  lemma ExtendsTransitive(a: seq<Write>, b: seq<Write>, c: seq<Write>)
    requires ExtendsWithoutProcessing(a, b) && ExtendsWithoutProcessing(b, c)
    ensures ExtendsWithoutProcessing(a, c)
  {
    assert c[|a|..] == b[|a|..] + c[|b|..];
  }

  /** No target of a manual send moves a queue row to `processing`. */
  lemma {:induction false} SendStepsNeverProcessing(db: Db, queueMode: bool, ids: seq<Id>, replies: nat -> SendOutcome, env: SenderEnv, now: Time)
    ensures ExtendsWithoutProcessing(db.journal, SendSteps(db, queueMode, ids, replies, env, now).0.journal)
    decreases |ids|
  {
    if ids == [] {
      assert db.journal[|db.journal|..] == [];
    } else {
      var n := |ids| - 1;
      var before := SendSteps(db, queueMode, ids[..n], replies, env, now).0;
      var after := SendOne(before, queueMode, ids[n], replies(n), env, now).0;
      assert SendSteps(db, queueMode, ids, replies, env, now).0 == after;
      SendStepsNeverProcessing(db, queueMode, ids[..n], replies, env, now);
      SendOneNeverProcessing(before, queueMode, ids[n], replies(n), env, now);
      ExtendsTransitive(db.journal, before.journal, after.journal);
    }
  }

  /** The response: 400 without targets, otherwise the per-target results and their counts. */
  datatype SendResponse =
    | NothingToSend(message: string)
    | SendReport(results: seq<ItemResult>, successCount: nat, failCount: nat)

  /** `queue_ids || draft_ids`: a queue id list, even an empty one, wins over the draft ids. */
  function Targets(queueIds: Option<seq<Id>>, draftIds: Option<seq<Id>>): Option<seq<Id>> {
    if queueIds.Some? then queueIds else draftIds
  }

  function SendActivity(n: nat): Activity {
    Activity("send", None, None, "이메일 " + NatToString(n) + "건 발송 완료")
  }

  /** The whole request. */
  function Send(db: Db, queueIds: Option<seq<Id>>, draftIds: Option<seq<Id>>, replies: nat -> SendOutcome,
                env: SenderEnv, now: Time): (r: (Db, SendResponse))
    ensures Targets(queueIds, draftIds).None? || Targets(queueIds, draftIds).value == [] ==>
      r == (db, NothingToSend(NoTargetsMsg))
    ensures r.1.SendReport? ==> Targets(queueIds, draftIds).Some? && Targets(queueIds, draftIds).value != []
  {
    var targets := Targets(queueIds, draftIds);
    if targets.None? || targets.value == [] then (db, NothingToSend(NoTargetsMsg))
    else
      var ran := SendSteps(db, queueIds.Some?, targets.value, replies, env, now);
      var n := SuccessCount(ran.1);
      var d := if n > 0 then ran.0.AppendActivity(SendActivity(n)) else ran.0;
      (d, SendReport(ran.1, n, FailCount(ran.1)))
  }

  /**
   * A request with targets answers one result per target, in order, with counts that add up;
   * draft ids never touch the queue; the activity row is written exactly when something was sent.
   */
  lemma SendReportShape(db: Db, queueIds: Option<seq<Id>>, draftIds: Option<seq<Id>>, replies: nat -> SendOutcome,
                        env: SenderEnv, now: Time)
    requires Targets(queueIds, draftIds).Some? && Targets(queueIds, draftIds).value != []
    ensures var r := Send(db, queueIds, draftIds, replies, env, now);
      var ids := Targets(queueIds, draftIds).value;
      && r.1.SendReport?
      && |r.1.results| == |ids|
      && (forall i :: 0 <= i < |ids| ==> r.1.results[i].id == ids[i])
      && r.1.successCount + r.1.failCount == |ids|
      && r.1.successCount == SuccessCount(r.1.results)
      && (queueIds.None? ==> r.0.queue == db.queue)
      && (r.1.successCount > 0 ==> r.0.activities == db.activities + [SendActivity(r.1.successCount)])
      && (r.1.successCount == 0 ==> r.0.activities == db.activities)
  {
    var ran := SendSteps(db, queueIds.Some?, Targets(queueIds, draftIds).value, replies, env, now);
    ResultCounts(ran.1);
  }

  /** One target against the store. */
  method SendTarget(s: Store, queueMode: bool, id: Id, reply: SendOutcome, env: SenderEnv, now: Time) returns (r: ItemResult)
    modifies s
    ensures (s.Snapshot(), r) == SendOne(old(s.Snapshot()), queueMode, id, reply, env, now)
  {
    var found := Lookup(s.Snapshot(), queueMode, id);
    if found.Err? {
      return Rejected(id, found.error);
    }
    var o := found.value;
    match reply
    case Delivered(ext) =>
      s.AppendMailLog(SentLog(o, env, ext, now));
      s.RollupCompany(o.companyId, o.sendOrder, now);
      s.SetDraftStatus(o.draftId, Sent);
      if queueMode {
        s.PatchQueue(id, CompletedPatch(now));
      }
      r := Succeeded(id, o.toEmail);
    case Thrown(m) =>
      if queueMode {
        s.PatchQueue(id, FailedPatch(m, now, s.queue[id].retryCount + 1));
      }
      r := Rejected(id, m);
  }

  /** The targets one by one against the store. */
  method SendTargets(s: Store, queueMode: bool, ids: seq<Id>, replies: nat -> SendOutcome, env: SenderEnv, now: Time)
    returns (results: seq<ItemResult>)
    modifies s
    ensures (s.Snapshot(), results) == SendSteps(old(s.Snapshot()), queueMode, ids, replies, env, now)
  {
    ghost var start := s.Snapshot();
    results := [];
    var i := 0;
    while i < |ids|
      invariant 0 <= i <= |ids|
      invariant (s.Snapshot(), results) == SendSteps(start, queueMode, ids[..i], replies, env, now)
    {
      ghost var before := SendSteps(start, queueMode, ids[..i], replies, env, now);
      assert ids[..i + 1][..i] == ids[..i];
      assert SendSteps(start, queueMode, ids[..i + 1], replies, env, now) ==
        (SendOne(before.0, queueMode, ids[i], replies(i), env, now).0,
         before.1 + [SendOne(before.0, queueMode, ids[i], replies(i), env, now).1]);
      var r := SendTarget(s, queueMode, ids[i], replies(i), env, now);
      results := results + [r];
      i := i + 1;
    }
    assert ids[..i] == ids;
  }

  /** The whole request against the store: the targets one by one, then the activity row. */
  method SendRequest(s: Store, queueIds: Option<seq<Id>>, draftIds: Option<seq<Id>>, replies: nat -> SendOutcome,
                     env: SenderEnv, now: Time) returns (resp: SendResponse)
    modifies s
    ensures (s.Snapshot(), resp) == Send(old(s.Snapshot()), queueIds, draftIds, replies, env, now)
  {
    var targets := Targets(queueIds, draftIds);
    if targets.None? || targets.value == [] {
      return NothingToSend(NoTargetsMsg);
    }
    var results := SendTargets(s, queueIds.Some?, targets.value, replies, env, now);
    var n := SuccessCount(results);
    if n > 0 {
      s.AppendActivity(SendActivity(n));
    }
    resp := SendReport(results, n, FailCount(results));
  }
}

=== FILE: settings.dfy ===
/**
 * The settings endpoint: read every settings row into one key-to-value object (a later row with
 * the same key overwrites an earlier one), and save the entries of a request body one upsert at a
 * time, keyed on `key`.  An upsert's own error is not looked at, so the request answers success
 * whatever each upsert did.
 */
module Settings {
  import opened Wrappers
  import opened Strings
  import opened Records
  import opened Store

  // ---------------------------------------------------------------- reading

  /** The object `getSettings` builds: the rows in order, each setting its key. */
  function SettingsMap(rows: seq<SettingRow>): (m: map<string, Json>)
    ensures forall i :: 0 <= i < |rows| ==> rows[i].key in m
    decreases |rows|
  {
    if rows == [] then map[]
    else SettingsMap(rows[..|rows| - 1])[rows[|rows| - 1].key := rows[|rows| - 1].value]
  }

  /** Row `i` is the last row with key `k`. */
  predicate LastWith(rows: seq<SettingRow>, k: string, i: int) {
    0 <= i < |rows| && rows[i].key == k && forall j :: i < j < |rows| ==> rows[j].key != k
  }

  /** A key is in the object exactly when some row has it, and its value is the last such row's. */
  lemma {:induction false} SettingsMapSpec(rows: seq<SettingRow>)
    ensures forall k :: k in SettingsMap(rows) <==> exists i :: 0 <= i < |rows| && rows[i].key == k
    ensures forall k, i :: LastWith(rows, k, i) ==> k in SettingsMap(rows) && SettingsMap(rows)[k] == rows[i].value
    decreases |rows|
  {
    if rows != [] {
      var n := |rows| - 1;
      var p := rows[..n];
      SettingsMapSpec(p);
      forall k | k in SettingsMap(rows)
        ensures exists i :: 0 <= i < |rows| && rows[i].key == k
      {
        if k != rows[n].key {
          assert k in SettingsMap(p);
          var i :| 0 <= i < |p| && p[i].key == k;
          assert rows[i].key == k;
        }
      }
      forall k, i | LastWith(rows, k, i)
        ensures k in SettingsMap(rows) && SettingsMap(rows)[k] == rows[i].value
      {
        if i < n {
          assert LastWith(p, k, i);
        }
      }
    }
  }

  /** `getSettings`. */
  method GetSettings(s: Store) returns (settings: map<string, Json>)
    ensures settings == SettingsMap(s.settings)
  {
    var rows := s.settings;
    settings := map[];
    for i := 0 to |rows|
      invariant settings == SettingsMap(rows[..i])
    {
      assert rows[..i + 1][..i] == rows[..i];
      settings := settings[rows[i].key := rows[i].value];
    }
    assert rows[..|rows|] == rows;
  }

  // ---------------------------------------------------------------- one upsert

  /** `rows2` is `rows` with every row keyed `key` replaced by `(key, value)`. */
  predicate Replaced(rows: seq<SettingRow>, rows2: seq<SettingRow>, key: string, value: Json) {
    |rows2| == |rows| &&
    forall i :: 0 <= i < |rows| ==> rows2[i] == (if rows[i].key == key then SettingRow(key, value) else rows[i])
  }

  lemma {:induction false} ReplacedMap(rows: seq<SettingRow>, rows2: seq<SettingRow>, key: string, value: Json)
    requires Replaced(rows, rows2, key, value)
    ensures key in SettingsMap(rows) ==> SettingsMap(rows2) == SettingsMap(rows)[key := value]
    ensures key !in SettingsMap(rows) ==> SettingsMap(rows2) == SettingsMap(rows)
    decreases |rows|
  {
    if rows != [] {
      var n := |rows| - 1;
      assert Replaced(rows[..n], rows2[..n], key, value);
      ReplacedMap(rows[..n], rows2[..n], key, value);
      var m, m2 := SettingsMap(rows[..n]), SettingsMap(rows2[..n]);
      assert SettingsMap(rows) == m[rows[n].key := rows[n].value];
      assert SettingsMap(rows2) == m2[rows2[n].key := rows2[n].value];
      if rows[n].key == key {
        assert rows2[n] == SettingRow(key, value);
      } else {
        assert rows2[n] == rows[n];
      }
    }
  }

  /** After an upsert the object maps `key` to `value` and every other key as before. */
  lemma UpsertSettingMap(db: Db, key: string, value: Json)
    ensures SettingsMap(db.UpsertSetting(key, value).settings) == SettingsMap(db.settings)[key := value]
  {
    var rows := db.settings;
    var rows2 := db.UpsertSetting(key, value).settings;
    SettingsMapSpec(rows);
    if exists i :: 0 <= i < |rows| && rows[i].key == key {
      assert Replaced(rows, rows2, key, value);
      ReplacedMap(rows, rows2, key, value);
    } else {
      assert rows2 == rows + [SettingRow(key, value)];
      assert rows2[..|rows|] == rows;
    }
  }

  /** No two rows share a key: the `on conflict (key)` target is a unique key of the table. */
  predicate KeysUnique(rows: seq<SettingRow>) {
    forall i, j :: 0 <= i < |rows| && 0 <= j < |rows| && rows[i].key == rows[j].key ==> i == j
  }

  lemma UpsertKeepsKeysUnique(db: Db, key: string, value: Json)
    requires KeysUnique(db.settings)
    ensures KeysUnique(db.UpsertSetting(key, value).settings)
  {
    var rows := db.settings;
    var rows2 := db.UpsertSetting(key, value).settings;
    if exists i :: 0 <= i < |rows| && rows[i].key == key {
      assert forall i :: 0 <= i < |rows| ==> rows2[i].key == rows[i].key;
    } else {
      assert rows2 == rows + [SettingRow(key, value)];
    }
  }

  lemma {:induction false} MatchingNone<T>(rows: seq<T>, keep: T -> bool)
    requires forall j :: 0 <= j < |rows| ==> !keep(rows[j])
    ensures Matching(rows, keep) == []
    decreases |rows|
  {
    if rows != [] {
      MatchingNone(rows[..|rows| - 1], keep);
    }
  }

  lemma {:induction false} MatchingOne<T>(rows: seq<T>, keep: T -> bool, i: nat)
    requires i < |rows| && keep(rows[i])
    requires forall j :: 0 <= j < |rows| && keep(rows[j]) ==> j == i
    ensures Matching(rows, keep) == [rows[i]]
    decreases |rows|
  {
    var n, init := |rows| - 1, rows[..|rows| - 1];
    assert rows == init + [rows[n]];
    MatchingSnoc(init, rows[n], keep);
    if i == n {
      MatchingNone(init, keep);
    } else {
      MatchingOne(init, keep, i);
    }
  }

  /**
   * With unique keys, the single-row read of a setting (`where key = k .single()`) finds exactly
   * what the settings object holds under `k`.
   */
  lemma UniqueSettingValue(rows: seq<SettingRow>, key: string)
    requires KeysUnique(rows)
    ensures key in SettingsMap(rows) ==> SettingValue(rows, key) == Some(SettingsMap(rows)[key])
    ensures key !in SettingsMap(rows) ==> SettingValue(rows, key) == None
  {
    var keep := (row: SettingRow) => row.key == key;
    SettingsMapSpec(rows);
    if i :| 0 <= i < |rows| && rows[i].key == key {
      assert LastWith(rows, key, i);
      MatchingOne(rows, keep, i);
    } else {
      MatchingNone(rows, keep);
    }
  }

  /** A value saved under `key` is the value the single-row read of `key` then finds. */
  lemma SavedSettingIsRead(db: Db, key: string, value: Json)
    requires KeysUnique(db.settings)
    ensures SettingValue(db.UpsertSetting(key, value).settings, key) == Some(value)
  {
    UpsertKeepsKeysUnique(db, key, value);
    UpsertSettingMap(db, key, value);
    UniqueSettingValue(db.UpsertSetting(key, value).settings, key);
  }

  // ---------------------------------------------------------------- saving a body

  datatype SettingsResponse = SettingsSaved | SettingsFailed

  /** The keys of `Object.entries(body)` are distinct: they are an object's own property names. */
  predicate DistinctKeys(entries: seq<(string, Json)>) {
    forall i, j :: 0 <= i < j < |entries| ==> entries[i].0 != entries[j].0
  }

  /** The entries `entries[i..]` upserted in order; `failed(j)` says the j-th upsert wrote nothing. */
  function UpsertFrom(db: Db, entries: seq<(string, Json)>, i: nat, failed: nat -> bool): (r: Db)
    requires i <= |entries|
    ensures r.companies == db.companies && r.templates == db.templates && r.queue == db.queue
    ensures r.nextId == db.nextId
    decreases |entries| - i
  {
    if i == |entries| then db
    else
      var step := if failed(i) then db else db.UpsertSetting(entries[i].0, entries[i].1);
      UpsertFrom(step, entries, i + 1, failed)
  }

  /**
   * `updateSettings`: a null or undefined body (`None`) makes `Object.entries` throw; otherwise
   * every entry is upserted and the answer is success even where an upsert failed.
   */
  function UpdateSettings(db: Db, body: Option<seq<(string, Json)>>, failed: nat -> bool): (r: (Db, SettingsResponse))
    ensures r.1 == SettingsSaved <==> body.Some?
    ensures body.None? ==> r.0 == db
  {
    match body
    case None => (db, SettingsFailed)
    case Some(entries) => (UpsertFrom(db, entries, 0, failed), SettingsSaved)
  }

  /** Key `k` is written by no entry from `i` on that was actually upserted. */
  predicate Untouched(entries: seq<(string, Json)>, i: nat, failed: nat -> bool, k: string) {
    forall j :: i <= j < |entries| && !failed(j) ==> entries[j].0 != k
  }

  /** `m1` and `m2` agree at `k`. */
  predicate AgreeAt(m1: map<string, Json>, m2: map<string, Json>, k: string) {
    (k in m1 <==> k in m2) && (k in m1 ==> m1[k] == m2[k])
  }

  /**
   * After the upserts from `i` on, every upserted entry's key maps to its value and every other
   * key maps as before.
   */
  lemma {:induction false} UpsertFromMap(db: Db, entries: seq<(string, Json)>, i: nat, failed: nat -> bool)
    requires i <= |entries| && DistinctKeys(entries)
    ensures forall j :: i <= j < |entries| && !failed(j) ==>
      var m := SettingsMap(UpsertFrom(db, entries, i, failed).settings);
      entries[j].0 in m && m[entries[j].0] == entries[j].1
    ensures forall k :: Untouched(entries, i, failed, k) ==>
      AgreeAt(SettingsMap(UpsertFrom(db, entries, i, failed).settings), SettingsMap(db.settings), k)
    decreases |entries| - i
  {
    if i < |entries| {
      var step := if failed(i) then db else db.UpsertSetting(entries[i].0, entries[i].1);
      UpsertFromMap(step, entries, i + 1, failed);
      var m := SettingsMap(UpsertFrom(db, entries, i, failed).settings);
      assert UpsertFrom(db, entries, i, failed) == UpsertFrom(step, entries, i + 1, failed);
      if !failed(i) {
        UpsertSettingMap(db, entries[i].0, entries[i].1);
        assert Untouched(entries, i + 1, failed, entries[i].0);
      }
      forall k | Untouched(entries, i, failed, k)
        ensures AgreeAt(m, SettingsMap(db.settings), k)
      {
        assert Untouched(entries, i + 1, failed, k);
      }
    }
  }

  lemma {:induction false} UpsertFromKeepsKeysUnique(db: Db, entries: seq<(string, Json)>, i: nat, failed: nat -> bool)
    requires i <= |entries| && KeysUnique(db.settings)
    ensures KeysUnique(UpsertFrom(db, entries, i, failed).settings)
    decreases |entries| - i
  {
    if i < |entries| {
      if !failed(i) {
        UpsertKeepsKeysUnique(db, entries[i].0, entries[i].1);
      }
      var step := if failed(i) then db else db.UpsertSetting(entries[i].0, entries[i].1);
      UpsertFromKeepsKeysUnique(step, entries, i + 1, failed);
    }
  }

  /**
   * After a saved body, reading the settings object gives each upserted entry's value and every
   * key no upsert wrote as before, and the single-row read of an upserted key finds its value.
   */
  lemma UpdateSettingsEffect(db: Db, entries: seq<(string, Json)>, failed: nat -> bool)
    requires DistinctKeys(entries) && KeysUnique(db.settings)
    ensures var after := UpdateSettings(db, Some(entries), failed).0;
      && KeysUnique(after.settings)
      && (forall j :: 0 <= j < |entries| && !failed(j) ==>
            SettingValue(after.settings, entries[j].0) == Some(entries[j].1))
      && (forall k :: Untouched(entries, 0, failed, k) ==>
            AgreeAt(SettingsMap(after.settings), SettingsMap(db.settings), k))
  {
    var after := UpdateSettings(db, Some(entries), failed).0;
    UpsertFromMap(db, entries, 0, failed);
    UpsertFromKeepsKeysUnique(db, entries, 0, failed);
    forall j | 0 <= j < |entries| && !failed(j)
      ensures SettingValue(after.settings, entries[j].0) == Some(entries[j].1)
    {
      UniqueSettingValue(after.settings, entries[j].0);
    }
  }

  /** `Object.entries` of a string: one entry per character, keyed by its index in decimal. */
  function StringEntries(text: string): (r: seq<(string, Json)>)
    ensures |r| == |text|
    ensures forall i :: 0 <= i < |text| ==> r[i] == (NatToString(i), JStr([text[i]]))
  {
    seq(|text|, i requires 0 <= i < |text| => (NatToString(i), JStr([text[i]])))
  }

  /** Distinct indices have distinct decimal keys. */
  lemma StringEntriesDistinct(text: string)
    ensures DistinctKeys(StringEntries(text))
  {
    var r := StringEntries(text);
    forall i, j | 0 <= i < j < |r|
      ensures r[i].0 != r[j].0
    {
      ParseNatToString(i);
      ParseNatToString(j);
    }
  }

  /**
   * `Object.entries` of a body that is not an object: `None` where it throws (null), no entries
   * for a number or a boolean, the index entries for a string.
   */
  function ScalarEntries(body: Json): (r: Option<seq<(string, Json)>>)
    requires !body.JObj?
    ensures r.None? <==> body.JNull?
    ensures body.JBool? || body.JNum? ==> r == Some([])
    ensures body.JStr? ==> r == Some(StringEntries(body.s))
  {
    match body
    case JNull => None
    case JBool(_) => Some([])
    case JNum(_) => Some([])
    case JStr(text) => Some(StringEntries(text))
  }

  /**
   * A body that is not an object: null fails with nothing written, a number or a boolean is saved
   * with nothing written, and a string saves each character under its index.
   */
  lemma ScalarBodyEffect(db: Db, body: Json, failed: nat -> bool)
    requires !body.JObj? && KeysUnique(db.settings)
    ensures var r := UpdateSettings(db, ScalarEntries(body), failed);
      && (r.1 == SettingsSaved <==> !body.JNull?)
      && (body.JNull? || body.JBool? || body.JNum? ==> r.0 == db)
      && (body.JStr? ==> forall i :: 0 <= i < |body.s| && !failed(i) ==>
            SettingValue(r.0.settings, NatToString(i)) == Some(JStr([body.s[i]])))
  {
    if body.JStr? {
      StringEntriesDistinct(body.s);
      UpdateSettingsEffect(db, StringEntries(body.s), failed);
    }
  }

  method UpdateSettingsRequest(s: Store, body: Option<seq<(string, Json)>>, failed: nat -> bool)
    returns (resp: SettingsResponse)
    modifies s
    ensures (s.Snapshot(), resp) == UpdateSettings(old(s.Snapshot()), body, failed)
  {
    if body.None? {
      return SettingsFailed;
    }
    var entries := body.value;
    ghost var goal := UpsertFrom(s.Snapshot(), entries, 0, failed);
    for i := 0 to |entries|
      invariant UpsertFrom(s.Snapshot(), entries, i, failed) == goal
    {
      if !failed(i) {
        s.UpsertSetting(entries[i].0, entries[i].1);
      }
    }
    resp := SettingsSaved;
  }
}

=== FILE: store.dfy ===
/**
 * The database as the handlers see it: one object whose tables are changed in place, one
 * statement at a time.  Each method is one write statement and is specified by the matching
 * member function of `Records.Db`, so a handler that calls these methods in some order is
 * proved equal to the composition of those functions.
 */
module Store {
  import opened Wrappers
  import opened Records

  class Store {
    var queue: map<Id, QueueItem>
    var mailLogs: seq<MailLog>
    var companies: map<Id, Company>
    var drafts: map<Id, Draft>
    var templates: map<Id, Template>
    var signatures: seq<Signature>
    var settings: seq<SettingRow>
    var collectionLogs: map<Id, CollectionLog>
    var activities: seq<Activity>
    var journal: seq<Write>
    var nextId: nat

    /** The content of every table right now. */
    function Snapshot(): Db
      reads this
    {
      Db(queue, mailLogs, companies, drafts, templates, signatures, settings,
         collectionLogs, activities, journal, nextId)
    }

    /** A store holding `d`. */
    constructor (d: Db)
      ensures Snapshot() == d
    {
      queue, mailLogs, companies, drafts, templates := d.queue, d.mailLogs, d.companies, d.drafts, d.templates;
      signatures, settings, collectionLogs, activities := d.signatures, d.settings, d.collectionLogs, d.activities;
      journal, nextId := d.journal, d.nextId;
    }

    method PatchQueue(id: Id, p: QueuePatch)
      modifies this
      ensures Snapshot() == old(Snapshot()).PatchQueue(id, p)
    {
      if id in queue {
        queue := queue[id := p.Apply(queue[id])];
      }
      journal := journal + [QueueUpdated(id, p.status)];
    }

    method UnmatchedQueueUpdate(id: Id)
      modifies this
      ensures Snapshot() == old(Snapshot()).UnmatchedQueueUpdate(id)
    {
      journal := journal + [QueueUpdated(id, None)];
    }

    method InsertQueue(item: QueueItem) returns (id: Id)
      modifies this
      ensures id == old(nextId)
      ensures Snapshot() == old(Snapshot()).InsertQueue(item)
    {
      id := nextId;
      queue := queue[id := item];
      nextId := nextId + 1;
      journal := journal + [QueueInserted(id)];
    }

    method DeleteQueue(id: Id)
      modifies this
      ensures Snapshot() == old(Snapshot()).DeleteQueue(id)
    {
      queue := queue - {id};
      journal := journal + [QueueDeleted(id)];
    }

    method AppendMailLog(log: MailLog)
      modifies this
      ensures Snapshot() == old(Snapshot()).AppendMailLog(log)
    {
      mailLogs := mailLogs + [log];
      journal := journal + [MailLogInserted(log.companyId)];
    }

    method RollupCompany(id: Id, sendOrder: int, now: Time)
      modifies this
      ensures Snapshot() == old(Snapshot()).RollupCompany(id, sendOrder, now)
    {
      if id in companies {
        companies := companies[id := companies[id].(sendStatus := SendStatusFor(sendOrder), sendCount := sendOrder, lastSendDate := Some(now))];
      }
      journal := journal + [CompanyUpdated(id)];
    }

    method InsertCompany(c: Company) returns (id: Id)
      modifies this
      ensures id == old(nextId)
      ensures Snapshot() == old(Snapshot()).InsertCompany(c)
    {
      id := nextId;
      companies := companies[id := c];
      nextId := nextId + 1;
      journal := journal + [CompanyInserted(id)];
    }

    method DeleteCompanies(ids: set<Id>)
      modifies this
      ensures Snapshot() == old(Snapshot()).DeleteCompanies(ids)
    {
      companies := companies - ids;
      journal := journal + [CompaniesDeleted(ids)];
    }

    method SetDraftStatus(id: Option<Id>, st: DraftStatus)
      modifies this
      ensures Snapshot() == old(Snapshot()).SetDraftStatus(id, st)
    {
      if id.Some? && id.value in drafts {
        drafts := drafts[id.value := drafts[id.value].(status := st)];
      }
      journal := journal + [DraftUpdated(id, st)];
    }

    method InsertDraft(dr: Draft) returns (id: Id)
      modifies this
      ensures id == old(nextId)
      ensures Snapshot() == old(Snapshot()).InsertDraft(dr)
    {
      id := nextId;
      drafts := drafts[id := dr];
      nextId := nextId + 1;
      journal := journal + [DraftInserted(id)];
    }

    method ClearDefaultTemplates()
      modifies this
      ensures Snapshot() == old(Snapshot()).ClearDefaultTemplates()
    {
      templates := map j | j in templates :: templates[j].(isDefault := false);
      journal := journal + [TemplateDefaultsCleared];
    }

    method InsertTemplate(t: Template) returns (id: Id)
      modifies this
      ensures id == old(nextId)
      ensures Snapshot() == old(Snapshot()).InsertTemplate(t)
    {
      id := nextId;
      templates := templates[id := t];
      nextId := nextId + 1;
      journal := journal + [TemplateInserted(id)];
    }

    method UpsertSetting(key: string, value: Json)
      modifies this
      ensures Snapshot() == old(Snapshot()).UpsertSetting(key, value)
    {
      var rows := settings;
      if exists i :: 0 <= i < |rows| && rows[i].key == key {
        settings := seq(|rows|, i requires 0 <= i < |rows| =>
          if rows[i].key == key then SettingRow(key, value) else rows[i]);
      } else {
        settings := rows + [SettingRow(key, value)];
      }
      journal := journal + [SettingUpserted(key)];
    }

    method InsertCollectionLog(l: CollectionLog) returns (id: Id)
      modifies this
      ensures id == old(nextId)
      ensures Snapshot() == old(Snapshot()).InsertCollectionLog(l)
    {
      id := nextId;
      collectionLogs := collectionLogs[id := l];
      nextId := nextId + 1;
      journal := journal + [CollectionLogInserted(id)];
    }

    method FinishCollectionLog(id: Id, success: nat, fail: nat)
      modifies this
      ensures Snapshot() == old(Snapshot()).FinishCollectionLog(id, success, fail)
    {
      if id in collectionLogs {
        collectionLogs := collectionLogs[id := collectionLogs[id].(successCount := success, failCount := fail, status := Completed)];
      }
      journal := journal + [CollectionLogUpdated(id)];
    }

    method AppendActivity(a: Activity)
      modifies this
      ensures Snapshot() == old(Snapshot()).AppendActivity(a)
    {
      activities := activities + [a];
      journal := journal + [ActivityInserted(a.action)];
    }
  }
}

=== FILE: strings.dfy ===
/**
 * The JavaScript string operations the handlers rely on, written out over `seq<char>`:
 * `trim`, `split` on one character, `join`, literal `replace` (first occurrence and global),
 * decimal rendering and parsing, and ASCII case folding for SQL `ilike`.
 */
module Strings {

  /** JavaScript's WhiteSpace and LineTerminator code points: what `trim()` removes and `\s` matches. */
  predicate IsSpace(c: char) {
    c == '\t' || c == '\n' || c == '\U{000B}' || c == '\U{000C}' || c == '\r' || c == ' '
    || c == '\U{00A0}' || c == '\U{1680}' || ('\U{2000}' <= c <= '\U{200A}')
    || c == '\U{2028}' || c == '\U{2029}' || c == '\U{202F}' || c == '\U{205F}'
    || c == '\U{3000}' || c == '\U{FEFF}'
  }

  predicate NoSpace(s: string) {
    forall i :: 0 <= i < |s| ==> !IsSpace(s[i])
  }

  /** `s` with its leading white space removed. */
  function TrimStart(s: string): (r: string)
    ensures |r| <= |s| && r == s[|s| - |r|..]
    ensures forall i :: 0 <= i < |s| - |r| ==> IsSpace(s[i])
    ensures r == [] || !IsSpace(r[0])
    decreases |s|
  {
    if s != [] && IsSpace(s[0]) then TrimStart(s[1..]) else s
  }

  /** `s` with its trailing white space removed. */
  function TrimEnd(s: string): (r: string)
    ensures |r| <= |s| && r == s[..|r|]
    ensures forall i :: |r| <= i < |s| ==> IsSpace(s[i])
    ensures r == [] || !IsSpace(r[|r| - 1])
    decreases |s|
  {
    if s != [] && IsSpace(s[|s| - 1]) then TrimEnd(s[..|s| - 1]) else s
  }

  /**
   * `s[i..j]` is what `trim` keeps of `s`: only white space before `i` and from `j` on, and none
   * at either end of the slice.
   */
  predicate TrimBounds(s: string, i: int, j: int) {
    0 <= i <= j <= |s| &&
    (forall k :: 0 <= k < i ==> IsSpace(s[k])) && (forall k :: j <= k < |s| ==> IsSpace(s[k])) &&
    (i == j || (!IsSpace(s[i]) && !IsSpace(s[j - 1])))
  }

  /** `String.prototype.trim`: `s` without its leading and trailing white space. */
  function Trim(s: string): (r: string)
    ensures |r| <= |s|
    ensures r == [] || (!IsSpace(r[0]) && !IsSpace(r[|r| - 1]))
  {
    var a := TrimStart(s);
    var r := TrimEnd(a);
    assert r != [] ==> r[0] == a[0];
    r
  }

  /** `trim` keeps the slice of `s` that only white space surrounds and that has none at its ends. */
  lemma TrimIsSlice(s: string)
    ensures exists i, j :: TrimBounds(s, i, j) && Trim(s) == s[i..j]
  {
    var a := TrimStart(s);
    TrimSlice(s, a, TrimEnd(a));
  }

  /** Trimming both ends leaves the slice of `s` between its leading and its trailing white space. */
  lemma {:induction false} TrimSlice(s: string, a: string, r: string)
    requires a == TrimStart(s) && r == TrimEnd(a)
    ensures r == s[|s| - |a|..|s| - |a| + |r|]
    ensures TrimBounds(s, |s| - |a|, |s| - |a| + |r|)
  {
    SuffixPrefix(s, a, r, IsSpace);
    assert r != [] ==> r[0] == a[0];
  }

  /** A prefix `r` of a suffix `a` of `s` is a slice of `s`, and what follows `r` in `a` follows it in `s`. */
  lemma SuffixPrefix<T>(s: seq<T>, a: seq<T>, r: seq<T>, p: T -> bool)
    requires |a| <= |s| && a == s[|s| - |a|..] && |r| <= |a| && r == a[..|r|]
    requires forall k :: |r| <= k < |a| ==> p(a[k])
    ensures r == s[|s| - |a|..|s| - |a| + |r|]
    ensures forall k :: |s| - |a| + |r| <= k < |s| ==> p(s[k])
  {
    var i := |s| - |a|;
    forall k | i + |r| <= k < |s|
      ensures p(s[k])
    {
      assert s[k] == a[k - i];
    }
  }

  /** Text that neither starts nor ends with white space is kept by `trim`. */
  lemma TrimKeeps(s: string)
    requires s == [] || (!IsSpace(s[0]) && !IsSpace(s[|s| - 1]))
    ensures Trim(s) == s
  {
  }

  /**
   * `s` is `r` with a `"` in front exactly when `s` starts with one, and a `"` behind exactly
   * when `s` ends with one that is not that first quote.
   */
  predicate QuotesAround(s: string, r: string) {
    var lead := |s| > 0 && s[0] == '"';
    var trail := |s| > (if lead then 1 else 0) && s[|s| - 1] == '"';
    s == (if lead then "\"" else "") + r + (if trail then "\"" else "")
  }

  /** `s.replace(/^"|"$/g, '')`: drops one leading and one trailing double quote. */
  function StripQuotes(s: string): (r: string)
    ensures |s| - 2 <= |r| <= |s|
    ensures (|s| == 0 || s[0] != '"') && (|s| == 0 || s[|s| - 1] != '"') ==> r == s
    ensures QuotesAround(s, r)
  {
    var a := if |s| > 0 && s[0] == '"' then s[1..] else s;
    if |a| > 0 && a[|a| - 1] == '"' then a[..|a| - 1] else a
  }

  predicate StartsWith(s: string, p: string) {
    |p| <= |s| && s[..|p|] == p
  }

  /** `p` occurs in `s` at position `i`. */
  predicate OccursAt(s: string, p: string, i: nat) {
    i + |p| <= |s| && s[i..i + |p|] == p
  }

  predicate Contains(s: string, p: string) {
    exists i: nat :: i <= |s| && OccursAt(s, p, i)
  }

  /**
   * `s.replace(/p/g, v)` for a literal pattern `p`: scanning left to right, each match is
   * replaced by `v` and the scan resumes after it (matches never overlap, and the text put in
   * by `v` is not scanned again by this call).
   */
  function ReplaceAll(s: string, p: string, v: string): string
    requires p != []
    decreases |s|
  {
    if |s| < |p| then s
    else if s[..|p|] == p then v + ReplaceAll(s[|p|..], p, v)
    else [s[0]] + ReplaceAll(s[1..], p, v)
  }

  /** `s.replace(p, v)` with a string pattern: only the leftmost occurrence is replaced. */
  function ReplaceFirst(s: string, p: string, v: string): string
    requires p != []
    decreases |s|
  {
    if |s| < |p| then s
    else if s[..|p|] == p then v + s[|p|..]
    else [s[0]] + ReplaceFirst(s[1..], p, v)
  }

  /** Text with no match of `p` is returned unchanged by the global replace. */
  lemma {:induction false} ReplaceAllNoMatch(s: string, p: string, v: string)
    requires p != [] && !Contains(s, p)
    ensures ReplaceAll(s, p, v) == s
    decreases |s|
  {
    if |s| >= |p| {
      assert !OccursAt(s, p, 0);
      assert s[0..|p|] == s[..|p|];
      if Contains(s[1..], p) {
        var i: nat :| i <= |s[1..]| && OccursAt(s[1..], p, i);
        assert s[1..][i..i + |p|] == s[i + 1..i + 1 + |p|];
        assert OccursAt(s, p, i + 1);
        assert false;
      }
      ReplaceAllNoMatch(s[1..], p, v);
    }
  }

  /**
   * When no match of `p` starts inside the prefix `a`, the global replace copies `a` and
   * carries on with the rest.
   */
  lemma {:induction false} ReplaceAllSkip(a: string, rest: string, p: string, v: string)
    requires p != []
    requires forall k :: 0 <= k < |a| ==> !StartsWith((a + rest)[k..], p)
    ensures ReplaceAll(a + rest, p, v) == a + ReplaceAll(rest, p, v)
    decreases |a|
  {
    if a == [] {
      assert a + rest == rest;
    } else {
      var s := a + rest;
      if |s| < |p| {
        assert ReplaceAll(rest, p, v) == rest;
      } else {
        calc {
          ReplaceAll(s, p, v);
          == { assert s[0..] == s && !StartsWith(s[0..], p); }
          [s[0]] + ReplaceAll(s[1..], p, v);
          == { assert s[1..] == a[1..] + rest; }
          [s[0]] + ReplaceAll(a[1..] + rest, p, v);
          == { SkipTail(a, rest, p); ReplaceAllSkip(a[1..], rest, p, v); }
          [s[0]] + (a[1..] + ReplaceAll(rest, p, v));
          == { assert [s[0]] + a[1..] == a; }
          a + ReplaceAll(rest, p, v);
        }
      }
    }
  }

  lemma SkipTail(a: string, rest: string, p: string)
    requires a != [] && forall k :: 0 <= k < |a| ==> !StartsWith((a + rest)[k..], p)
    ensures forall k :: 0 <= k < |a[1..]| ==> !StartsWith((a[1..] + rest)[k..], p)
  {
    var s := a + rest;
    forall k | 0 <= k < |a[1..]|
      ensures !StartsWith((a[1..] + rest)[k..], p)
    {
      assert (a[1..] + rest)[k..] == s[k + 1..];
      assert !StartsWith(s[k + 1..], p);
    }
  }

  /** A match at the front is replaced and the scan resumes right after it. */
  lemma ReplaceAllAtFront(p: string, rest: string, v: string)
    requires p != []
    ensures ReplaceAll(p + rest, p, v) == v + ReplaceAll(rest, p, v)
  {
    var s := p + rest;
    assert s[..|p|] == p;
    assert s[|p|..] == rest;
  }

  /**
   * The leftmost occurrence, and only it, is replaced: if `p` occurs in `s` first at `i`,
   * the result is `s` with `s[i..i+|p|]` swapped for `v`.
   */
  lemma {:induction false} ReplaceFirstLeftmost(s: string, p: string, v: string, i: nat)
    requires p != [] && OccursAt(s, p, i)
    requires forall j :: 0 <= j < i ==> !OccursAt(s, p, j)
    ensures ReplaceFirst(s, p, v) == s[..i] + v + s[i + |p|..]
    decreases i
  {
    if i == 0 {
      assert s[..|p|] == s[0..|p|];
    } else {
      var t := s[1..];
      ReplaceFirstSkips(s, p, v);
      ShiftOccurrences(s, p, i);
      ReplaceFirstLeftmost(t, p, v, i - 1);
      ConsSlices(s, v, i, i + |p|);
    }
  }

  /** Where the text does not start with `p`, the single replace keeps the first character. */
  lemma ReplaceFirstSkips(s: string, p: string, v: string)
    requires p != [] && |s| >= |p| && !OccursAt(s, p, 0)
    ensures ReplaceFirst(s, p, v) == [s[0]] + ReplaceFirst(s[1..], p, v)
  {
    assert s[..|p|] == s[0..|p|];
  }

  /** Occurrences in `s` at `j + 1` are occurrences in `s[1..]` at `j`. */
  lemma ShiftOccurrences(s: string, p: string, i: nat)
    requires 0 < i && OccursAt(s, p, i)
    requires forall j :: 0 <= j < i ==> !OccursAt(s, p, j)
    ensures OccursAt(s[1..], p, i - 1)
    ensures forall j :: 0 <= j < i - 1 ==> !OccursAt(s[1..], p, j)
  {
    var t := s[1..];
    assert t[i - 1..i - 1 + |p|] == s[i..i + |p|];
    forall j | 0 <= j < i - 1
      ensures !OccursAt(t, p, j)
    {
      assert t[j..j + |p|] == s[j + 1..j + 1 + |p|];
      assert !OccursAt(s, p, j + 1);
    }
  }

  lemma ConsSlices(s: string, v: string, i: nat, k: nat)
    requires 0 < i <= k <= |s|
    ensures [s[0]] + (s[1..][..i - 1] + v + s[1..][k - 1..]) == s[..i] + v + s[k..]
  {
    assert s[1..][..i - 1] == s[1..i];
    assert s[1..][k - 1..] == s[k..];
    assert [s[0]] + s[1..i] == s[..i];
  }

  /** Text without the pattern is left as it is by the single replace. */
  lemma {:induction false} ReplaceFirstNoMatch(s: string, p: string, v: string)
    requires p != [] && !Contains(s, p)
    ensures ReplaceFirst(s, p, v) == s
    decreases |s|
  {
    if |s| >= |p| {
      assert !OccursAt(s, p, 0);
      assert s[0..|p|] == s[..|p|];
      if Contains(s[1..], p) {
        var i: nat :| i <= |s[1..]| && OccursAt(s[1..], p, i);
        assert s[1..][i..i + |p|] == s[i + 1..i + 1 + |p|];
        assert OccursAt(s, p, i + 1);
        assert false;
      }
      ReplaceFirstNoMatch(s[1..], p, v);
    }
  }

  /** `s.split(d)` for a one-character separator: the pieces between separators, at least one. */
  function Split(s: string, d: char): (parts: seq<string>)
    ensures |parts| >= 1
    ensures forall i :: 0 <= i < |parts| ==> d !in parts[i]
    decreases |s|
  {
    if s == [] then [""]
    else
      var rest := Split(s[1..], d);
      if s[0] == d then [""] + rest
      else [[s[0]] + rest[0]] + rest[1..]
  }

  /** `parts.join(sep)`. */
  function Join(parts: seq<string>, sep: string): string
    decreases |parts|
  {
    if |parts| == 0 then ""
    else if |parts| == 1 then parts[0]
    else parts[0] + sep + Join(parts[1..], sep)
  }

  /** Splitting and joining back with the same separator gives the text back. */
  lemma {:induction false} JoinSplit(s: string, d: char)
    ensures Join(Split(s, d), [d]) == s
    decreases |s|
  {
    if s != [] {
      var rest := Split(s[1..], d);
      JoinSplit(s[1..], d);
      if s[0] == d {
        assert Split(s, d) == [""] + rest;
        assert ([""] + rest)[1..] == rest;
      } else {
        var parts := [[s[0]] + rest[0]] + rest[1..];
        assert Split(s, d) == parts;
        if |rest| == 1 {
          assert Join(rest, [d]) == rest[0];
        } else {
          assert parts[1..] == rest[1..];
          assert Join(rest, [d]) == rest[0] + [d] + Join(rest[1..], [d]);
        }
      }
    }
  }

  /** A separator-free prefix is glued onto the first piece. */
  lemma {:induction false} SplitPrefix(a: string, t: string, d: char)
    requires d !in a
    ensures Split(a + t, d) == [a + Split(t, d)[0]] + Split(t, d)[1..]
    decreases |a|
  {
    if a != [] {
      assert (a + t)[0] == a[0];
      assert (a + t)[1..] == a[1..] + t;
      SplitPrefix(a[1..], t, d);
      assert [a[0]] + (a[1..] + Split(t, d)[0]) == a + Split(t, d)[0];
    } else {
      assert a + t == t;
      var parts := Split(t, d);
      assert parts == [parts[0]] + parts[1..];
      assert a + parts[0] == parts[0];
    }
  }

  /** Joining separator-free pieces and splitting again gives the pieces back. */
  lemma {:induction false} SplitJoin(parts: seq<string>, d: char)
    requires |parts| >= 1
    requires forall i :: 0 <= i < |parts| ==> d !in parts[i]
    ensures Split(Join(parts, [d]), d) == parts
    decreases |parts|
  {
    if |parts| == 1 {
      SplitPrefix(parts[0], "", d);
      assert parts[0] + "" == parts[0];
    } else {
      var j := Join(parts[1..], [d]);
      SplitJoin(parts[1..], d);
      assert Join(parts, [d]) == parts[0] + ([d] + j);
      SplitPrefix(parts[0], [d] + j, d);
      assert ([d] + j)[1..] == j;
      assert Split([d] + j, d) == [""] + Split(j, d);
      assert parts[0] + "" == parts[0];
    }
  }

  /** The decimal digit for `d < 10`. */
  function DigitChar(d: nat): char
    requires d < 10
  {
    ['0', '1', '2', '3', '4', '5', '6', '7', '8', '9'][d]
  }

  /** Decimal rendering of a natural number, as template literals render it. */
  function NatToString(n: nat): string
    decreases n
  {
    if n < 10 then [DigitChar(n)] else NatToString(n / 10) + [DigitChar(n % 10)]
  }

  predicate IsDigits(s: string) {
    |s| > 0 && forall i :: 0 <= i < |s| ==> '0' <= s[i] <= '9'
  }

  /** The value of a string of decimal digits. */
  function ParseDigits(s: string): nat
    requires IsDigits(s)
    decreases |s|
  {
    var last := (s[|s| - 1] as int - '0' as int) as nat;
    if |s| == 1 then last else ParseDigits(s[..|s| - 1]) * 10 + last
  }

  /** Rendering a number in decimal and reading it back gives the number. */
  lemma {:induction false} ParseNatToString(n: nat)
    ensures IsDigits(NatToString(n)) && ParseDigits(NatToString(n)) == n
    decreases n
  {
    if n >= 10 {
      ParseNatToString(n / 10);
      var s := NatToString(n);
      assert s[..|s| - 1] == NatToString(n / 10);
    }
  }

  /** ASCII lower-casing of one character. */
  function LowerChar(c: char): char {
    if 'A' <= c <= 'Z' then (c as int + 32) as char else c
  }

  function Lower(s: string): (r: string)
    ensures |r| == |s| && forall i :: 0 <= i < |s| ==> r[i] == LowerChar(s[i])
  {
    seq(|s|, i requires 0 <= i < |s| => LowerChar(s[i]))
  }

  /** `ilike '%needle%'`: case-insensitive substring search. */
  predicate ContainsIgnoreCase(hay: string, needle: string) {
    Contains(Lower(hay), Lower(needle))
  }
}

=== FILE: templates.dfy ===
/**
 * The mail-template endpoint: list the templates (defaults first, then newest first) and create
 * one.  Creating a default template first clears the flag on every template, so that the new one
 * is the only default.
 */
module Templates {
  import opened Wrappers
  import opened Records
  import opened Store
  import opened Query

  // ---------------------------------------------------------------- listing

  /** `order('is_default', desc).order('created_at', desc)`. */
  predicate DefaultsFirst(a: (Id, Template), b: (Id, Template)) {
    || (a.1.isDefault && !b.1.isDefault)
    || (a.1.isDefault == b.1.isDefault && a.1.createdAt >= b.1.createdAt)
  }

  lemma DefaultsFirstIsTotal()
    ensures TotalPreorder(DefaultsFirst)
  {
  }

  /** The listed templates, from the table's rows in scan order. */
  function ListTemplates(table: seq<(Id, Template)>): (r: seq<(Id, Template)>)
    ensures |r| == |table| && multiset(r) == multiset(table)
  {
    SortBy(table, DefaultsFirst)
  }

  /**
   * The list holds every template once, each default before every other template, and within
   * each group the newer first.
   */
  lemma ListTemplatesSpec(table: seq<(Id, Template)>)
    ensures var r := ListTemplates(table);
      && multiset(r) == multiset(table)
      && (forall i, j :: 0 <= i < j < |r| && r[j].1.isDefault ==> r[i].1.isDefault)
      && (forall i, j :: 0 <= i < j < |r| && r[i].1.isDefault == r[j].1.isDefault ==> r[i].1.createdAt >= r[j].1.createdAt)
  {
    DefaultsFirstIsTotal();
    SortBySorted(table, DefaultsFirst);
    var r := ListTemplates(table);
    forall i, j | 0 <= i < j < |r| && r[j].1.isDefault
      ensures r[i].1.isDefault
    {
      assert DefaultsFirst(r[i], r[j]);
    }
    forall i, j | 0 <= i < j < |r| && r[i].1.isDefault == r[j].1.isDefault
      ensures r[i].1.createdAt >= r[j].1.createdAt
    {
      assert DefaultsFirst(r[i], r[j]);
    }
  }

  // ---------------------------------------------------------------- create

  datatype TemplateResponse =
    | TemplateCreated(id: Id, template: Template)
    | TemplateRejected(message: string)
    | TemplateFailed(message: string)

  const TemplateFieldsMsg := "템플릿 이름, 제목, 본문은 필수입니다."

  predicate IsDefault(t: Template) {
    t.isDefault
  }

  /** The ids of the default templates. */
  function Defaults(templates: map<Id, Template>): set<Id> {
    IdsWhere(templates, IsDefault)
  }

  /**
   * `createTemplate`: name, subject and body are required; a default template clears every
   * default first; `fault` is the insert's error, if any (the clearing has happened by then).
   */
  function CreateTemplate(db: Db, name: string, subject: string, body: string, isDefault: bool,
                          fault: Option<string>, now: Time): (r: (Db, TemplateResponse))
    ensures name == "" || subject == "" || body == "" ==> r == (db, TemplateRejected(TemplateFieldsMsg))
    ensures r.1.TemplateCreated? <==> name != "" && subject != "" && body != "" && fault.None?
    ensures r.1.TemplateCreated? ==>
      r.1.id == db.nextId && r.1.template == Template(name, subject, body, isDefault, now) &&
      r.1.id in r.0.templates && r.0.templates[r.1.id] == r.1.template
  {
    if name == "" || subject == "" || body == "" then (db, TemplateRejected(TemplateFieldsMsg))
    else
      var cleared := if isDefault then db.ClearDefaultTemplates() else db;
      match fault
      case Some(m) => (cleared, TemplateFailed(m))
      case None =>
        var t := Template(name, subject, body, isDefault, now);
        (cleared.InsertTemplate(t), TemplateCreated(cleared.nextId, t))
  }

  /** Creating a default template leaves exactly one default: the new template. */
  lemma CreateDefaultIsOnlyDefault(db: Db, name: string, subject: string, body: string, now: Time)
    requires name != "" && subject != "" && body != ""
    ensures var r := CreateTemplate(db, name, subject, body, true, None, now);
      Defaults(r.0.templates) == {db.nextId} && |Defaults(r.0.templates)| == 1
  {
    var r := CreateTemplate(db, name, subject, body, true, None, now);
    var cleared := db.ClearDefaultTemplates();
    assert r.0.templates == cleared.templates[db.nextId := Template(name, subject, body, true, now)];
    forall id | id in Defaults(r.0.templates)
      ensures id == db.nextId
    {
    }
  }

  /** Creating a template that is not a default changes no other template and no default. */
  lemma CreatePlainKeepsOthers(db: Db, name: string, subject: string, body: string, fault: Option<string>, now: Time)
    requires db.nextId !in db.templates
    ensures var r := CreateTemplate(db, name, subject, body, false, fault, now);
      && (forall id :: id in db.templates ==> id in r.0.templates && r.0.templates[id] == db.templates[id])
      && Defaults(r.0.templates) == Defaults(db.templates)
  {
    var r := CreateTemplate(db, name, subject, body, false, fault, now);
    if r.1.TemplateCreated? {
      assert r.0.templates == db.templates[db.nextId := Template(name, subject, body, false, now)];
      assert Defaults(r.0.templates) == Defaults(db.templates);
    }
  }

  /** A default create whose insert fails has cleared every default and added nothing: no default is left. */
  lemma FailedDefaultCreateLeavesNone(db: Db, name: string, subject: string, body: string, m: string, now: Time)
    requires name != "" && subject != "" && body != ""
    ensures var r := CreateTemplate(db, name, subject, body, true, Some(m), now);
      r.1 == TemplateFailed(m) && Defaults(r.0.templates) == {} && r.0.templates.Keys == db.templates.Keys
  {
    var r := CreateTemplate(db, name, subject, body, true, Some(m), now);
    assert r.0 == db.ClearDefaultTemplates();
    forall id | id in r.0.templates
      ensures !r.0.templates[id].isDefault
    {
    }
  }

  method CreateTemplateRequest(s: Store, name: string, subject: string, body: string, isDefault: bool,
                               fault: Option<string>, now: Time) returns (resp: TemplateResponse)
    modifies s
    ensures (s.Snapshot(), resp) == CreateTemplate(old(s.Snapshot()), name, subject, body, isDefault, fault, now)
  {
    if name == "" || subject == "" || body == "" {
      return TemplateRejected(TemplateFieldsMsg);
    }
    if isDefault {
      s.ClearDefaultTemplates();
    }
    if fault.Some? {
      return TemplateFailed(fault.value);
    }
    var t := Template(name, subject, body, isDefault, now);
    var id := s.InsertTemplate(t);
    resp := TemplateCreated(id, t);
  }
}

=== FILE: templating.dfy ===
/**
 * Placeholder substitution in mail templates.
 *
 * A template is text with placeholders `{{name}}`.  The handlers fill them with a fixed chain
 * of global literal replaces, one per known name, applied in a fixed order.  The chain is
 * modelled exactly (`ReplaceChain` over `Strings.ReplaceAll`).  Its meaning is given by a
 * reference definition on structured templates (`Piece`s): each slot whose name is bound
 * becomes its value, every other slot is kept.  `ChainResolves` proves the two agree whenever
 * the literal text and the values put in contain no `{` and the names contain no brace.
 */
module Templating {
  import opened Wrappers
  import opened Strings
  import opened Records

  /** The text `{{name}}`. */
  function Placeholder(name: string): string {
    "{{" + name + "}}"
  }

  lemma PlaceholderShape(name: string)
    ensures var p := Placeholder(name);
      |p| == |name| + 4 && p[0] == '{' && p[1] == '{' && p[2..2 + |name|] == name
      && p[2 + |name|] == '}' && p[3 + |name|] == '}'
      && forall k :: 2 <= k < 2 + |name| ==> p[k] == name[k - 2]
  {
  }

  /** One `.replace(/\{\{name\}\}/g, value)` of the chain. */
  datatype Binding = Binding(name: string, value: string)

  /** The replaces of `bs`, applied to `text` one after the other, each to the whole text. */
  function ReplaceChain(text: string, bs: seq<Binding>): string
    decreases |bs|
  {
    if bs == [] then text
    else ReplaceChain(ReplaceAll(text, Placeholder(bs[0].name), bs[0].value), bs[1..])
  }

  /** JavaScript's `s || d` on a string: the default when `s` is empty (or NULL). */
  function Or(s: string, d: string): (r: string)
    ensures r == s || r == d
    ensures r == "" ==> s == "" && d == ""
  {
    if s == "" then d else s
  }

  // ----- the reference meaning -----

  /** A structured template is a sequence of literal text and slots. */
  datatype Piece = Text(text: string) | Slot(name: string)

  function PieceText(p: Piece): string {
    match p
    case Text(t) => t
    case Slot(n) => Placeholder(n)
  }

  /** The text a structured template stands for. */
  function Render(ps: seq<Piece>): string
    decreases |ps|
  {
    if ps == [] then "" else PieceText(ps[0]) + Render(ps[1..])
  }

  lemma RenderTwo(a: Piece, b: Piece)
    ensures Render([a, b]) == PieceText(a) + PieceText(b)
  {
    assert [b][1..] == [];
    assert Render([b]) == PieceText(b) + Render([]);
    assert [a, b][1..] == [b];
  }

  predicate NoOpen(s: string) {
    '{' !in s
  }

  predicate BraceFree(s: string) {
    '{' !in s && '}' !in s
  }

  /** Literal text holds no `{`, and slot names hold no brace. */
  predicate Structured(ps: seq<Piece>) {
    forall i :: 0 <= i < |ps| ==>
      (ps[i].Text? ==> NoOpen(ps[i].text)) && (ps[i].Slot? ==> BraceFree(ps[i].name))
  }

  /** Names without braces, values without `{`. */
  predicate Tame(bs: seq<Binding>) {
    forall i :: 0 <= i < |bs| ==> BraceFree(bs[i].name) && NoOpen(bs[i].value)
  }

  /** The value of the first binding of `name`. */
  function Lookup(bs: seq<Binding>, name: string): (r: Option<string>)
    ensures r.None? <==> forall i :: 0 <= i < |bs| ==> bs[i].name != name
    ensures r.Some? ==> exists i :: 0 <= i < |bs| && bs[i] == Binding(name, r.value)
    decreases |bs|
  {
    if bs == [] then None
    else if bs[0].name == name then Some(bs[0].value)
    else Lookup(bs[1..], name)
  }

  function ResolvePiece(p: Piece, bs: seq<Binding>): Piece {
    match p
    case Text(_) => p
    case Slot(n) => match Lookup(bs, n) { case Some(v) => Text(v) case None => p }
  }

  /** Every bound slot replaced by its value; unbound slots and text kept. */
  function Resolve(ps: seq<Piece>, bs: seq<Binding>): (r: seq<Piece>)
    ensures |r| == |ps|
    ensures forall i :: 0 <= i < |ps| ==> r[i] == ResolvePiece(ps[i], bs)
  {
    seq(|ps|, i requires 0 <= i < |ps| => ResolvePiece(ps[i], bs))
  }

  /** After resolution, the slots left are exactly those whose name is not bound. */
  lemma ResolveLeavesUnbound(ps: seq<Piece>, bs: seq<Binding>, i: nat)
    requires i < |ps|
    ensures Resolve(ps, bs)[i].Slot? <==> ps[i].Slot? && Lookup(bs, ps[i].name).None?
    ensures Resolve(ps, bs)[i].Slot? ==> Resolve(ps, bs)[i] == ps[i]
  {
  }

  // ----- the chain agrees with the reference meaning -----

  lemma NotStartsWith(s: string, p: string, i: nat)
    requires i < |p| && i < |s| && s[i] != p[i]
    ensures !StartsWith(s, p)
  {
  }

  /** A placeholder does not occur inside another placeholder of a different brace-free name. */
  lemma {:induction false} SlotSkip(m: string, n: string, rest: string)
    requires BraceFree(m) && BraceFree(n) && m != n
    ensures forall k :: 0 <= k < |Placeholder(m)| ==> !StartsWith((Placeholder(m) + rest)[k..], Placeholder(n))
  {
    var s := Placeholder(m) + rest;
    var p := Placeholder(n);
    PlaceholderShape(m);
    PlaceholderShape(n);
    forall k | 0 <= k < |Placeholder(m)|
      ensures !StartsWith(s[k..], p)
    {
      if k == 0 {
        if |n| < |m| {
          assert s[2 + |n|] == m[|n|];
          NotStartsWith(s, p, 2 + |n|);
        } else if |n| > |m| {
          assert p[2 + |m|] == n[|m|];
          NotStartsWith(s, p, 2 + |m|);
        } else if StartsWith(s, p) {
          assert false;
        }
      } else if k == 1 {
        assert s[k..][1] == s[2];
        assert s[2] != '{' by {
          if |m| > 0 { assert s[2] == m[0]; } else { assert s[2] == '}'; }
        }
        NotStartsWith(s[k..], p, 1);
      } else {
        assert s[k..][0] == s[k];
        assert s[k] != '{' by {
          if k < 2 + |m| { assert s[k] == m[k - 2]; } else { assert s[k] == '}'; }
        }
        NotStartsWith(s[k..], p, 0);
      }
    }
  }

  function SubstPiece(p: Piece, b: Binding): Piece {
    if p == Slot(b.name) then Text(b.value) else p
  }

  function Subst(ps: seq<Piece>, b: Binding): (r: seq<Piece>)
    ensures |r| == |ps| && forall i :: 0 <= i < |ps| ==> r[i] == SubstPiece(ps[i], b)
  {
    seq(|ps|, i requires 0 <= i < |ps| => SubstPiece(ps[i], b))
  }

  /** The replace passes over literal text without `{`. */
  lemma {:induction false} TextSkip(t: string, r: string, b: Binding)
    requires NoOpen(t)
    ensures ReplaceAll(t + r, Placeholder(b.name), b.value) == t + ReplaceAll(r, Placeholder(b.name), b.value)
  {
    var p := Placeholder(b.name);
    PlaceholderShape(b.name);
    forall k | 0 <= k < |t| ensures !StartsWith((t + r)[k..], p) {
      assert (t + r)[k..][0] == t[k];
      NotStartsWith((t + r)[k..], p, 0);
    }
    ReplaceAllSkip(t, r, p, b.value);
  }

  /** The replace handles the first piece on its own. */
  lemma {:induction false} FrontPiece(x: Piece, r: string, b: Binding)
    requires Structured([x]) && BraceFree(b.name)
    ensures ReplaceAll(PieceText(x) + r, Placeholder(b.name), b.value)
      == PieceText(SubstPiece(x, b)) + ReplaceAll(r, Placeholder(b.name), b.value)
  {
    var p := Placeholder(b.name);
    assert [x][0] == x;
    match x
    case Text(t) =>
      TextSkip(t, r, b);
    case Slot(m) =>
      if m == b.name {
        ReplaceAllAtFront(p, r, b.value);
      } else {
        SlotSkip(m, b.name, r);
        ReplaceAllSkip(Placeholder(m), r, p, b.value);
      }
  }

  /** One replace of the chain fills exactly the slots of its name. */
  lemma {:induction false} ReplaceOne(ps: seq<Piece>, b: Binding)
    requires Structured(ps) && BraceFree(b.name)
    ensures ReplaceAll(Render(ps), Placeholder(b.name), b.value) == Render(Subst(ps, b))
    decreases |ps|
  {
    if ps != [] {
      var rest := ps[1..];
      assert Structured(rest) by {
        forall i | 0 <= i < |rest| ensures (rest[i].Text? ==> NoOpen(rest[i].text)) && (rest[i].Slot? ==> BraceFree(rest[i].name)) {
          assert rest[i] == ps[i + 1];
        }
      }
      assert Render(Subst(ps, b)) == PieceText(SubstPiece(ps[0], b)) + Render(Subst(rest, b)) by {
        assert Subst(ps, b)[1..] == Subst(rest, b);
      }
      ReplaceOne(rest, b);
      assert Structured([ps[0]]) by {
        assert [ps[0]][0] == ps[0];
      }
      FrontPiece(ps[0], Render(rest), b);
    }
  }

  lemma SubstStructured(ps: seq<Piece>, b: Binding)
    requires Structured(ps) && NoOpen(b.value)
    ensures Structured(Subst(ps, b))
  {
  }

  lemma SubstThenResolve(ps: seq<Piece>, bs: seq<Binding>)
    requires bs != []
    ensures Resolve(Subst(ps, bs[0]), bs[1..]) == Resolve(ps, bs)
  {
  }

  /**
   * The replace chain computes the reference meaning: on a structured template, with tame
   * bindings, every bound placeholder becomes the value of its first binding and every other
   * placeholder and all literal text are kept.
   */
  lemma {:induction false} ChainResolves(ps: seq<Piece>, bs: seq<Binding>)
    requires Structured(ps) && Tame(bs)
    ensures ReplaceChain(Render(ps), bs) == Render(Resolve(ps, bs))
    decreases |bs|
  {
    if bs == [] {
      assert Resolve(ps, bs) == ps;
    } else {
      ReplaceOne(ps, bs[0]);
      SubstStructured(ps, bs[0]);
      ChainResolves(Subst(ps, bs[0]), bs[1..]);
      SubstThenResolve(ps, bs);
    }
  }

  /** Resolving twice is resolving once: the text put in is never a slot. */
  lemma ResolveIdempotent(ps: seq<Piece>, bs: seq<Binding>)
    ensures Resolve(Resolve(ps, bs), bs) == Resolve(ps, bs)
  {
  }

  lemma ResolveStructured(ps: seq<Piece>, bs: seq<Binding>)
    requires Structured(ps) && Tame(bs)
    ensures Structured(Resolve(ps, bs))
  {
    forall i | 0 <= i < |ps| ensures Resolve(ps, bs)[i].Text? ==> NoOpen(Resolve(ps, bs)[i].text) {
      if ps[i].Slot? && Lookup(bs, ps[i].name).Some? {
        var v := Lookup(bs, ps[i].name).value;
        var j :| 0 <= j < |bs| && bs[j] == Binding(ps[i].name, v);
      }
    }
  }

  /** On a structured template with tame bindings, running the chain a second time changes nothing. */
  lemma {:induction false} ChainIdempotent(ps: seq<Piece>, bs: seq<Binding>)
    requires Structured(ps) && Tame(bs)
    ensures ReplaceChain(ReplaceChain(Render(ps), bs), bs) == ReplaceChain(Render(ps), bs)
  {
    ChainResolves(ps, bs);
    ResolveStructured(ps, bs);
    ChainResolves(Resolve(ps, bs), bs);
    ResolveIdempotent(ps, bs);
  }

  /** The names the bindings fill. */
  function Names(bs: seq<Binding>): (r: set<string>)
    ensures forall n :: n in r <==> Lookup(bs, n).Some?
  {
    set i | 0 <= i < |bs| :: bs[i].name
  }

  /** No placeholder of a bound name is left after resolution. */
  lemma NoBoundSlotLeft(ps: seq<Piece>, bs: seq<Binding>)
    ensures forall i :: 0 <= i < |ps| && Resolve(ps, bs)[i].Slot? ==> Resolve(ps, bs)[i].name !in Names(bs)
  {
  }

  lemma {:induction false} ChainOfEmpty(bs: seq<Binding>)
    ensures ReplaceChain("", bs) == ""
    decreases |bs|
  {
    if bs != [] {
      ChainOfEmpty(bs[1..]);
    }
  }

  // ----- the two substitutions of the application -----

  /** The replaces applied when mail is put on the send queue directly, in their order. */
  function EnqueueBindings(c: Company, env: SenderEnv, signature: string): (bs: seq<Binding>)
    ensures |bs| == 11
  {
    [ Binding("company_name", c.name),
      Binding("contact_name", Or(c.contactName, "담당자")),
      Binding("contact_title", c.contactTitle),
      Binding("bm_summary", c.bmSummary),
      Binding("news_summary", c.newsSummary),
      Binding("sender_name", env.name),
      Binding("sender_email", env.email),
      Binding("custom_intro", ""),
      Binding("custom_proposal", ""),
      Binding("demo_link", ""),
      Binding("sender_signature", Or(signature, env.name)) ]
  }

  /** The template text with every known placeholder filled; empty text stays empty. */
  function ReplaceVariables(text: string, c: Company, env: SenderEnv, signature: string): (r: string)
    ensures NoOpen(text) ==> r == text
  {
    if text == "" then ""
    else
      var bs := EnqueueBindings(c, env, signature);
      assert NoOpen(text) ==> ReplaceChain(text, bs) == text by {
        if NoOpen(text) {
          ChainKeepsPlain(text, bs);
        }
      }
      ReplaceChain(text, bs)
  }

  /** The company fields, sender and signature put into mail hold no `{`. */
  predicate TameCompany(c: Company, env: SenderEnv, signature: string) {
    NoOpen(c.name) && NoOpen(c.contactName) && NoOpen(c.contactTitle) && NoOpen(c.bmSummary)
    && NoOpen(c.newsSummary) && NoOpen(env.name) && NoOpen(env.email) && NoOpen(signature)
  }

  /** The placeholder names of the application hold no brace. */
  lemma KnownNames()
    ensures BraceFree("company_name") && BraceFree("contact_name") && BraceFree("contact_title")
    ensures BraceFree("bm_summary") && BraceFree("news_summary") && BraceFree("sender_name")
    ensures BraceFree("sender_email") && BraceFree("custom_intro") && BraceFree("custom_proposal")
    ensures BraceFree("demo_link") && BraceFree("sender_signature")
  {
    KnownNamesA();
    KnownNamesB();
    KnownNamesC();
    KnownNamesD();
  }

  lemma KnownNamesA() ensures BraceFree("company_name") && BraceFree("contact_name") && BraceFree("contact_title") {}
  lemma KnownNamesB() ensures BraceFree("bm_summary") && BraceFree("news_summary") && BraceFree("sender_name") {}
  lemma KnownNamesC() ensures BraceFree("sender_email") && BraceFree("custom_intro") && BraceFree("custom_proposal") {}
  lemma KnownNamesD() ensures BraceFree("demo_link") && BraceFree("sender_signature") {}

  /** ... and differ from `demo_link`. */
  lemma KnownNamesDiffer()
    ensures "company_name" != "demo_link" && "contact_name" != "demo_link" && "contact_title" != "demo_link"
    ensures "bm_summary" != "demo_link" && "news_summary" != "demo_link" && "sender_name" != "demo_link"
    ensures "sender_email" != "demo_link" && "custom_intro" != "demo_link" && "custom_proposal" != "demo_link"
    ensures "sender_signature" != "company_name"
  {
  }

  lemma EnqueueBindingsTame(c: Company, env: SenderEnv, signature: string)
    requires TameCompany(c, env, signature)
    ensures Tame(EnqueueBindings(c, env, signature))
  {
    KnownNames();
  }

  /**
   * On a structured template, substitution fills every known placeholder with its value,
   * leaves no known placeholder behind, keeps unknown ones, and is idempotent.
   */
  lemma {:induction false} ReplaceVariablesStructured(ps: seq<Piece>, c: Company, env: SenderEnv, signature: string)
    requires Structured(ps) && TameCompany(c, env, signature)
    ensures ReplaceVariables(Render(ps), c, env, signature) == Render(Resolve(ps, EnqueueBindings(c, env, signature)))
    ensures var once := ReplaceVariables(Render(ps), c, env, signature);
      ReplaceVariables(once, c, env, signature) == once
  {
    var bs := EnqueueBindings(c, env, signature);
    EnqueueBindingsTame(c, env, signature);
    ChainResolves(ps, bs);
    ChainIdempotent(ps, bs);
    ChainOfEmpty(bs);
    ChainOfEmpty(bs);
  }

  /** Text without a `{` holds no placeholder, so the chain of replaces leaves it as it is. */
  lemma {:induction false} ChainKeepsPlain(t: string, bs: seq<Binding>)
    requires NoOpen(t)
    ensures ReplaceChain(t, bs) == t
    decreases |bs|
  {
    if bs != [] {
      TextSkip(t, "", bs[0]);
      assert t + "" == t;
      ChainKeepsPlain(t, bs[1..]);
    }
  }

  /** `{{` before a placeholder: no other placeholder starts inside the `{{`. */
  lemma {:induction false} BracesBeforeSlot(m: string, r: string, b: Binding)
    requires BraceFree(m) && BraceFree(b.name) && NoOpen(r)
    ensures ReplaceAll("{{" + Placeholder(m) + r, Placeholder(b.name), b.value)
      == "{{" + Render(Subst([Slot(m), Text(r)], b))
  {
    var p := Placeholder(b.name);
    var t := Placeholder(m) + r;
    BracesSkipped(m, r, b);
    var ps := [Slot(m), Text(r)];
    assert ReplaceAll(t, p, b.value) == Render(Subst(ps, b)) by {
      assert Structured(ps);
      RenderTwo(Slot(m), Text(r));
      ReplaceOne(ps, b);
    }
    assert "{{" + Placeholder(m) + r == "{{" + t;
  }

  /** The two braces in front of a placeholder cannot start another placeholder. */
  lemma BracesSkipped(m: string, r: string, b: Binding)
    requires BraceFree(m) && BraceFree(b.name)
    ensures var t := Placeholder(m) + r;
      ReplaceAll("{{" + t, Placeholder(b.name), b.value) == "{{" + ReplaceAll(t, Placeholder(b.name), b.value)
  {
    var p := Placeholder(b.name);
    var t := Placeholder(m) + r;
    PlaceholderShape(b.name);
    PlaceholderShape(m);
    assert p[2] != '{' by {
      if |b.name| > 0 { assert p[2] == b.name[0]; }
    }
    forall k | 0 <= k < 2 ensures !StartsWith(("{{" + t)[k..], p) {
      assert ("{{" + t)[k..][2] == '{';
      NotStartsWith(("{{" + t)[k..], p, 2);
    }
    ReplaceAllSkip("{{", t, p, b.value);
  }

  lemma PrefixedSlotUntouched(m: string, r: string, b: Binding)
    requires BraceFree(m) && BraceFree(b.name) && b.name != m && NoOpen(r)
    ensures ReplaceAll("{{" + Placeholder(m) + r, Placeholder(b.name), b.value) == "{{" + Placeholder(m) + r
  {
    var ps := [Slot(m), Text(r)];
    assert Render(Subst(ps, b)) == Placeholder(m) + r by {
      assert Subst(ps, b) == ps;
      RenderTwo(Slot(m), Text(r));
    }
    BracesBeforeSlot(m, r, b);
  }

  lemma PrefixedSlotEmptied(m: string, r: string)
    requires BraceFree(m) && NoOpen(r)
    ensures ReplaceAll("{{" + Placeholder(m) + r, Placeholder(m), "") == "{{" + r
  {
    var ps := [Slot(m), Text(r)];
    assert Render(Subst(ps, Binding(m, ""))) == r by {
      assert Subst(ps, Binding(m, "")) == [Text(""), Text(r)];
      RenderTwo(Text(""), Text(r));
    }
    BracesBeforeSlot(m, r, Binding(m, ""));
  }

  /** Replaces of names other than `m` leave `{{{{m}}` followed by `{`-free text alone. */
  lemma {:induction false} ChainKeepsPrefixedSlot(bs: seq<Binding>, m: string, r: string)
    requires forall i :: 0 <= i < |bs| ==> BraceFree(bs[i].name) && bs[i].name != m
    requires BraceFree(m) && NoOpen(r)
    ensures ReplaceChain("{{" + Placeholder(m) + r, bs) == "{{" + Placeholder(m) + r
    decreases |bs|
  {
    if bs != [] {
      PrefixedSlotUntouched(m, r, bs[0]);
      ChainKeepsPrefixedSlot(bs[1..], m, r);
    }
  }

  lemma {:induction false} ChainSplitAt(t: string, bs: seq<Binding>, k: nat)
    requires k <= |bs|
    ensures ReplaceChain(t, bs) == ReplaceChain(ReplaceChain(t, bs[..k]), bs[k..])
    decreases k
  {
    if k > 0 {
      assert bs[..k][1..] == bs[1..][..k - 1];
      assert bs[1..][k - 1..] == bs[k..];
      ChainSplitAt(ReplaceAll(t, Placeholder(bs[0].name), bs[0].value), bs[1..], k - 1);
    }
  }

  /**
   * Emptying placeholder `m` joins the `{{` before it to the `n}}` after it, and a later
   * replace of another name does not touch the `{{n}}` so assembled.
   */
  lemma {:induction false} ChainAssembles(pre: seq<Binding>, m: string, n: string, last: Binding)
    requires forall i :: 0 <= i < |pre| ==> BraceFree(pre[i].name) && pre[i].name != m
    requires BraceFree(m) && BraceFree(n) && BraceFree(last.name) && last.name != n
    ensures ReplaceChain("{{" + Placeholder(m) + (n + "}}"), pre + [Binding(m, ""), last]) == Placeholder(n)
  {
    var r := n + "}}";
    var bs := pre + [Binding(m, ""), last];
    var t := "{{" + Placeholder(m) + r;
    var u := "{{" + r;
    assert u == Placeholder(n);
    assert ReplaceChain(t, bs[..|pre|]) == t by {
      assert bs[..|pre|] == pre;
      ChainKeepsPrefixedSlot(pre, m, r);
    }
    assert ReplaceChain(t, bs[|pre|..]) == ReplaceChain(u, [last]) by {
      PrefixedSlotEmptied(m, r);
      assert bs[|pre|..] == [Binding(m, ""), last];
      assert bs[|pre|..][1..] == [last];
    }
    assert ReplaceChain(u, [last]) == u by {
      assert Render([Slot(n)]) == u by {
        assert [Slot(n)][1..] == [];
      }
      assert Subst([Slot(n)], last) == [Slot(n)];
      ReplaceOne([Slot(n)], last);
      assert [last][1..] == [];
    }
    ChainSplitAt(t, bs, |pre|);
  }

  /**
   * On unstructured text the chain can assemble a placeholder out of pieces: emptying
   * `{{demo_link}}` joins `{{` and `company_name}}` after `company_name` has already been
   * replaced, so a known placeholder survives the substitution.
   */
  lemma ChainAssemblesPlaceholder(c: Company, env: SenderEnv, signature: string)
    ensures ReplaceVariables("{{{{demo_link}}company_name}}", c, env, signature) == "{{company_name}}"
  {
    var bs := EnqueueBindings(c, env, signature);
    var pre := bs[..9];
    EnqueueBeforeDemoLink(c, env, signature);
    assert bs == pre + [Binding("demo_link", ""), bs[10]];
    ChainAssembles(pre, "demo_link", "company_name", bs[10]);
    AssembledText();
  }

  lemma AssembledText()
    ensures "{{" + Placeholder("demo_link") + ("company_name" + "}}") == "{{{{demo_link}}company_name}}"
    ensures Placeholder("company_name") == "{{company_name}}"
  {
  }

  /** The nine replaces before `demo_link` are of other brace-free names; the last one is not `company_name`. */
  lemma EnqueueBeforeDemoLink(c: Company, env: SenderEnv, signature: string)
    ensures var bs := EnqueueBindings(c, env, signature);
      && (forall i :: 0 <= i < 9 ==> BraceFree(bs[..9][i].name) && bs[..9][i].name != "demo_link")
      && bs[9] == Binding("demo_link", "")
      && BraceFree("demo_link") && BraceFree("company_name") && BraceFree(bs[10].name)
      && bs[10].name != "company_name"
  {
    var bs := EnqueueBindings(c, env, signature);
    KnownNames();
    KnownNamesDiffer();
    forall i | 0 <= i < 9 ensures BraceFree(bs[..9][i].name) && bs[..9][i].name != "demo_link" {
      assert bs[..9][i] == bs[i];
      if i == 0 {} else if i == 1 {} else if i == 2 {} else if i == 3 {} else if i == 4 {}
      else if i == 5 {} else if i == 6 {} else if i == 7 {} else {}
    }
  }

  // ----- the template preview -----

  /** The replaces the template preview applies to a sample company, in their order. */
  function PreviewBindings(c: Company, env: SenderEnv): (bs: seq<Binding>)
    ensures |bs| == 9
  {
    [ Binding("company_name", c.name),
      Binding("contact_name", Or(c.contactName, "담당자")),
      Binding("bm_summary", c.bmSummary),
      Binding("news_summary", c.newsSummary),
      Binding("custom_intro", "[AI 생성 인트로]"),
      Binding("custom_proposal", "[AI 생성 제안]"),
      Binding("demo_link", "https://demo.gptko.co.kr"),
      Binding("sender_name", Or(env.name, "GPTko")),
      Binding("sender_signature", "[발신자 서명]") ]
  }

  datatype PreviewText = PreviewText(subject: string, body: string)

  /** The first company in the list with the given id (`companies.find`). */
  function FindCompany(cs: seq<(Id, Company)>, id: Id): (r: Option<Company>)
    ensures r.Some? ==> (id, r.value) in cs
    ensures r.None? ==> forall i :: 0 <= i < |cs| ==> cs[i].0 != id
    decreases |cs|
  {
    if cs == [] then None
    else if cs[0].0 == id then Some(cs[0].1)
    else FindCompany(cs[1..], id)
  }

  /**
   * What the preview shows after a change of template or selection: the filled template for
   * a selected company that is in the list, the raw template when nothing is selected, and the
   * previous preview otherwise.
   */
  function Preview(t: Option<Template>, selected: Option<Id>, cs: seq<(Id, Company)>, env: SenderEnv, prev: PreviewText): (r: PreviewText)
    ensures t.None? ==> r == prev
    ensures t.Some? && selected.None? ==> r == PreviewText(t.value.subject, t.value.body)
    ensures t.Some? && selected.Some? && FindCompany(cs, selected.value).None? ==> r == prev
    ensures t.Some? && selected.Some? && FindCompany(cs, selected.value).Some? ==>
      var bs := PreviewBindings(FindCompany(cs, selected.value).value, env);
      r == PreviewText(ReplaceChain(t.value.subject, bs), ReplaceChain(t.value.body, bs))
  {
    match t
    case None => prev
    case Some(tpl) =>
      match selected
      case None => PreviewText(tpl.subject, tpl.body)
      case Some(id) =>
        match FindCompany(cs, id)
        case None => prev
        case Some(c) =>
          var bs := PreviewBindings(c, env);
          PreviewText(ReplaceChain(tpl.subject, bs), ReplaceChain(tpl.body, bs))
  }

  lemma PreviewConstants()
    ensures NoOpen("담당자") && NoOpen("[AI 생성 인트로]") && NoOpen("[AI 생성 제안]")
    ensures NoOpen("https://demo.gptko.co.kr") && NoOpen("GPTko") && NoOpen("[발신자 서명]")
  {
  }

  lemma PreviewBindingsTame(c: Company, env: SenderEnv)
    requires NoOpen(c.name) && NoOpen(c.contactName) && NoOpen(c.bmSummary) && NoOpen(c.newsSummary) && NoOpen(env.name)
    ensures Tame(PreviewBindings(c, env))
  {
    KnownNames();
    PreviewConstants();
  }

  /** The preview binds neither `contact_title` nor `sender_email`. */
  lemma PreviewUnbound(c: Company, env: SenderEnv)
    ensures Lookup(PreviewBindings(c, env), "contact_title").None?
    ensures Lookup(PreviewBindings(c, env), "sender_email").None?
  {
  }

  /**
   * On a structured template and a sample company whose values hold no `{`, the preview is the
   * template with the nine bound slots filled in, and it leaves `{{contact_title}}` and
   * `{{sender_email}}` as they are: the preview has no replace for either.
   */
  lemma PreviewLeavesUnfilled(ps: seq<Piece>, c: Company, env: SenderEnv)
    requires Structured(ps)
    requires NoOpen(c.name) && NoOpen(c.contactName) && NoOpen(c.bmSummary) && NoOpen(c.newsSummary) && NoOpen(env.name)
    ensures ReplaceChain(Render(ps), PreviewBindings(c, env)) == Render(Resolve(ps, PreviewBindings(c, env)))
    ensures forall i :: 0 <= i < |ps| && (ps[i] == Slot("contact_title") || ps[i] == Slot("sender_email")) ==>
      Resolve(ps, PreviewBindings(c, env))[i] == ps[i]
  {
    PreviewBindingsTame(c, env);
    ChainResolves(ps, PreviewBindings(c, env));
    PreviewUnbound(c, env);
  }
}

=== FILE: utils.dfy ===
/**
 * The client-side helpers the import and send screens rely on: the naive CSV reader, the email
 * shape test, per-row company validation, class-name joining, the relative-time buckets and
 * the send-status badge table.
 */
module Utils {
  import opened Wrappers
  import opened Strings
  import opened Records

  // ----- CSV -----

  /** A header or value cell: trimmed, then one leading and one trailing `"` dropped. */
  function Cell(raw: string): (c: string)
    ensures |c| <= |raw|
  {
    StripQuotes(Trim(raw))
  }

  /**
   * What a cell keeps of its raw text: `raw` is white space, then a run that starts and ends
   * with no white space and is the cell in optional quotes, then white space.
   */
  lemma CellSlice(raw: string)
    ensures exists i, j :: TrimBounds(raw, i, j) && QuotesAround(raw[i..j], Cell(raw))
  {
    var t := Trim(raw);
    TrimIsSlice(raw);
    var i, j :| TrimBounds(raw, i, j) && t == raw[i..j];
    assert QuotesAround(t, Cell(raw));
  }

  /** The cells of one line, split on every comma (quotes do not protect commas). */
  function Cells(line: string): (cs: seq<string>)
    ensures |cs| == |Split(line, ',')|
  {
    var parts := Split(line, ',');
    seq(|parts|, k requires 0 <= k < |parts| => Cell(parts[k]))
  }

  /** The lines of the trimmed text. */
  function Lines(text: string): (ls: seq<string>)
    ensures |ls| >= 1
  {
    Split(Trim(text), '\n')
  }

  /** `values[k] || ''`. */
  function ValueAt(values: seq<string>, k: nat): string {
    if k < |values| then values[k] else ""
  }

  /** The row after `headers.forEach` has visited the first `k` headers. */
  function RowUpTo(headers: seq<string>, values: seq<string>, k: nat): map<string, string>
    requires k <= |headers|
  {
    if k == 0 then map[] else RowUpTo(headers, values, k - 1)[headers[k - 1] := ValueAt(values, k - 1)]
  }

  /** The row object for one data line. */
  function Row(headers: seq<string>, values: seq<string>): map<string, string> {
    RowUpTo(headers, values, |headers|)
  }

  /** `headers.forEach((header, index) => row[header] = values[index] || '')`. */
  method BuildRow(headers: seq<string>, values: seq<string>) returns (row: map<string, string>)
    ensures row == Row(headers, values)
  {
    row := map[];
    var k := 0;
    while k < |headers|
      invariant 0 <= k <= |headers|
      invariant row == RowUpTo(headers, values, k)
    {
      row := row[headers[k] := ValueAt(values, k)];
      k := k + 1;
    }
  }

  datatype Csv = Csv(headers: seq<string>, data: seq<map<string, string>>)

  /**
   * `parseCSV`: the header cells of the first line, and one row object per further line that
   * maps every header to the value in its column.
   */
  method ParseCsv(text: string) returns (r: Csv)
    ensures r.headers == Cells(Lines(text)[0])
    ensures |r.data| == |Lines(text)| - 1
    ensures forall i :: 0 <= i < |r.data| ==> r.data[i] == Row(r.headers, Cells(Lines(text)[i + 1]))
  {
    var lines := Lines(text);
    var headers := Cells(lines[0]);
    var data: seq<map<string, string>> := [];
    var i := 1;
    while i < |lines|
      invariant 1 <= i <= |lines|
      invariant |data| == i - 1
      invariant forall j :: 0 <= j < |data| ==> data[j] == Row(headers, Cells(lines[j + 1]))
    {
      var row := BuildRow(headers, Cells(lines[i]));
      data := data + [row];
      i := i + 1;
    }
    r := Csv(headers, data);
  }

  /** Every row has exactly the headers as keys. */
  lemma {:induction false} RowKeys(headers: seq<string>, values: seq<string>, k: nat)
    requires k <= |headers|
    ensures RowUpTo(headers, values, k).Keys == set j | 0 <= j < k :: headers[j]
  {
    if k > 0 {
      RowKeys(headers, values, k - 1);
    }
  }

  /**
   * A header takes the value in the column of its last occurrence; a short line gives `""`
   * for the missing columns, and values beyond the last header are dropped.
   */
  lemma {:induction false} RowValue(headers: seq<string>, values: seq<string>, k: nat, j: nat)
    requires j < k <= |headers|
    requires forall l :: j < l < k ==> headers[l] != headers[j]
    ensures headers[j] in RowUpTo(headers, values, k)
    ensures RowUpTo(headers, values, k)[headers[j]] == (if j < |values| then values[j] else "")
  {
    if j < k - 1 {
      RowValue(headers, values, k - 1, j);
    }
  }

  /** Every row of `parseCSV` has exactly the header set as keys, and each header its column's value. */
  lemma ParsedRow(headers: seq<string>, values: seq<string>, j: nat)
    requires j < |headers|
    requires forall l :: j < l < |headers| ==> headers[l] != headers[j]
    ensures Row(headers, values).Keys == set k | 0 <= k < |headers| :: headers[k]
    ensures Row(headers, values)[headers[j]] == ValueAt(values, j)
  {
    RowKeys(headers, values, |headers|);
    RowValue(headers, values, |headers|, j);
  }

  /** A comma inside double quotes still splits the cell: `"x,y"` reads as the two cells `x` and `y`. */
  lemma QuotedCommaSplits()
    ensures Cells("\"x,y\"") == ["x", "y"]
  {
    QuotedLineSplits();
    CellsOfTwo("\"x,y\"", "\"x", "y\"");
    CellDropsQuote("\"x", "x");
    CellDropsQuote("y\"", "y");
  }

  lemma CellsOfTwo(line: string, a: string, b: string)
    requires Split(line, ',') == [a, b]
    ensures Cells(line) == [Cell(a), Cell(b)]
  {
  }

  lemma QuotedLineSplits()
    ensures Split("\"x,y\"", ',') == ["\"x", "y\""]
  {
    var a, b := "\"x", "y\"";
    assert "\"x,y\"" == a + ([','] + b);
    SplitPrefix(a, [','] + b, ',');
    assert Split([','] + b, ',') == [""] + Split(b, ',') by {
      assert ([','] + b)[1..] == b;
    }
    SplitPrefix(b, "", ',');
    assert b + "" == b && a + "" == a;
  }

  lemma CellDropsQuote(raw: string, c: string)
    requires (raw == "\"x" && c == "x") || (raw == "y\"" && c == "y")
    ensures Cell(raw) == c
  {
    assert !IsSpace(raw[0]) && !IsSpace(raw[1]);
    TrimKeeps(raw);
  }

  // ----- email -----

  /** A run of one or more characters, none of them white space or `@` (`[^\s@]+`). */
  predicate Atom(x: string) {
    x != [] && forall k :: 0 <= k < |x| ==> !IsSpace(x[k]) && x[k] != '@'
  }

  /** The strings `/^[^\s@]+@[^\s@]+\.[^\s@]+$/` matches: `local@left.right`, three atoms. */
  predicate EmailShape(s: string) {
    exists a: nat, d: nat :: a < d < |s| && s[a] == '@' && s[d] == '.'
      && Atom(s[..a]) && Atom(s[a + 1..d]) && Atom(s[d + 1..])
  }

  /** The position of the first `c` in `s`. */
  function IndexOf(s: string, c: char): (r: Option<nat>)
    ensures r.None? <==> c !in s
    ensures r.Some? ==> r.value < |s| && s[r.value] == c && c !in s[..r.value]
    decreases |s|
  {
    if s == [] then None
    else if s[0] == c then Some(0)
    else match IndexOf(s[1..], c)
      case None => None
      case Some(k) => assert s[..k + 1] == [s[0]] + s[1..][..k]; Some(k + 1)
  }

  /**
   * `validateEmail`: no white space anywhere, exactly one `@` with something before it, and
   * after it a domain with a `.` that is neither its first nor its last character.
   */
  function ValidateEmail(s: string): (r: bool)
    ensures r ==> 5 <= |s| && '@' in s && s[0] != '@'
  {
    match IndexOf(s, '@')
    case None => false
    case Some(a) =>
      var dom := s[a + 1..];
      NoSpace(s) && a > 0 && '@' !in dom && |dom| >= 3 && '.' in dom[1..|dom| - 1]
  }

  lemma AtomSlice(s: string, i: nat, j: nat)
    requires i < j <= |s| && NoSpace(s) && '@' !in s[i..j]
    ensures Atom(s[i..j])
  {
    forall k | 0 <= k < j - i ensures !IsSpace(s[i..j][k]) && s[i..j][k] != '@' {
      assert s[i..j][k] == s[i + k];
    }
  }

  /** The shape test agrees with the regular expression, in both directions. */
  lemma ValidateEmailIffShape(s: string)
    ensures ValidateEmail(s) <==> EmailShape(s)
  {
    if ValidateEmail(s) {
      ValidateEmailSound(s);
    }
    if EmailShape(s) {
      var a: nat, d: nat :| a < d < |s| && s[a] == '@' && s[d] == '.'
        && Atom(s[..a]) && Atom(s[a + 1..d]) && Atom(s[d + 1..]);
      ValidateEmailComplete(s, a, d);
    }
  }

  lemma ValidateEmailSound(s: string)
    requires ValidateEmail(s)
    ensures EmailShape(s)
  {
    var a := IndexOf(s, '@').value;
    var dom := s[a + 1..];
    var k :| 0 <= k < |dom[1..|dom| - 1]| && dom[1..|dom| - 1][k] == '.';
    var d := a + 2 + k;
    assert s[d] == '.' by {
      assert dom[1..|dom| - 1][k] == dom[k + 1] == s[d];
    }
    assert Atom(s[..a]) by {
      AtomSlice(s, 0, a);
    }
    assert Atom(s[a + 1..d]) by {
      assert s[a + 1..d] == dom[..k + 1];
      var x := dom[..k + 1];
      assert '@' !in x by {
        forall j | 0 <= j < |x| ensures x[j] != '@' {
          assert x[j] == dom[j];
        }
      }
      AtomSlice(s, a + 1, d);
    }
    assert Atom(s[d + 1..]) by {
      assert s[d + 1..] == dom[k + 2..];
      var y := dom[k + 2..];
      assert '@' !in y by {
        forall j | 0 <= j < |y| ensures y[j] != '@' {
          assert y[j] == dom[j + k + 2];
        }
      }
      AtomSlice(s, d + 1, |s|);
      assert s[d + 1..|s|] == s[d + 1..];
    }
  }

  lemma ValidateEmailComplete(s: string, a: nat, d: nat)
    requires a < d < |s| && s[a] == '@' && s[d] == '.'
    requires Atom(s[..a]) && Atom(s[a + 1..d]) && Atom(s[d + 1..])
    ensures ValidateEmail(s)
  {
    assert IndexOf(s, '@') == Some(a) by {
      var r := IndexOf(s, '@');
      assert '@' in s by { assert s[a] == '@'; }
    }
    var dom := s[a + 1..];
    assert '.' in dom[1..|dom| - 1] by {
      assert dom[1..|dom| - 1][d - a - 2] == '.';
    }
    assert '@' !in dom by {
      forall k | 0 <= k < |dom| ensures dom[k] != '@' {
        if k < d - a - 1 {
          assert dom[k] == s[a + 1..d][k];
        } else if k > d - a - 1 {
          assert dom[k] == s[d + 1..][k - (d - a)];
        }
      }
    }
    assert NoSpace(s) by {
      forall k | 0 <= k < |s| ensures !IsSpace(s[k]) {
        if k < a {
          assert s[k] == s[..a][k];
        } else if a < k < d {
          assert s[k] == s[a + 1..d][k - a - 1];
        } else if k > d {
          assert s[k] == s[d + 1..][k - d - 1];
        }
      }
    }
  }

  // ----- company row validation -----

  /** A row read from an upload: a missing key reads as `""`. */
  function Field(row: map<string, string>, key: string): string {
    if key in row then row[key] else ""
  }

  /** The email `validateCompanyData` checks: the first non-empty of three columns. */
  function RowEmail(row: map<string, string>): string {
    var a := Field(row, "contact_email");
    var b := Field(row, "이메일");
    if a != "" then a else if b != "" then b else Field(row, "담당자이메일")
  }

  predicate NameMissing(row: map<string, string>) {
    Field(row, "name") == "" && Field(row, "회사명") == ""
  }

  const NameMissingMsg := "회사명 누락"
  const EmailMissingMsg := "이메일 누락"
  const EmailFormatMsg := "이메일 형식 오류"

  /**
   * `validateCompanyData`: the errors, in order: a missing name first, then at most one of a
   * missing and a malformed email.  No errors exactly when the name is there and the email has
   * the right shape.
   */
  method ValidateCompanyData(row: map<string, string>) returns (errors: seq<string>)
    ensures |errors| == (if NameMissing(row) then 1 else 0) + (if ValidateEmail(RowEmail(row)) then 0 else 1)
    ensures errors == [] <==> !NameMissing(row) && ValidateEmail(RowEmail(row))
    ensures NameMissingMsg in errors <==> NameMissing(row)
    ensures NameMissing(row) ==> errors[0] == NameMissingMsg
    ensures EmailMissingMsg in errors <==> RowEmail(row) == ""
    ensures EmailFormatMsg in errors <==> RowEmail(row) != "" && !ValidateEmail(RowEmail(row))
  {
    errors := [];
    if Field(row, "name") == "" && Field(row, "회사명") == "" {
      errors := errors + [NameMissingMsg];
    }
    var email := RowEmail(row);
    if email == "" {
      errors := errors + [EmailMissingMsg];
    } else if !ValidateEmail(email) {
      errors := errors + [EmailFormatMsg];
    }
  }

  // ----- class names -----

  /** An argument of `cn`: a class string, or `false`/`null`/`undefined` (`None`). */
  function Truthy(classes: seq<Option<string>>): (r: seq<string>)
    ensures |r| <= |classes|
    ensures forall k :: 0 <= k < |r| ==> r[k] != ""
    decreases |classes|
  {
    if classes == [] then []
    else
      var rest := Truthy(classes[1..]);
      match classes[0]
      case Some(c) => if c != "" then [c] + rest else rest
      case None => rest
  }

  /** `cn`: the truthy class names, in order, joined by single spaces. */
  function Cn(classes: seq<Option<string>>): (r: string)
    ensures r == "" <==> Truthy(classes) == []
  {
    var parts := Truthy(classes);
    assert parts != [] ==> |Join(parts, " ")| >= |parts[0]| by {
      if |parts| > 1 {
        assert Join(parts, " ") == parts[0] + " " + Join(parts[1..], " ");
      }
    }
    Join(parts, " ")
  }

  /** Splitting the result of `cn` on spaces gives back exactly the truthy classes, in order. */
  lemma CnSplits(classes: seq<Option<string>>)
    requires Truthy(classes) != []
    requires forall k :: 0 <= k < |classes| && classes[k].Some? ==> ' ' !in classes[k].value
    ensures Split(Cn(classes), ' ') == Truthy(classes)
  {
    TruthyFrom(classes);
    SplitJoin(Truthy(classes), ' ');
  }

  lemma {:induction false} TruthyFrom(classes: seq<Option<string>>)
    ensures forall k :: 0 <= k < |Truthy(classes)| ==> Some(Truthy(classes)[k]) in classes
    decreases |classes|
  {
    if classes != [] {
      TruthyFrom(classes[1..]);
      forall x | x in classes[1..] ensures x in classes { }
    }
  }

  /** With no truthy class, `cn` is empty. */
  lemma CnNone(classes: seq<Option<string>>)
    requires forall k :: 0 <= k < |classes| ==> classes[k].None? || classes[k].value == ""
    ensures Cn(classes) == ""
  {
    TruthyNone(classes);
  }

  lemma {:induction false} TruthyNone(classes: seq<Option<string>>)
    requires forall k :: 0 <= k < |classes| ==> classes[k].None? || classes[k].value == ""
    ensures Truthy(classes) == []
    decreases |classes|
  {
    if classes != [] {
      TruthyNone(classes[1..]);
    }
  }

  // ----- relative time -----

  const MinuteMs := 60000
  const HourMs := 3600000
  const DayMs := 86400000

  /** What `formatRelativeTime` shows; `AbsoluteDate` stands for the `formatDate` fallback. */
  datatype RelativeTime = Dash | JustNow | MinutesAgo(minutes: int) | HoursAgo(hours: int)
    | DaysAgo(days: int) | AbsoluteDate(at: Time)
  {
    function Label(): string
      requires !AbsoluteDate?
    {
      match this
      case Dash => "-"
      case JustNow => "방금 전"
      case MinutesAgo(m) => NatToString(if m < 0 then 0 else m) + "분 전"
      case HoursAgo(h) => NatToString(if h < 0 then 0 else h) + "시간 전"
      case DaysAgo(d) => NatToString(if d < 0 then 0 else d) + "일 전"
    }
  }

  /**
   * `formatRelativeTime(date)` at instant `now` (milliseconds): each bucket is chosen exactly
   * when the floored elapsed time falls in its range.
   */
  function FormatRelativeTime(date: Option<Time>, now: Time): (r: RelativeTime)
    ensures date.None? <==> r == Dash
    ensures date.Some? ==> var diff := now - date.value;
      && (r == JustNow <==> diff < MinuteMs)
      && (r.MinutesAgo? <==> MinuteMs <= diff < HourMs)
      && (r.HoursAgo? <==> HourMs <= diff < DayMs)
      && (r.DaysAgo? <==> DayMs <= diff < 7 * DayMs)
      && (r.AbsoluteDate? <==> 7 * DayMs <= diff)
      && (r.MinutesAgo? ==> 1 <= r.minutes < 60 && r.minutes * MinuteMs <= diff < (r.minutes + 1) * MinuteMs)
      && (r.HoursAgo? ==> 1 <= r.hours < 24 && r.hours * HourMs <= diff < (r.hours + 1) * HourMs)
      && (r.DaysAgo? ==> 1 <= r.days < 7 && r.days * DayMs <= diff < (r.days + 1) * DayMs)
      && (r.AbsoluteDate? ==> r.at == date.value)
  {
    match date
    case None => Dash
    case Some(d) =>
      var diff := now - d;
      var minutes := diff / MinuteMs;
      var hours := diff / HourMs;
      var days := diff / DayMs;
      if minutes < 1 then JustNow
      else if minutes < 60 then MinutesAgo(minutes)
      else if hours < 24 then HoursAgo(hours)
      else if days < 7 then DaysAgo(days)
      else AbsoluteDate(d)
  }

  // ----- send-status badge -----

  datatype Badge = Badge(bg: string, text: string)

  /** `sendStatusConfig`: the badge colours for each send-status label. */
  const SendStatusConfig: map<string, Badge> := map[
    "미발송" := Badge("bg-gray-100", "text-gray-600"),
    "1차완료" := Badge("bg-blue-50", "text-blue-600"),
    "2차완료" := Badge("bg-indigo-50", "text-indigo-600"),
    "3차완료" := Badge("bg-purple-50", "text-purple-600")]

  /** The badge table has an entry for every send status, and no other key. */
  lemma SendStatusConfigKeys()
    ensures forall st: SendStatus :: st.Label() in SendStatusConfig
    ensures forall key :: key in SendStatusConfig ==> exists st: SendStatus :: st.Label() == key
  {
    assert NotSent.Label() == "미발송" && FirstDone.Label() == "1차완료";
    assert SecondDone.Label() == "2차완료" && ThirdDone.Label() == "3차완료";
  }
}

=== FILE: wrappers.dfy ===
/** Option and Result, the two failure-carrying wrappers the model uses. */
module Wrappers {

  /** A value that may be absent: a SQL NULL, a JavaScript `undefined`, a missing row. */
  datatype Option<+T> = None | Some(value: T) {
    function GetOr(default: T): T {
      match this
      case Some(v) => v
      case None => default
    }
  }

  /** Either a value or an error message. */
  datatype Result<+T> = Ok(value: T) | Err(error: string)
}
